=== FILE: README.md ===
# Invoicing and reconciliation core of a footwear reseller's web app

The application keeps five kinds of stored record for second-hand shoes sold under
India's GST margin scheme:

- **Sales**: one row per pair sold.
- **PaymentTracker**: what has been received for each pair.
- **GST**: the margin-scheme tax line of each pair.
- **Invoice** and **InvoiceItem**: the invoices and their lines.

Spreadsheets enter the system through four import flows:

- the **sales import**: new sales, cloned one-to-one into trackers and GST rows and then reconciled;
- the **historical import**: past invoices, several rows per invoice number;
- the **bulk invoice upload**: columns detected from the headers, rows grouped into draft invoices;
- the **payment import**: payments applied to trackers by barcode.

The pages then derive and edit views of the stored records:

- the GST register, with its monthly summary, filters, sort, margin correction and delete;
- the sales batches and their cascading deletes;
- the payment dashboard, with cards per date, totals and overdue entries;
- the invoice list and the manual invoice form.

Shared pieces:

- the Indian financial-year label;
- the invoice-number sequence;
- amounts in words;
- the lakh/crore currency format;
- the spreadsheet date normaliser.

The Dafny project models all of this as pure functions over immutable datatypes.

- The store is a record of five sequences (`Entities.Store`). An import or a delete is a
  function from the store before to the store after.
- Spreadsheet cells are `Common.Cell`, one of:
  - `Absent`;
  - a number together with the text the engine prints for it;
  - a text.
- JavaScript truthiness, `|| default` and `toString().trim()` are written out explicitly.
- Money is `real`.
- Dates are `(year, month, day)` triples on the proleptic Gregorian calendar.
- Anything the code asks of the clock, the server or the browser is a parameter:
  - today's date;
  - the batch id built from `Date.now()`;
  - the ids the server assigns;
  - the engine's `toString` of a number;
  - its reading of a free-form payment date.

Modules follow the program's structure:

- `Common`: Option, cells, text, digits, filter/sum/map.
- `Grouping`: the `reduce` into an object of arrays.
- `Sorting`: the engine's stable sort with a three-way comparator.
- `Dates`, `FiscalYear`, `Numbering`, `AmountWords`, `Currency`: the shared derivations.
- `Entities`: the stored records.
- One module per page or flow: `SalesImport`, `HistoricalImport`, `BulkUpload`, `Payments`,
  `GstPage`, `SalesPage`, `TrackerPage`, `InvoiceList`, `InvoiceForm`.

## Model

| member | source | states |
|---|---|---|
| Common.ParseFloatBareFraction | src/pages/Gst.jsx:149 | `parseFloat` reads a fraction with no integer part, such as ".5" or "-.5", as its signed value. |
| Common.LowerCharExamples | src/pages/HistoricalImport.jsx:308 | `toLowerCase` folds accented Latin and Cyrillic capitals with their small letters, e.g. "É" with "é". |
| Common.LowerCharTwice | src/pages/Gst.jsx:117-121 | Lowering a lowered character changes nothing. |
| Grouping.GroupByIsPartition | src/pages/Salesimport.jsx:343-348 | Grouping by key yields the distinct keys in order of first appearance; each group holds exactly that key's elements in list order. |
| Grouping.GroupByTotals | src/pages/Salesimport.jsx:343-348 | The group sizes add up to the list length, and the groups' sums add up to the list's sum. |
| Grouping.GroupByNonEmpty | src/pages/Salesimport.jsx:343-348 | No group is empty. |
| Sorting.LessIsOrder | src/pages/Gst.jsx:140-141 | The `<` of column values (numbers by value, texts by character code) is a strict total order. |
| Sorting.AheadIsWeakOrder | src/pages/Gst.jsx:136-143 | The ascending/descending comparator is a strict weak order, so the engine's sort is well defined. |
| Sorting.SortPermutes | src/pages/Gst.jsx:136-143 | The sort returns a permutation of its input. |
| Sorting.SortOrdered | src/pages/Gst.jsx:136-143 | In the sorted list no record is ahead of one placed before it. |
| Sorting.SortStable | src/pages/Gst.jsx:136-143 | Records with equal column values keep their input order (the engine's sort is stable). |
| Sorting.SortOfEqualValues | src/pages/Gst.jsx:137 | When the comparator always answers 0, the list is left exactly as it was. |
| Dates.NextPrev | src/pages/HistoricalImport.jsx:95-96 | The day after and the day before are inverse steps on valid calendar days. |
| Dates.AddDaysMonotone | src/pages/HistoricalImport.jsx:95-96 | Adding more days gives a strictly later day. |
| Dates.SerialDate | src/pages/HistoricalImport.jsx:94-101 | A spreadsheet day serial gives a valid calendar day, counted in whole days from 30 December 1899. |
| Dates.SerialDateSteps | src/pages/HistoricalImport.jsx:94-101 | Consecutive serials give consecutive days, a larger serial a later day, and distinct serials distinct days. |
| Dates.SerialExamples | src/pages/HistoricalImport.jsx:95-100 | Serial 1 is 1899-12-31; the fraction of 2.5 is a time of day, so it reads as 1900-01-01. |
| Dates.MatchIso | src/pages/HistoricalImport.jsx:106-107 | The year-first pattern captures exactly four year digits and one or two digits each for month and day. |
| Dates.MatchDmy | src/pages/HistoricalImport.jsx:116-117 | The day-first pattern captures one or two digits for day and month and exactly four for the year. |
| Dates.ParseIsoText | src/pages/HistoricalImport.jsx:103-113 | A padded `YYYY-MM-DD` text is parsed back unchanged. |
| Dates.ParsedTextIsIso | src/pages/HistoricalImport.jsx:109-129 | Both text branches produce a padded `YYYY-MM-DD` text. |
| Dates.ParseDateIdempotent | src/pages/HistoricalImport.jsx:91-135 | A parsed date is padded ISO and is a fixed point of the parser. |
| Dates.ParseDayFirst | src/pages/HistoricalImport.jsx:116-131 | A `DD/MM/YYYY` text gives the padded date exactly when day ≤ 31, month ≤ 12 and year ≥ 1900, and nothing otherwise. |
| Dates.ThirtyFirstOfFebruary | src/pages/HistoricalImport.jsx:128-129 | The range check does not look at month lengths: "31/02/2024" is accepted as "2024-02-31". |
| Dates.SalesDateIsParseOrToday | src/pages/Salesimport.jsx:144-209 | The sales import's date matches the historical parser wherever that parser gives a date, and is today's date exactly where it gives none. |
| Dates.OutOfRangeDate | src/pages/Salesimport.jsx:186-194 | An out-of-range day-first date is rejected by one importer and replaced by today in the other. |
| Dates.FormatDateIso | src/pages/Salesimport.jsx:145-149 | A day with a four-digit year is written as a padded ISO text. |
| Dates.ReadIsoDate | src/pages/Salesimport.jsx:255 | Reading a stored date text succeeds only on a padded ISO text naming a real day. |
| Dates.ReadFormatDate | src/pages/Salesimport.jsx:255 | A day written as `YYYY-MM-DD` and read back is the same day. |
| FiscalYear.FinancialYear | src/components/invoices/InvoiceForm.jsx:141-149 | The label is the last two digits of the starting calendar year, then "-", then those of the next year. |
| FiscalYear.StartYearWindow | src/components/invoices/InvoiceForm.jsx:145-148 | A day's financial year starts in year y exactly when the day falls between 1 April y (inclusive) and 1 April y+1 (exclusive). |
| FiscalYear.WindowLabel | src/components/invoices/InvoiceForm.jsx:141-149 | Every day from 1 April y up to 1 April y+1 is labelled with the tails of y and y+1. |
| FiscalYear.SameWindowSameLabel | src/components/invoices/InvoiceForm.jsx:141-149 | Two days in the same April-to-March window get the same label. |
| FiscalYear.LabelHalvesConsecutive | src/components/invoices/InvoiceForm.jsx:146 | For four-digit years the label is `YY-YY`, and its halves are consecutive modulo 100. |
| FiscalYear.AprilBoundary | src/components/invoices/InvoiceForm.jsx:145-148 | 31 March 2024 belongs to "23-24" and 1 April 2024 to "24-25". |
| FiscalYear.FinancialYearOf | src/components/invoices/InvoiceForm.jsx:141-149 | A stored date text gets the label of its day; an unreadable text gets "N-N". |
| FiscalYear.InvalidDatesShareLabel | src/components/invoices/InvoiceForm.jsx:142-144 | All unreadable date texts share the one label "N-N", and so share one numbering sequence. |
| FiscalYear.FinancialYearOfFormat | src/components/invoices/InvoiceForm.jsx:141-149 | A day written out and read back keeps its financial year. |
| AmountWords.NumberToWords | src/components/invoices/InvoiceForm.jsx:126-139 | The words are "Zero" exactly for 0; any other number gives non-empty words with no "Z". |
| AmountWords.AmountInWords | src/components/invoices/InvoiceForm.jsx:204 | The text always ends in " Rupees Only", preceded by the words of the floor of the total. A negative total gives "undefined Rupees Only". |
| AmountWords.NoZeroWord | src/components/invoices/InvoiceForm.jsx:134-138 | For a positive amount the words never contain "Zero", because recursion happens only on non-zero remainders. |
| AmountWords.ExampleHundreds | src/components/invoices/InvoiceForm.jsx:135 | 100 is "One Hundred" and 101 is "One Hundred and One". |
| AmountWords.ExampleThousand | src/components/invoices/InvoiceForm.jsx:135-136 | 1500 is "One Thousand Five Hundred". |
| AmountWords.ExampleLakh | src/components/invoices/InvoiceForm.jsx:137 | 100000 is "One Lakh". |
| AmountWords.ExampleCrore | src/components/invoices/InvoiceForm.jsx:138 | 10000000 is "One Crore". |
| AmountWords.SplitWords | src/components/invoices/InvoiceForm.jsx:126-139 | Splitting the words on spaces gives exactly the structured word list of the same recursion. |
| AmountWords.DecodeTokens | src/components/invoices/InvoiceForm.jsx:126-139 | Reading the word list back gives the number. |
| AmountWords.WordsInjective | src/components/invoices/InvoiceForm.jsx:126-139 | Distinct amounts are written with distinct words. |
| Currency.FormatIndianCurrency | src/components/utils/formatCurrency.jsx:2-20 | A missing amount prints "₹0". Otherwise the text starts with "₹", has "-" second exactly when the amount is negative, and ends in "." and two digits. |
| Currency.GroupPairsIsRegex | src/components/utils/formatCurrency.jsx:15-17 | Grouping the leading digits in pairs from the right is what the global regular-expression replace does. |
| Currency.FormatRoundTrip | src/components/utils/formatCurrency.jsx:2-20 | Removing the rupee sign, the minus sign and the commas reads a formatted amount back to the amount. |
| Currency.FormatInjective | src/components/utils/formatCurrency.jsx:2-20 | Distinct amounts are never formatted alike. |
| Currency.CommaIffThousands | src/components/utils/formatCurrency.jsx:11-17 | A comma appears exactly when the integer part is 1000 or more. |
| Currency.NegativeIsSignedAbsolute | src/components/utils/formatCurrency.jsx:5-19 | A negative amount is formatted as its absolute value with "-" after the rupee sign. |
| Currency.LakhExample | src/components/utils/formatCurrency.jsx:15-19 | 1234567.80 is written "₹12,34,567.80". |
| Numbering.TrailingNumberMatches | src/components/invoices/InvoiceForm.jsx:165-166 | `/\/(\d+)$/` matches exactly when some slash is followed only by digits, at least one, and the capture is that number. |
| Numbering.TrailingNumberOfSuffix | src/components/invoices/InvoiceForm.jsx:169 | Whatever precedes it, "/n" at the end reads back as n. |
| Numbering.ExtractNumber | src/pages/Invoices.jsx:275-279 | The trailing sequence number of an invoice number, or 0 when it is missing or has none. |
| Numbering.MaxSequence | src/components/invoices/InvoiceForm.jsx:163-168 | The highest sequence among the numbers: at least every one of them, attained by one of them, and 0 for none. |
| Numbering.NextInvoiceNumber | src/components/invoices/InvoiceForm.jsx:151-170 | A year with no invoices starts at "code/fy/1"; otherwise the sequence is the highest present plus one. |
| Numbering.NextIsFresh | src/components/invoices/InvoiceForm.jsx:151-170 | The new sequence exceeds every existing one, so the new number is not among the existing numbers. |
| Numbering.IssueCount | src/components/invoices/InvoiceForm.jsx:151-170 | Each issue appends one number, and after n issues the highest sequence is n. |
| Numbering.IssueIsDense | src/components/invoices/InvoiceForm.jsx:151-170 | Starting from no invoices, n issues give the sequences 1..n with no gap. |
| Numbering.NextAfterDense | src/components/invoices/InvoiceForm.jsx:169 | After n-1 gap-free numbers the next one is number n. |
| Numbering.CountedInvoiceNumber | src/pages/Salesimport.jsx:381-384 | The sales import's number carries the count of the year's invoices plus one. |
| Numbering.CountAgreesOnDenseHistory | src/pages/Salesimport.jsx:381-384 | On a gap-free history, counting and taking the highest sequence give the same number. |
| Numbering.CountCanCollide | src/pages/Salesimport.jsx:381-384 | With only "code/fy/2" stored, counting issues "code/fy/2" again. |
| SalesImport.ProbesPointwise | src/pages/Salesimport.jsx:122-123 | Each row's probe (barcode present or not, and its trimmed key) comes from that row alone. |
| SalesImport.Validate | src/pages/Salesimport.jsx:119-133 | Every row is either reported or accepted, and accepted indices name rows. |
| SalesImport.ValidateOnePerRow | src/pages/Salesimport.jsx:119-131 | Errors fall on spreadsheet rows 2..n+1, in row order, at most one per row. |
| SalesImport.ValidateSeen | src/pages/Salesimport.jsx:128-133 | The set of seen barcodes ends as the stored barcodes plus every barcode of the file. |
| SalesImport.ValidateAccepts | src/pages/Salesimport.jsx:119-133 | The pass accepts exactly the rows whose barcode is neither stored nor carried by an earlier row, in file order. |
| SalesImport.ValidateClean | src/pages/Salesimport.jsx:119-133 | The pass reports no error exactly when every row is accepted. |
| SalesImport.AcceptedAreFresh | src/pages/Salesimport.jsx:128-133 | Accepted barcodes are new to the store and pairwise distinct. |
| SalesImport.FirstDuplicateWins | src/pages/Salesimport.jsx:128-131 | Of two rows with the same new barcode, the first is accepted and the second reported as a duplicate on row 3. |
| SalesImport.Records | src/pages/Salesimport.jsx:211-219 | One sale per row. |
| SalesImport.RecordsPointwise | src/pages/Salesimport.jsx:135-219 | The k-th sale carries the batch id and, from the k-th row only, the trimmed barcode, the description, the price (0 when the cell is missing or falsy) and the normalised date. |
| SalesImport.Trackers | src/pages/Salesimport.jsx:240-247 | One tracker per sale, owing its whole price, with nothing received and status "unpaid". |
| SalesImport.GstEntries | src/pages/Salesimport.jsx:253-272 | One GST row per sale, numbered on from the stored count, with a margin of 500, GST of 18% of it and purchase = price - 500. |
| SalesImport.ImportAllOrNothing | src/pages/Salesimport.jsx:222-235 | The import is rejected, with the store untouched, exactly when some row has no barcode or a repeated one. |
| SalesImport.ImportWritesEveryRow | src/pages/Salesimport.jsx:230-273 | A written import adds one sale, one tracker and one GST row per spreadsheet row, and nothing else. |
| SalesImport.SiblingTotals | src/pages/Salesimport.jsx:282-284 | The tracker and GST totals equal the sales total. |
| SalesImport.ReconcileFailsIffCountsDiffer | src/pages/Salesimport.jsx:288-302 | With the totals taken from the lists sent, reconciliation fails exactly when the store's counts differ from the number of sales. |
| SalesImport.ImportReconciles | src/pages/Salesimport.jsx:277-302 | Whenever the import writes, the reconciliation passes. |
| SalesImport.WriteReconciles | src/pages/Salesimport.jsx:277-302 | Writing any list of sales with its trackers and GST rows passes the reconciliation check, whatever the store held. |
| SalesImport.InvoiceItems | src/pages/Salesimport.jsx:404-414 | One item per sale, linked to the invoice: one pair at the sale's price, with the sale's barcode, the composed description and its position as row index. |
| SalesImport.AddInvoiceFields | src/pages/Salesimport.jsx:352-402 | A date group's invoice: its quantity is the group size and its total the prices' sum. Its sequence is the year's invoice count plus one, and its status is draft. |
| SalesImport.AddInvoiceCounts | src/pages/Salesimport.jsx:381-386 | Each generated invoice raises its own financial year's count by one and leaves other years' counts alone. |
| SalesImport.AddInvoicesTotals | src/pages/Salesimport.jsx:350-418 | Generation adds one invoice per group and one item per sale, and the item amounts add up to the sales' total. |
| SalesImport.GenerateCoversSales | src/pages/Salesimport.jsx:332-418 | Generation adds one item per sale and one invoice per distinct sale date, and the items' amounts add up to the sales total. |
| HistoricalImport.ReadHead | src/pages/HistoricalImport.jsx:154-189 | A row gets past the head checks exactly when it has an unused invoice number, a parseable date, a customer and an unused barcode. The fields are the trimmed texts. |
| HistoricalImport.ReadTail | src/pages/HistoricalImport.jsx:196-226 | A row passes the later checks exactly when it has a description, colour, size, a positive amount and a numeric margin. |
| HistoricalImport.PurchaseDefault | src/pages/HistoricalImport.jsx:226 | Without a usable purchase price, purchase + margin = sales amount. |
| HistoricalImport.ScanBarcodes | src/pages/HistoricalImport.jsx:191-194 | The in-file barcode set ends as the barcodes of every row that got past the head checks. |
| HistoricalImport.ScanRecords | src/pages/HistoricalImport.jsx:191-240 | A file duplicate does not cost a row its record: the records are exactly those of the complete rows. |
| HistoricalImport.ScanErrorRows | src/pages/HistoricalImport.jsx:151-240 | Errors fall on rows 2..n+1 in row order, at most two per row, and every row yields a record or an error. |
| HistoricalImport.ScanClean | src/pages/HistoricalImport.jsx:151-247 | No error is reported exactly when every row is complete with a barcode new to the file, and then every row gives its record in order. |
| HistoricalImport.CleanBarcodesDistinct | src/pages/HistoricalImport.jsx:186-194 | In a clean file the records carry pairwise distinct barcodes. |
| HistoricalImport.TwoErrorsOnOneRow | src/pages/HistoricalImport.jsx:191-199 | A repeated barcode does not stop its row: a later missing field is reported on the same row too. |
| HistoricalImport.DuplicateStillRecorded | src/pages/HistoricalImport.jsx:191-239 | A complete row with a repeated barcode is reported, yet still yields its record. |
| HistoricalImport.Headed | src/pages/HistoricalImport.jsx:249-262 | Each group of records becomes an invoice group under its invoice number, holding all its records and taking date and customer from its first record. |
| HistoricalImport.HeadedTotals | src/pages/HistoricalImport.jsx:249-264 | The invoice groups hold as many records, and as large a sales total, as the groups they were made from. |
| HistoricalImport.ValidateDataAllOrNothing | src/pages/HistoricalImport.jsx:244-262 | Validation fails, with at least one error, exactly when some row is not fine. |
| HistoricalImport.InvoiceGroupsPartition | src/pages/HistoricalImport.jsx:249-262 | The invoice groups carry the distinct invoice numbers in first-appearance order, and each holds exactly the records with its number, in file order. |
| HistoricalImport.PreviewGroups | src/pages/HistoricalImport.jsx:244-264 | A passing validation previews one invoice per distinct number, in first-appearance order, each holding exactly the records with that number. |
| HistoricalImport.PreviewTotals | src/pages/HistoricalImport.jsx:262-264 | A passing validation previews one record per row, and the groups account for every record and the whole sales total. |
| HistoricalImport.FindClient | src/pages/HistoricalImport.jsx:308 | The first client whose name equals the customer ignoring case, or none if there is no such client. |
| HistoricalImport.ClientCreatedOnce | src/pages/HistoricalImport.jsx:308-320 | After the first invoice for a name, a later customer equal to it ignoring case finds that client instead of creating another. |
| HistoricalImport.RowsPointwise | src/pages/HistoricalImport.jsx:376-422 | Each item's four rows carry its barcode and amount, its position as row index, the file's purchase price, and the invoice's date. |
| HistoricalImport.ConfirmGroupInvoice | src/pages/HistoricalImport.jsx:347-369 | A group's invoice keeps the file's number. Its quantity is the number of rows, its total their sum, and its status is "sent". |
| HistoricalImport.RowsSalesTotal | src/pages/HistoricalImport.jsx:376-385 | The new sales of a group add up to its records' sales amounts. |
| HistoricalImport.ConfirmCounts | src/pages/HistoricalImport.jsx:306-428 | Confirming writes one invoice per group and exactly one row per record in each of the four tables. |
| HistoricalImport.ImportWritesEveryRow | src/pages/HistoricalImport.jsx:244-428 | A passing import writes one row per spreadsheet row to each of the four tables, with the previewed sales total. A failing one writes nothing. |
| BulkUpload.DetectHasField | src/components/invoices/BulkInvoiceUpload.jsx:101-131 | A field is mapped exactly when some header fills it. |
| BulkUpload.DetectIsLastMatch | src/components/invoices/BulkInvoiceUpload.jsx:101-131 | A mapped field holds the last header that fills it. |
| BulkUpload.LaterHeaderWins | src/components/invoices/BulkInvoiceUpload.jsx:110-113 | "Description" and "Model" both fill the model field, and the later one wins. |
| BulkUpload.WithFallback | src/components/invoices/BulkInvoiceUpload.jsx:133-134 | The price falls back to the rate header and then to the amount header; no other field changes. |
| BulkUpload.ConfirmIffHeaders | src/components/invoices/BulkInvoiceUpload.jsx:142-147 | The mapping is confirmed exactly when the headers name the invoice number, customer, date, model, colour and size, plus one of price, rate or amount. |
| BulkUpload.CheckLinePasses | src/components/invoices/BulkInvoiceUpload.jsx:159-200 | A row passes exactly when it has an invoice number, a customer, a date, a non-empty description and a truthy price (from the price, rate or amount column). Its line is keyed by the trimmed number and carries the row's index. |
| BulkUpload.ItemDefaults | src/components/invoices/BulkInvoiceUpload.jsx:212-224 | An item without an amount gets quantity × rate, and without a quantity it is one pair. With neither price nor rate its rate is 0. Without an HSN or unit it takes 640319 and the pair unit. |
| BulkUpload.ErrorsAndLines | src/components/invoices/BulkInvoiceUpload.jsx:156-198 | At most one error per row, in row order. There are none exactly when every row passes, and then every row's line is kept in order. |
| BulkUpload.GroupingAllOrNothing | src/components/invoices/BulkInvoiceUpload.jsx:227-237 | The grouping is refused exactly when some row fails its checks. |
| BulkUpload.RefusalReportsRows | src/components/invoices/BulkInvoiceUpload.jsx:227-229 | A refused sheet reports at least one error, at most one per row. |
| BulkUpload.LinesInRowOrder | src/components/invoices/BulkInvoiceUpload.jsx:156-225 | A clean sheet keeps one line per row, and line i carries row index i. |
| BulkUpload.Headed | src/components/invoices/BulkInvoiceUpload.jsx:200-210 | Each group keeps its invoice number and all its lines as items, and takes customer and date from its first line. |
| BulkUpload.GroupLinesInOrder | src/components/invoices/BulkInvoiceUpload.jsx:216-233 | When lines are numbered in row order, every group's items are in increasing row order. |
| BulkUpload.GroupLinesCover | src/components/invoices/BulkInvoiceUpload.jsx:200-224 | The groups have distinct invoice numbers and hold as many items as there are lines. |
| BulkUpload.GroupLinesPartition | src/components/invoices/BulkInvoiceUpload.jsx:200-224 | The groups carry the distinct keys of the lines in first-appearance order, and each holds the items of exactly the lines with its key, in line order. |
| BulkUpload.GroupsCoverRows | src/components/invoices/BulkInvoiceUpload.jsx:200-237 | The groups of a clean sheet have distinct invoice numbers and hold as many items as the sheet has rows. |
| BulkUpload.CleanSheetLines | src/components/invoices/BulkInvoiceUpload.jsx:156-226 | On a clean sheet there is one line per row, and line i is the line row i passes its checks with. |
| BulkUpload.GroupsHoldTheirRows | src/components/invoices/BulkInvoiceUpload.jsx:200-237 | The groups of a clean sheet are the distinct keys of its rows in first-appearance order, each holding the items of exactly the rows with its key. |
| BulkUpload.GroupsInRowOrder | src/components/invoices/BulkInvoiceUpload.jsx:231-233 | Each group already lists its items in row order, so the closing sort changes nothing. |
| BulkUpload.MatchClient | src/components/invoices/BulkInvoiceUpload.jsx:260-263 | The client found is one of the clients. When none is found, no client's name contains the customer's or is contained in it, ignoring case. |
| BulkUpload.CreateInvoiceFields | src/components/invoices/BulkInvoiceUpload.jsx:275-320 | A created invoice is a draft numbered by its group key, and it totals its items' quantities and amounts. |
| BulkUpload.CreateInvoiceItems | src/components/invoices/BulkInvoiceUpload.jsx:323-328 | The stored items are the group's items in order, linked to the invoice, and their amounts add up to its grand total. |
| BulkUpload.UnknownCustomerCreatedPerGroup | src/components/invoices/BulkInvoiceUpload.jsx:260-273 | A customer no client matches is created once per group: two groups for the same new customer create it twice. |
| BulkUpload.CreateAllCounts | src/components/invoices/BulkInvoiceUpload.jsx:256-332 | Creation adds one invoice per group and one item per grouped row. |
| BulkUpload.UploadStoresEveryRow | src/components/invoices/BulkInvoiceUpload.jsx:152-332 | From a clean sheet, creation stores exactly one item per spreadsheet row. |
| Payments.StatusFor | src/pages/PaymentImport.jsx:128-135 | "unpaid" iff nothing is received; "partial" iff something but less than the sale; "paid" iff something and at least the sale. |
| Payments.Pay | src/pages/PaymentImport.jsx:124-142 | The amount is added to what was received, and received + balance = sale. The status matches, the date is recorded, and nothing else changes. |
| Payments.FirstWith | src/pages/PaymentImport.jsx:116-124 | The first entry with the barcode, or none if no entry carries it. |
| Payments.CountsAddUp | src/pages/PaymentImport.jsx:91-145 | Every row is counted once: matched, not found, or without a barcode. Each of the last two reports one message. |
| Payments.ProcessReceived | src/pages/PaymentImport.jsx:91-145 | After the import an entry has received what it had plus the sum of the amounts of all rows that found it. Barcodes and sale amounts stay. |
| Payments.ProcessConsistent | src/pages/PaymentImport.jsx:124-142 | Every entry is either unchanged, or balanced with the status that matches what it has received. |
| Payments.ProcessUntouched | src/pages/PaymentImport.jsx:91-145 | An entry no row finds is not changed at all. |
| Payments.ReceivedNeverDecreases | src/pages/PaymentImport.jsx:125 | With non-negative amounts, no entry's received amount goes down. |
| Payments.NegativeAmountReduces | src/pages/PaymentImport.jsx:93 | A negative amount is applied as it stands and lowers what was received. |
| Payments.PaymentsCommute | src/pages/PaymentImport.jsx:124-142 | Two payments to one entry give the same amounts and status in either order; only the date (the last row's) differs. |
| GstPage.AvailableYears | src/pages/Gst.jsx:88 | Every year some record carries, once each, newest first. |
| GstPage.SummaryOf | src/pages/Gst.jsx:99-108 | A month line counts that month's records. |
| GstPage.MonthlySummary | src/pages/Gst.jsx:95-110 | Lines in month order, each with the count of its month, only for months of the year that have records. |
| GstPage.MonthlySummaryComplete | src/pages/Gst.jsx:98-110 | Every month of the year that has a record gets a line. |
| GstPage.SummaryCountsAddUp | src/pages/Gst.jsx:95-110 | The month counts add up to the year's records, less those whose month is not 1 to 12. |
| GstPage.FilteredRecords | src/pages/Gst.jsx:112-134 | The records passing the month, search and column tests, in order: a subsequence holding exactly those records. |
| GstPage.NoCriteriaListsAll | src/pages/Gst.jsx:112-134 | With no month, search or filter, every record is listed. |
| GstPage.SearchIgnoresCase | src/pages/Gst.jsx:117-125 | A search term and its lower-case form select the same records. |
| GstPage.MonthViewMatchesSummary | src/pages/Gst.jsx:113-115 | The monthly view of a month lists as many records as its summary line counts. |
| GstPage.SortedRecords | src/pages/Gst.jsx:136-143 | A permutation ordered by the chosen column ("asc" ascending, anything else descending). Without a field the order is unchanged. |
| GstPage.SortedRecordsStable | src/pages/Gst.jsx:136-143 | Records with equal values in the sort column keep their order. |
| GstPage.HandleSort | src/pages/Gst.jsx:201-206 | The chosen column becomes the sort field. The direction is "desc" exactly when that column was sorted ascending, and "asc" otherwise. |
| GstPage.SecondClickFlips | src/pages/Gst.jsx:201-206 | A second click on the same column reverses the first click's direction. |
| GstPage.Remargin | src/pages/Gst.jsx:152-158 | The new margin is set, purchase + margin = sale and GST = 18% of the margin; nothing else changes. |
| GstPage.MarginUpdate | src/pages/Gst.jsx:145-159 | An unknown id or a non-numeric margin changes nothing. Otherwise exactly the record with that id is re-derived. |
| GstPage.MarginUpdateIdempotent | src/pages/Gst.jsx:145-159 | Entering the same margin again changes nothing more. |
| GstPage.DeleteGst | src/pages/Gst.jsx:223-236 | The GST record goes, with every sale and tracker of its barcode. Other GST rows, invoices and items stay, in order. |
| GstPage.DeleteGstIdempotent | src/pages/Gst.jsx:223-236 | Deleting the same record twice removes nothing more the second time. |
| SalesPage.BatchesPartitionSales | src/pages/Sales.jsx:49-64 | One batch per distinct batch id ("UNKNOWN" when absent), in first-appearance order. Each holds exactly its sales in order, with their count and value and the first sale's date. |
| SalesPage.BatchIdsDistinct | src/pages/Sales.jsx:49-64 | No two batches share an id. |
| SalesPage.SaleInItsBatch | src/pages/Sales.jsx:49-56 | Every sale is listed in the batch of its own id. |
| SalesPage.SaleOnlyInItsBatch | src/pages/Sales.jsx:49-56 | A sale appears in no other batch. |
| SalesPage.BatchTotals | src/pages/Sales.jsx:58-64 | The batch counts add up to the number of sales, and the batch values to the sales' total price. |
| SalesPage.DeleteBatch | src/pages/Sales.jsx:77-110 | An empty id changes nothing. Otherwise the sales stored under the id go, with every tracker and GST row of their barcodes. Invoices and items stay. |
| SalesPage.DeleteBatchClears | src/pages/Sales.jsx:86-101 | After the delete no sale carries the id, and no tracker or GST row carries the barcode of a sale the batch had. |
| SalesPage.DeleteBatchKeepsOtherSales | src/pages/Sales.jsx:88 | With distinct sale ids, a sale of another batch survives. |
| SalesPage.UnknownBatchKeepsUnbatchedSales | src/pages/Sales.jsx:50-88 | Deleting the displayed "UNKNOWN" batch does not delete the sales without a batch id that it shows. |
| SalesPage.DeleteBatchIdempotent | src/pages/Sales.jsx:77-110 | Deleting a batch twice removes nothing more. |
| SalesPage.DeleteRecord | src/pages/Sales.jsx:112-149 | A sale without a barcode changes nothing. Otherwise the sale goes, with the trackers, GST rows and items of its barcode, and every invoice left with no item. |
| SalesPage.DeleteRecordInvoices | src/pages/Sales.jsx:129-138 | An invoice without an item of the barcode stays. One with such an item stays exactly when it also has an item with another barcode. |
| SalesPage.DeleteRecordKeepsItemsBelonging | src/pages/Sales.jsx:129-140 | If every item belonged to a stored invoice before, every remaining item still does. |
| SalesPage.DeleteRecordIdempotent | src/pages/Sales.jsx:112-149 | Deleting the same sale twice removes nothing more. |
| TrackerPage.IndexLastWins | src/pages/PaymentTracker.jsx:31-41 | A key is in the map exactly when some kept entry has it, and the last such entry's value wins. |
| TrackerPage.InvoiceNumbersLastWins | src/pages/PaymentTracker.jsx:31-34 | Each invoice id maps to the number of the last invoice with that id. |
| TrackerPage.InvoiceMapLastWins | src/pages/PaymentTracker.jsx:36-41 | A barcode maps to the invoice number of the last linked item with that barcode (none for an unknown invoice id). |
| TrackerPage.DateGroupsPartition | src/pages/PaymentTracker.jsx:51-61 | The entries grouped by sale date ("No Date" when absent) form a partition, stable within each date. |
| TrackerPage.FilterGroupsSound | src/pages/PaymentTracker.jsx:63-79 | Each shown card is a date group cut down to its visible entries, never empty. |
| TrackerPage.FilterGroupsComplete | src/pages/PaymentTracker.jsx:63-79 | A date group with a visible entry gets a card. |
| TrackerPage.CardsHoldVisibleEntries | src/pages/PaymentTracker.jsx:63-79 | Every card is non-empty and holds, in list order, exactly the entries of its date that pass the filters. |
| TrackerPage.ShownEntryIsVisible | src/pages/PaymentTracker.jsx:63-79 | Every entry on a card passes the status and search filters. |
| TrackerPage.VisibleEntryIsShown | src/pages/PaymentTracker.jsx:63-79 | Every entry passing the filters is on the card of its date. |
| TrackerPage.NoFilterShowsAll | src/pages/PaymentTracker.jsx:63-79 | With status "all" and no search, the cards are the date groups. |
| TrackerPage.Toggle | src/pages/PaymentTracker.jsx:90-99 | The toggled date flips between expanded and collapsed; the others stay as they were. |
| TrackerPage.ToggleTwice | src/pages/PaymentTracker.jsx:90-99 | Toggling a date twice restores the set. |
| TrackerPage.ExpandAll | src/pages/PaymentTracker.jsx:101-103 | Expanding all expands exactly the dates of the shown cards. |
| TrackerPage.ExpandAllIsShownDates | src/pages/PaymentTracker.jsx:101-103 | After "expand all" a date is expanded exactly when some entry of that date is visible. |
| TrackerPage.TotalsBalance | src/pages/PaymentTracker.jsx:81-83 | When every entry is balanced, the pending total is the sale total less the received total. |
| TrackerPage.CollectionPercentage | src/pages/PaymentTracker.jsx:250 | 0 without a positive sale total; otherwise the percentage of the sale received, between 0 and 100 when 0 ≤ received ≤ sale. |
| TrackerPage.OverdueCountGrows | src/pages/PaymentTracker.jsx:85-88 | The overdue count only grows as today moves on, and never exceeds the number of entries not yet paid. |
| TrackerPage.StatusCountsAddUp | src/pages/PaymentTracker.jsx:254-256 | On a card whose entries all have a known status, the unpaid, partial and paid counts add up to its entries. |
| TrackerPage.CardPercentageInRange | src/pages/PaymentTracker.jsx:246-253 | On a card of balanced entries, none with a negative received or pending amount, received and pending add up to the sale, and a positive sale gives a collection percentage between 0 and 100. |
| TrackerPage.DayNumberOrder | src/pages/PaymentTracker.jsx:244 | Comparing day numbers is calendar order on valid days. |
| TrackerPage.CardOrderNewestFirst | src/pages/PaymentTracker.jsx:241-245 | The card order is a permutation of the dates. Newer dates come first, and "No Date" is followed only by keys that are not readable dates. |
| InvoiceList.DeleteInvoice | src/pages/Invoices.jsx:57-78 | Refused, with "Only draft invoices can be deleted", exactly when the invoice is not a draft. Otherwise exactly the invoices with its id go. |
| InvoiceList.DeleteKeepsIssuedInvoices | src/pages/Invoices.jsx:57-78 | With distinct ids, no invoice that is not a draft is ever deleted. |
| InvoiceList.FilteredInvoices | src/pages/Invoices.jsx:225-246 | The invoices passing the status and search filters, in list order. |
| InvoiceList.NoFilterListsAll | src/pages/Invoices.jsx:225-246 | Status "all" with no search lists every invoice. |
| InvoiceList.SearchFindsOwnFields | src/pages/Invoices.jsx:228-244 | An invoice of the chosen status is found by its own number, its client name, or its date as `dd/MM/yyyy`. |
| InvoiceList.HandleSort | src/pages/Invoices.jsx:216-223 | The same column flips its direction; a new column starts descending. |
| InvoiceList.ClickTwice | src/pages/Invoices.jsx:216-223 | Two clicks on the sorted column restore its direction; a new column clicked twice ends ascending. |
| InvoiceForm.ItemChange | src/components/invoices/InvoiceForm.jsx:50-59 | Only the edited line changes, in the edited field. A quantity or rate edit reprices the line; other edits keep its amount. |
| InvoiceForm.AddItem | src/components/invoices/InvoiceForm.jsx:61-70 | The lines gain one blank line at the end: "640319", one pair, rate 0, amount 0. |
| InvoiceForm.RemoveItem | src/components/invoices/InvoiceForm.jsx:72-74 | Exactly the line at the index goes and the rest keep their order; an index past the end removes nothing. |
| InvoiceForm.FormKeepsLinesPriced | src/components/invoices/InvoiceForm.jsx:19-74 | The blank line is priced, and adding, editing and removing lines keep every amount equal to quantity × rate. |
| InvoiceForm.GrandTotalOfPricedLines | src/components/invoices/InvoiceForm.jsx:120-124 | On priced lines the grand total is the sum of quantity × rate. |
| InvoiceForm.TotalsFollowLines | src/components/invoices/InvoiceForm.jsx:120-124 | Adding a line adds one to the quantity and nothing to the total; removing a line takes off exactly its own figures. |
| InvoiceForm.Submit | src/components/invoices/InvoiceForm.jsx:173-212 | Refused without a client, and then without a company code. Otherwise the invoice gets the date's financial year, that year's next number, the lines' totals and the total in words. |
| InvoiceForm.SubmittedNumberIsFresh | src/components/invoices/InvoiceForm.jsx:151-189 | A submitted number is held by no stored invoice of its year, is one past that year's highest sequence, and has the year of its date. |

## Left out

- Network, server and concurrency are not modelled. This covers `fetch`, the extraction service, `Promise.all`, the swallowed `catch(() => {})` failures and partial writes. Every store call is modelled as succeeding, in program order.
- The clock, `Date.now()` batch ids and the ids the server assigns are parameters.
- The engine's `new Date(text)` is read only for padded `YYYY-MM-DD` texts naming a real day. Other texts (times, time zones, non-ISO forms) count as invalid dates. The `dd/MM/yyyy` display ignores the browser's time zone shift.
- TrackerPage.Overdue: the sale date is read with date-fns `parseISO`, modelled like `new Date` above. The other forms `parseISO` accepts ("2024-02", "20240201", date-times) count as unreadable.
- FiscalYear.FinancialYearOf: `new Date("YYYY-MM-DD")` is midnight UTC, but `getMonth()` and `getFullYear()` read it in the browser's zone. The model reads the UTC day, which is right at or east of UTC (India's zone among them). West of UTC the code sees the previous day, so 1 April gets the previous year's label and the first of a month counts in the previous GST month. The same reading is used by SalesImport.GstEntries, SalesImport.AddInvoiceCounts, BulkUpload.CreateInvoice and InvoiceForm.Submit.
- The payment date of the payment import is an opaque parameter (`dateOf`), the engine's reading of the cell.
- Money is `real`, not IEEE floating point: rounding, `toFixed` on halfway values and `NaN` propagation are not modelled. An unreadable `parseFloat` is `None`.
- `Number.prototype.toString` of a total is a parameter in the invoice-list search.
- A text cell in a numeric column reads as 0. The bulk upload's extraction schema declares "Price", "Rate", "Amount" and "Quantity" numeric, so there text arrives only under a header the schema does not name. The sales import sends no schema at all.
- SalesImport.Records: `row['Price'] || 0` keeps a text price as text. The totals of the integrity check (src/pages/Salesimport.jsx:282-284) and the invoice grand total (:354) then join it as a string, and `price - 500` in the GST entry is `NaN`. The model reads a text price as 0.
- BulkUpload.ItemDefaults: a quantity under the "Qty" header, which the schema does not declare, can arrive as text such as "2". `quantity * rate` converts it to a number, while the invoice's total quantity joins it as a string. The model reads it as 0, so the line's amount is 0.
- Dates.SerialDate: the engine's `Date` reaches only 8.64e15 ms either side of 1970, about 100,000,000 days. For a serial beyond that, `new Date(...)` is an invalid date, and the code writes the text "NaN-NaN-NaN", which the historical import accepts as a sale date. The model gives a calendar day for every serial.
- `parseFloat` reads an optional sign, then digits with an optional fraction or a bare fraction such as ".5". Exponent forms and "Infinity" are not read.
- The `list(..., 10000)` limits on server queries are not modelled; every stored record is seen.
- Dates.ParseDateIdempotent: for a day serial it assumes a four-digit year, because a year outside 1000-9999 is not four digits when printed.
- PDF export, Excel export and templates are presentation only.
- Client address, GSTIN and state fields and the declaration text are not modelled.
- The invoice list's own sort comparator is not modelled. It never answers 0 for equal keys, so the engine's result is implementation-defined.
- The GST monthly filing status (`GSTMonthlyStatus`) is not modelled.
- GstPage.AvailableYears: a record whose year is missing is skipped rather than listed as an empty year.
- Sorting: texts compare by character code rather than by UTF-16 code unit. A column holding a missing value or values of mixed kinds is given a fixed total order, where the engine's `<` would be inconsistent.
- GstPage.FilteredRecords: the per-column filters cover the text columns only, and case is folded as `Common.LowerChar` does (below).
- Case folding (`toLowerCase`) is modelled for the capitals of Basic Latin, Latin-1, Latin Extended-A and Cyrillic U+0400-U+042F. Scripts without case, such as Devanagari, are exact. Other cased scripts are kept as they are. These include Greek, whose final sigma depends on context, Armenian and Georgian. So is "İ" (U+0130), which lowers to two characters.
- HistoricalImport.FindClient: a client name matches ignoring case only as far as the folding above goes.
- HistoricalImport.ClientCreatedOnce: two spellings of one customer that differ in an unfolded capital are treated as two customers.
- BulkUpload.MatchClient: the two-way `includes` check ignores case only as far as the folding above goes.
- GstPage.SearchIgnoresCase: the search ignores case only as far as the folding above goes.
- InvoiceList.FilteredInvoices: the number and client-name search ignores case only as far as the folding above goes.
- TrackerPage.MatchesSearch: the barcode and invoice-number search ignores case only as far as the folding above goes.
- The invoice form's `handleFileImport` depends on the extraction service and is not modelled.
- InvoiceForm.Submit: the form sends no status, so the new invoice's status is modelled as the empty text.
- SalesPage.DeleteBatch: invoice items and invoices are left as they are, as in the code.
- TrackerPage.CardOrderNewestFirst: keys that are neither "No Date" nor readable dates compare as `NaN` in the code, which leaves their order to the engine. They are placed together with "No Date" at the end.
- InvoiceForm.ItemChange: an index past the end throws in the code, so the index is required to name a line.
- Object key order: in the code, keys that look like array indices would come first. Every group here is in first-appearance order.

=== FILE: bulkupload.dfy ===
/**
 The bulk invoice upload (`detectColumns`, `confirmMapping`,
 `validateAndGroupInvoices` and the totals of `createAllInvoices`).

 The header names of the first row are mapped to fields by exact match, a
 later matching header replacing an earlier one; a missing price column falls
 back to the rate column, then to the amount column. Every row is then checked
 on its own (at most one error each); if any row fails there is no grouping.
 Otherwise the rows are grouped by trimmed invoice number, each group becoming
 one draft invoice whose items keep the rows' order.
 */
module BulkUpload {
  import opened Common
  import opened Entities
  import opened Grouping
  import opened AmountWords

  /** The fields a header can be mapped to. (`description` is declared by the mapping but
      never filled: a "Description" header fills the model field.) */
  datatype Field = InvoiceNumber | CustomerName | InvoiceDate | ModelName | Colour | Size | Hsn | Quantity | UnitName | Rate | Price | Amount

  /** The header each field is mapped to; a field without a header is absent (`null`). */
  type Mapping = map<Field, string>

  /** The field a header fills, by exact, case-sensitive match. */
  function FieldOf(col: string): Option<Field> {
    if col == "Invoice Number" then Some(InvoiceNumber)
    else if col == "Customer Name" then Some(CustomerName)
    else if col == "Invoice Date" then Some(InvoiceDate)
    else if col == "Description" then Some(ModelName)
    else if col == "Model" then Some(ModelName)
    else if col == "colour" || col == "color" || col == "Colour" || col == "Color" then Some(Colour)
    else if col == "Size" then Some(Size)
    else if col == "HSN Code" || col == "HSN" || col == "hsn" then Some(Hsn)
    else if col == "Quantity" || col == "Qty" then Some(Quantity)
    else if col == "Unit" then Some(UnitName)
    else if col == "Price" then Some(Price)
    else if col == "Rate" then Some(Rate)
    else if col == "Amount" then Some(Amount)
    else None
  }

  /** The `columns.forEach` pass, for any header-to-field rule `slot`: each header the rule
      maps overwrites its field. */
  function DetectWith(cols: seq<string>, slot: string -> Option<Field>): Mapping {
    if |cols| == 0 then map[]
    else
      var m := DetectWith(cols[..|cols| - 1], slot);
      var col := cols[|cols| - 1];
      match slot(col)
      case Some(f) => m[f := col]
      case None => m
  }

  function Detect(cols: seq<string>): Mapping {
    DetectWith(cols, FieldOf)
  }

  /** Header `i` is the last of `cols` that the rule maps to `f`. */
  predicate LastFor(cols: seq<string>, slot: string -> Option<Field>, f: Field, i: int) {
    0 <= i < |cols| && slot(cols[i]) == Some(f) && forall j :: i < j < |cols| ==> slot(cols[j]) != Some(f)
  }

  predicate HasHeader(cols: seq<string>, slot: string -> Option<Field>, f: Field) {
    exists i :: 0 <= i < |cols| && slot(cols[i]) == Some(f)
  }

  /** A field is mapped exactly when some header fills it. */
  lemma {:induction false} DetectHasField(cols: seq<string>, slot: string -> Option<Field>, f: Field)
    ensures f in DetectWith(cols, slot) <==> HasHeader(cols, slot, f)
  {
    if |cols| > 0 {
      var n := |cols| - 1;
      var init := cols[..n];
      DetectHasField(init, slot, f);
      if HasHeader(init, slot, f) {
        var i :| 0 <= i < |init| && slot(init[i]) == Some(f);
        assert cols[i] == init[i];
      }
      if slot(cols[n]) != Some(f) && HasHeader(cols, slot, f) {
        var i :| 0 <= i < |cols| && slot(cols[i]) == Some(f);
        assert init[i] == cols[i];
      }
    }
  }

  /** A mapped field holds the last header that fills it: a later match overwrites an
      earlier one. */
  lemma {:induction false} DetectIsLastMatch(cols: seq<string>, slot: string -> Option<Field>, f: Field)
    requires f in DetectWith(cols, slot)
    ensures exists i :: LastFor(cols, slot, f, i) && DetectWith(cols, slot)[f] == cols[i]
  {
    var n := |cols| - 1;
    var init := cols[..n];
    if slot(cols[n]) == Some(f) {
      assert LastFor(cols, slot, f, n);
    } else {
      DetectIsLastMatch(init, slot, f);
      var i :| LastFor(init, slot, f, i) && DetectWith(init, slot)[f] == init[i];
      assert LastFor(cols, slot, f, i);
    }
  }

  /** Both "Description" and "Model" fill the model field, whichever comes last winning. */
  lemma {:induction false} LaterHeaderWins()
    ensures Detect(["Description", "Model"]) == map[ModelName := "Model"]
    ensures Detect(["Model", "Description"]) == map[ModelName := "Description"]
  {
    assert ["Description", "Model"][..1] == ["Description"] && ["Description"][..0] == [];
    assert ["Model", "Description"][..1] == ["Model"] && ["Model"][..0] == [];
  }

  /** The price field falls back to the rate header, then to the amount header. */
  function WithFallback(m: Mapping): (r: Mapping)
    ensures Price in r <==> Price in m || Rate in m || Amount in m
    ensures Price in r ==> r[Price] == (if Price in m then m[Price] else if Rate in m then m[Rate] else m[Amount])
    ensures forall f :: f != Price ==> (f in r <==> f in m) && (f in m ==> r[f] == m[f])
  {
    var m1 := if Price !in m && Rate in m then m[Price := m[Rate]] else m;
    if Price !in m1 && Amount in m1 then m1[Price := m1[Amount]] else m1
  }

  function ColumnName(cell: (string, Cell)): string {
    cell.0
  }

  /** `detectColumns`: nothing for an empty file; otherwise the first row's headers. */
  function DetectColumns(rows: seq<Row>): Option<Mapping> {
    if |rows| == 0 then None else Some(WithFallback(Detect(Map(rows[0], ColumnName))))
  }

  /** `confirmMapping`: the invoice number, customer, date, model, colour, size and price
      fields must all be mapped. */
  function ConfirmMapping(m: Mapping): bool {
    InvoiceNumber in m && CustomerName in m && InvoiceDate in m && ModelName in m && Colour in m && Size in m && Price in m
  }

  /** The detected mapping can be confirmed exactly when the headers name an invoice number,
      customer, date, model, colour and size, and one of price, rate or amount. */
  lemma {:induction false} ConfirmIffHeaders(cols: seq<string>)
    ensures ConfirmMapping(WithFallback(Detect(cols))) <==>
      HasHeader(cols, FieldOf, InvoiceNumber) && HasHeader(cols, FieldOf, CustomerName)
      && HasHeader(cols, FieldOf, InvoiceDate) && HasHeader(cols, FieldOf, ModelName)
      && HasHeader(cols, FieldOf, Colour) && HasHeader(cols, FieldOf, Size)
      && (HasHeader(cols, FieldOf, Price) || HasHeader(cols, FieldOf, Rate) || HasHeader(cols, FieldOf, Amount))
  {
    var d := Detect(cols);
    DetectHasField(cols, FieldOf, InvoiceNumber);
    DetectHasField(cols, FieldOf, CustomerName);
    DetectHasField(cols, FieldOf, InvoiceDate);
    DetectHasField(cols, FieldOf, ModelName);
    DetectHasField(cols, FieldOf, Colour);
    DetectHasField(cols, FieldOf, Size);
    DetectHasField(cols, FieldOf, Price);
    DetectHasField(cols, FieldOf, Rate);
    DetectHasField(cols, FieldOf, Amount);
  }

  // ------------------------------------------------------------ rows

  /** `row[columnMapping.f]`: an unmapped field is `null`, which reads the column "null". */
  function At(row: Row, m: Mapping, f: Field): Cell {
    Get(row, if f in m then m[f] else "null")
  }

  /** The description part a field contributes: its trimmed text when mapped and truthy. */
  function Part(row: Row, m: Mapping, f: Field): seq<string> {
    if f in m && Truthy(At(row, m, f)) then [Trim(Show(At(row, m, f)))] else []
  }

  function Parts(row: Row, m: Mapping): seq<string> {
    Part(row, m, ModelName) + Part(row, m, Colour) + Part(row, m, Size)
  }

  /** An item of a group, with the defaults filled in. */
  datatype BulkItem = BulkItem(description: string, hsn: string, quantity: real, unit: string, rate: real, amount: real, rowIndex: nat)

  /** A checked row: its group key, the header cells it would give its group, and its item. */
  datatype Line = Line(key: string, customer: Cell, date: Cell, item: BulkItem)

  datatype Checked = Fail(message: string) | Pass(line: Line)

  /** `price || rate || amount`. */
  function PriceCell(row: Row, m: Mapping): Cell {
    Or(Or(At(row, m, Price), At(row, m, Rate)), At(row, m, Amount))
  }

  /** The item of a row that passed: quantity 1, rate 0 and amount quantity × rate by default. */
  function ItemOf(row: Row, m: Mapping, index: nat): BulkItem {
    var quantity := Numeric(Or(At(row, m, Quantity), Num(1.0, "1")));
    var rate := Numeric(Or(Or(At(row, m, Price), At(row, m, Rate)), Num(0.0, "0")));
    var amount := if Truthy(At(row, m, Amount)) then Numeric(At(row, m, Amount)) else quantity * rate;
    BulkItem(Join(Parts(row, m), " - "), Show(Or(At(row, m, Hsn), Text(ShoeHsn))), quantity,
      Show(Or(At(row, m, UnitName), Text(PairUnit))), rate, amount, index)
  }

  /** One row of `rows.forEach`: the first failing check, or the row's line. */
  function CheckLine(row: Row, m: Mapping, index: nat): Checked {
    var invoiceNum := At(row, m, InvoiceNumber);
    var customer := At(row, m, CustomerName);
    var date := At(row, m, InvoiceDate);
    if !Truthy(invoiceNum) then Fail("Missing invoice number")
    else if !Truthy(customer) then Fail("Missing customer name")
    else if !Truthy(date) then Fail("Missing invoice date")
    else if Join(Parts(row, m), " - ") == "" || |Parts(row, m)| == 0 then Fail("Missing model, colour, or size")
    else if !Truthy(PriceCell(row, m)) then Fail("Missing or zero price/rate")
    else Pass(Line(Trim(Show(invoiceNum)), customer, date, ItemOf(row, m, index)))
  }

  /** A row passes exactly when it has an invoice number, customer and date, a non-empty
      description and a non-zero price; its line is keyed by the trimmed invoice number and
      its item carries the row's index. */
  lemma {:induction false} CheckLinePasses(row: Row, m: Mapping, index: nat)
    ensures CheckLine(row, m, index).Pass? <==>
      Truthy(At(row, m, InvoiceNumber)) && Truthy(At(row, m, CustomerName)) && Truthy(At(row, m, InvoiceDate))
      && Join(Parts(row, m), " - ") != "" && Truthy(PriceCell(row, m))
    ensures CheckLine(row, m, index).Pass? ==>
      CheckLine(row, m, index).line.key == Trim(Show(At(row, m, InvoiceNumber)))
      && CheckLine(row, m, index).line.item.rowIndex == index
  {
    if Join(Parts(row, m), " - ") != "" {
      assert |Parts(row, m)| != 0;
    }
  }

  /** Without an amount the item's amount is quantity × rate; without a quantity it is one
      pair; without a price column it is priced at the rate column, or 0. */
  lemma {:induction false} ItemDefaults(row: Row, m: Mapping, index: nat)
    ensures var it := ItemOf(row, m, index);
      (!Truthy(At(row, m, Amount)) ==> it.amount == it.quantity * it.rate)
      && (!Truthy(At(row, m, Quantity)) ==> it.quantity == 1.0)
      && (!Truthy(At(row, m, Price)) && !Truthy(At(row, m, Rate)) ==> it.rate == 0.0)
      && (!Truthy(At(row, m, Hsn)) ==> it.hsn == ShoeHsn) && (!Truthy(At(row, m, UnitName)) ==> it.unit == PairUnit)
      && it.rowIndex == index
  {
  }

  function CheckOf(m: Mapping, indexed: (nat, Row)): Checked {
    CheckLine(indexed.1, m, indexed.0)
  }

  function Checks(rows: seq<Row>, m: Mapping): (cs: seq<Checked>)
    ensures |cs| == |rows| && forall i :: 0 <= i < |rows| ==> cs[i] == CheckLine(rows[i], m, i)
  {
    Map(Indexed(rows), indexed => CheckOf(m, indexed))
  }

  /** The errors of the checked rows, each on its spreadsheet row. */
  function ErrorsOf(cs: seq<Checked>): (es: seq<RowError>)
    ensures |es| <= |cs|
    ensures forall k :: 0 <= k < |es| ==> 2 <= es[k].row < |cs| + 2
  {
    if |cs| == 0 then []
    else
      var n := |cs| - 1;
      ErrorsOf(cs[..n]) + (if cs[n].Fail? then [RowError(RowNumber(n), cs[n].message)] else [])
  }

  /** The lines of the rows that passed, in row order. */
  function LinesOf(cs: seq<Checked>): seq<Line> {
    if |cs| == 0 then []
    else LinesOf(cs[..|cs| - 1]) + (if cs[|cs| - 1].Pass? then [cs[|cs| - 1].line] else [])
  }

  lemma {:induction false} ErrorsOnePerRow(cs: seq<Checked>)
    ensures OnePerRow(ErrorsOf(cs))
  {
    if |cs| > 0 {
      ErrorsOnePerRow(cs[..|cs| - 1]);
    }
  }

  lemma {:induction false} NoErrorsIffAllPass(cs: seq<Checked>)
    ensures |ErrorsOf(cs)| == 0 <==> forall i :: 0 <= i < |cs| ==> cs[i].Pass?
  {
    if |cs| > 0 {
      var n := |cs| - 1;
      NoErrorsIffAllPass(cs[..n]);
      assert forall i :: 0 <= i < n ==> cs[..n][i] == cs[i];
    }
  }

  lemma {:induction false} LinesWhenAllPass(cs: seq<Checked>)
    requires forall i :: 0 <= i < |cs| ==> cs[i].Pass?
    ensures |LinesOf(cs)| == |cs| && forall i :: 0 <= i < |cs| ==> LinesOf(cs)[i] == cs[i].line
  {
    if |cs| > 0 {
      var n := |cs| - 1;
      assert forall i :: 0 <= i < n ==> cs[..n][i] == cs[i];
      LinesWhenAllPass(cs[..n]);
    }
  }

  /** At most one error per row, in row order; none exactly when every row passes, and then
      every row's line is kept in order. */
  lemma {:induction false} ErrorsAndLines(cs: seq<Checked>)
    ensures OnePerRow(ErrorsOf(cs))
    ensures |ErrorsOf(cs)| == 0 <==> forall i :: 0 <= i < |cs| ==> cs[i].Pass?
    ensures |ErrorsOf(cs)| == 0 ==> |LinesOf(cs)| == |cs| && forall i :: 0 <= i < |cs| ==> LinesOf(cs)[i] == cs[i].line
  {
    ErrorsOnePerRow(cs);
    NoErrorsIffAllPass(cs);
    if |ErrorsOf(cs)| == 0 {
      LinesWhenAllPass(cs);
    }
  }

  /** An entry of `groups`: header cells from the group's first row. */
  datatype BulkGroup = BulkGroup(invoiceNumber: string, customer: Cell, date: Cell, items: seq<BulkItem>)

  function LineKey(l: Line): string {
    l.key
  }

  function ItemOfLine(l: Line): BulkItem {
    l.item
  }

  function Headed(gs: seq<Group<string, Line>>): (bs: seq<BulkGroup>)
    requires forall i :: 0 <= i < |gs| ==> |gs[i].items| > 0
    ensures |bs| == |gs|
    ensures forall i :: 0 <= i < |gs| ==>
      bs[i].invoiceNumber == gs[i].key && bs[i].items == Map(gs[i].items, ItemOfLine)
      && bs[i].customer == gs[i].items[0].customer && bs[i].date == gs[i].items[0].date
  {
    if |gs| == 0 then []
    else
      var g := gs[0];
      [BulkGroup(g.key, g.items[0].customer, g.items[0].date, Map(g.items, ItemOfLine))] + Headed(gs[1..])
  }

  datatype Grouped = Errors(errors: seq<RowError>) | Groups(groups: seq<BulkGroup>)

  /** The groups of the checked lines, in first-appearance order of their keys. */
  function GroupLines(lines: seq<Line>): seq<BulkGroup> {
    GroupByNonEmpty(lines, LineKey);
    Headed(GroupBy(lines, LineKey))
  }

  /** `validateAndGroupInvoices`. The closing sort by row index is left as is: the items are
      pushed in row order already (`GroupsInRowOrder`). */
  function ValidateAndGroup(rows: seq<Row>, m: Mapping): Grouped {
    var cs := Checks(rows, m);
    if |ErrorsOf(cs)| > 0 then Errors(ErrorsOf(cs)) else Groups(GroupLines(LinesOf(cs)))
  }

  /** All or nothing: the grouping is refused exactly when some row fails its checks. */
  lemma {:induction false} GroupingAllOrNothing(rows: seq<Row>, m: Mapping)
    ensures ValidateAndGroup(rows, m).Errors? <==> exists i :: 0 <= i < |rows| && CheckLine(rows[i], m, i).Fail?
  {
    var cs := Checks(rows, m);
    ErrorsAndLines(cs);
    assert ValidateAndGroup(rows, m).Errors? <==> |ErrorsOf(cs)| > 0;
    assert (exists i :: 0 <= i < |rows| && CheckLine(rows[i], m, i).Fail?) <==> exists i :: 0 <= i < |cs| && cs[i].Fail?;
  }

  /** A refused sheet reports at least one error and at most one per row. */
  lemma {:induction false} RefusalReportsRows(rows: seq<Row>, m: Mapping)
    ensures ValidateAndGroup(rows, m).Errors? ==> |ValidateAndGroup(rows, m).errors| > 0 && OnePerRow(ValidateAndGroup(rows, m).errors)
  {
    ErrorsAndLines(Checks(rows, m));
  }

  lemma {:induction false} LinesInRowOrder(rows: seq<Row>, m: Mapping)
    requires |ErrorsOf(Checks(rows, m))| == 0
    ensures var ls := LinesOf(Checks(rows, m));
      |ls| == |rows| && forall i :: 0 <= i < |ls| ==> ls[i].item.rowIndex == i
  {
    var cs := Checks(rows, m);
    ErrorsAndLines(cs);
    forall i | 0 <= i < |rows| ensures cs[i].Pass? && cs[i].line.item.rowIndex == i {
      CheckLinePasses(rows[i], m, i);
    }
  }

  function RowIndexOf(l: Line): int {
    l.item.rowIndex
  }

  function GroupNumber(b: BulkGroup): string {
    b.invoiceNumber
  }

  /** The groups are keyed by distinct invoice numbers and hold as many items as there are
      lines; which line is in which group is `GroupLinesPartition`. */
  lemma {:induction false} GroupLinesCover(lines: seq<Line>)
    ensures Distinct(Map(GroupLines(lines), GroupNumber)) && BulkItemCount(GroupLines(lines)) == |lines|
  {
    var gs := GroupBy(lines, LineKey);
    GroupByNonEmpty(lines, LineKey);
    GroupByIsPartition(lines, LineKey);
    FirstKeysDistinct(lines, LineKey);
    GroupByTotals(lines, LineKey, RowWeight);
    HeadedCount(gs);
    var names := Map(Headed(gs), GroupNumber);
    forall i, j | 0 <= i < j < |names| ensures names[i] != names[j] {
      assert names[i] == KeysOf(gs)[i] && names[j] == KeysOf(gs)[j];
    }
  }

  /** The groups carry the distinct keys of the lines in first-appearance order, and each
      holds the items of exactly the lines with its key, in line order. */
  lemma {:induction false} GroupLinesPartition(lines: seq<Line>)
    ensures var bs := GroupLines(lines);
      Map(bs, GroupNumber) == FirstKeys(lines, LineKey)
      && forall g :: 0 <= g < |bs| ==> bs[g].items == Map(Members(lines, LineKey, bs[g].invoiceNumber), ItemOfLine)
  {
    var gs := GroupBy(lines, LineKey);
    GroupByNonEmpty(lines, LineKey);
    GroupByIsPartition(lines, LineKey);
    assert Map(Headed(gs), GroupNumber) == KeysOf(gs);
  }

  function RowWeight(l: Line): real {
    1.0
  }

  /** Lines numbered in row order give groups whose items are in row order. */
  lemma {:induction false} GroupLinesInOrder(lines: seq<Line>)
    requires forall i :: 0 <= i < |lines| ==> lines[i].item.rowIndex == i
    ensures var bs := GroupLines(lines);
      forall g :: 0 <= g < |bs| ==> forall i, j :: 0 <= i < j < |bs[g].items| ==> bs[g].items[i].rowIndex < bs[g].items[j].rowIndex
  {
    var gs := GroupBy(lines, LineKey);
    GroupByNonEmpty(lines, LineKey);
    GroupByIsPartition(lines, LineKey);
    var bs := Headed(gs);
    forall g | 0 <= g < |bs|
      ensures forall i, j :: 0 <= i < j < |bs[g].items| ==> bs[g].items[i].rowIndex < bs[g].items[j].rowIndex
    {
      assert gs[g].items == Members(lines, LineKey, gs[g].key);
      assert bs[g].items == Map(gs[g].items, ItemOfLine);
      MembersInRowOrder(lines, gs[g].key);
    }
  }

  /** The groups of a clean sheet are keyed by distinct invoice numbers and hold as many
      items as the sheet has rows; which row is in which group is `GroupsHoldTheirRows`. */
  lemma {:induction false} GroupsCoverRows(rows: seq<Row>, m: Mapping)
    ensures var v := ValidateAndGroup(rows, m);
      v.Groups? ==> Distinct(Map(v.groups, GroupNumber)) && BulkItemCount(v.groups) == |rows|
  {
    var cs := Checks(rows, m);
    if |ErrorsOf(cs)| == 0 {
      LinesInRowOrder(rows, m);
      GroupLinesCover(LinesOf(cs));
    }
  }

  /** On a clean sheet, line i is the line row i passes with. */
  lemma {:induction false} CleanSheetLines(rows: seq<Row>, m: Mapping)
    ensures var ls := LinesOf(Checks(rows, m));
      ValidateAndGroup(rows, m).Groups? ==>
        |ls| == |rows| && forall i :: 0 <= i < |rows| ==> CheckLine(rows[i], m, i) == Pass(ls[i])
  {
    var cs := Checks(rows, m);
    if |ErrorsOf(cs)| == 0 {
      ErrorsAndLines(cs);
    }
  }

  /** The groups of a clean sheet are the keys of its lines (see `CleanSheetLines`) in
      first-appearance order, each holding the items of exactly the rows with its key. */
  lemma {:induction false} GroupsHoldTheirRows(rows: seq<Row>, m: Mapping)
    ensures var v := ValidateAndGroup(rows, m);
      var ls := LinesOf(Checks(rows, m));
      v.Groups? ==>
        Map(v.groups, GroupNumber) == FirstKeys(ls, LineKey)
        && forall g :: 0 <= g < |v.groups| ==> v.groups[g].items == Map(Members(ls, LineKey, v.groups[g].invoiceNumber), ItemOfLine)
  {
    var cs := Checks(rows, m);
    if |ErrorsOf(cs)| == 0 {
      GroupLinesPartition(LinesOf(cs));
    }
  }

  /** Each group lists its items in source-row order, so the closing sort changes nothing. */
  lemma {:induction false} GroupsInRowOrder(rows: seq<Row>, m: Mapping)
    ensures var v := ValidateAndGroup(rows, m);
      v.Groups? ==> forall g :: 0 <= g < |v.groups| ==> forall i, j :: 0 <= i < j < |v.groups[g].items| ==>
             v.groups[g].items[i].rowIndex < v.groups[g].items[j].rowIndex
  {
    var cs := Checks(rows, m);
    if |ErrorsOf(cs)| == 0 {
      LinesInRowOrder(rows, m);
      GroupLinesInOrder(LinesOf(cs));
    }
  }

  lemma {:induction false} MembersInRowOrder(lines: seq<Line>, key: string)
    requires forall i :: 0 <= i < |lines| ==> lines[i].item.rowIndex == i
    ensures var ms := Map(Members(lines, LineKey, key), ItemOfLine);
      forall i, j :: 0 <= i < j < |ms| ==> ms[i].rowIndex < ms[j].rowIndex
  {
    MembersIncreasing(lines, LineKey, key, RowIndexOf);
    var ls := Members(lines, LineKey, key);
    assert forall i :: 0 <= i < |ls| ==> RowIndexOf(ls[i]) == Map(ls, ItemOfLine)[i].rowIndex;
  }

  function BulkItemCount(bs: seq<BulkGroup>): nat {
    if |bs| == 0 then 0 else |bs[0].items| + BulkItemCount(bs[1..])
  }

  lemma {:induction false} HeadedCount(gs: seq<Group<string, Line>>)
    requires forall i :: 0 <= i < |gs| ==> |gs[i].items| > 0
    ensures BulkItemCount(Headed(gs)) == ItemCount(gs)
  {
    if |gs| > 0 {
      HeadedCount(gs[1..]);
    }
  }

  // ------------------------------------------------------------ invoice creation

  /** The client lookup of `createAllInvoices`: the first client whose name contains the
      customer's or is contained in it, ignoring case. */
  function MatchClient(clients: seq<string>, customer: string): (r: Option<string>)
    ensures r.Some? ==> r.value in clients
    ensures r.None? ==> forall c :: c in clients ==>
      !Contains(ToLower(c), ToLower(customer)) && !Contains(ToLower(customer), ToLower(c))
  {
    if |clients| == 0 then None
    else if Contains(ToLower(clients[0]), ToLower(customer)) || Contains(ToLower(customer), ToLower(clients[0])) then Some(clients[0])
    else MatchClient(clients[1..], customer)
  }

  function ItemQuantity(it: BulkItem): real {
    it.quantity
  }

  function ItemAmount(it: BulkItem): real {
    it.amount
  }

  function StoredItem(invoiceId: string, it: BulkItem): Item {
    Item("", invoiceId, it.rowIndex, "", it.description, it.hsn, it.quantity, it.unit, it.rate, it.amount)
  }

  /** One group becomes one draft invoice; `fyOf` is the engine's financial year of the date
      text as typed in the sheet. Besides the store, the customers created for it. */
  function CreateInvoice(store: Store, clients: seq<string>, b: BulkGroup, fyOf: string -> string, id: string): (Store, seq<string>) {
    var customer := Show(b.customer);
    var found := MatchClient(clients, customer);
    var name := if found.Some? then found.value else customer;
    var totalQuantity := Sum(b.items, ItemQuantity);
    var grandTotal := Sum(b.items, ItemAmount);
    var date := Show(b.date);
    var inv := Invoice(id, b.invoiceNumber, date, fyOf(date), name, totalQuantity, grandTotal, AmountInWords(grandTotal), "draft");
    (store.(invoices := store.invoices + [inv], items := store.items + Map(b.items, it => StoredItem(id, it))),
     if found.Some? then [] else [customer])
  }

  /** The creation loop. The client list is read once: clients created on the way are not
      added to it. */
  function CreateAll(store: Store, clients: seq<string>, bs: seq<BulkGroup>, fyOf: string -> string, newId: nat -> string, k: nat): (Store, seq<string>)
    decreases |bs|
  {
    if |bs| == 0 then (store, [])
    else
      var (next, made) := CreateInvoice(store, clients, bs[0], fyOf, newId(k));
      var (last, rest) := CreateAll(next, clients, bs[1..], fyOf, newId, k + 1);
      (last, made + rest)
  }

  /** A created invoice is numbered by its group key and totals its items' quantities and
      amounts. */
  lemma {:induction false} CreateInvoiceFields(store: Store, clients: seq<string>, b: BulkGroup, fyOf: string -> string, id: string)
    ensures var (after, _) := CreateInvoice(store, clients, b, fyOf, id);
      var inv := after.invoices[|after.invoices| - 1];
      |after.invoices| == |store.invoices| + 1 && after.invoices[..|store.invoices|] == store.invoices
      && inv.number == b.invoiceNumber && inv.status == "draft"
      && inv.totalQuantity == Sum(b.items, ItemQuantity) && inv.grandTotal == Sum(b.items, ItemAmount)
  {
  }

  /** The invoice's items are the group's items in order, linked to the new invoice, and their
      amounts add up to its grand total. */
  lemma {:induction false} CreateInvoiceItems(store: Store, clients: seq<string>, b: BulkGroup, fyOf: string -> string, id: string)
    ensures var (after, _) := CreateInvoice(store, clients, b, fyOf, id);
      |after.items| == |store.items| + |b.items| && after.items[..|store.items|] == store.items
      && (forall i :: 0 <= i < |b.items| ==>
           after.items[|store.items| + i].invoiceId == id && after.items[|store.items| + i].amount == b.items[i].amount
           && after.items[|store.items| + i].rowIndex == b.items[i].rowIndex)
      && Sum(after.items[|store.items|..], StoredAmount) == Sum(b.items, ItemAmount)
  {
    var (after, _) := CreateInvoice(store, clients, b, fyOf, id);
    var added := Map(b.items, it => StoredItem(id, it));
    assert after.items == store.items + added;
    assert after.items[|store.items|..] == added;
    SumPointwise(added, b.items, StoredAmount, ItemAmount);
  }

  function StoredAmount(it: Item): real {
    it.amount
  }

  /** A customer that matches no client is created once per group: two groups of the same
      new customer create it twice. */
  lemma {:induction false} UnknownCustomerCreatedPerGroup(store: Store, b1: BulkGroup, b2: BulkGroup, fyOf: string -> string, newId: nat -> string)
    requires Show(b1.customer) == Show(b2.customer)
    ensures CreateAll(store, [], [b1, b2], fyOf, newId, 0).1 == [Show(b1.customer), Show(b1.customer)]
  {
    var bs := [b1, b2];
    assert bs[1..] == [b2] && bs[1..][1..] == [];
    var (s1, _) := CreateInvoice(store, [], b1, fyOf, newId(0));
    assert CreateAll(store, [], bs, fyOf, newId, 0).1 == [Show(b1.customer)] + CreateAll(s1, [], [b2], fyOf, newId, 1).1;
  }

  /** Creation adds one invoice per group and one item per grouped row. */
  lemma {:induction false} CreateAllCounts(store: Store, clients: seq<string>, bs: seq<BulkGroup>, fyOf: string -> string, newId: nat -> string, k: nat)
    ensures var (after, _) := CreateAll(store, clients, bs, fyOf, newId, k);
      |after.invoices| == |store.invoices| + |bs| && |after.items| == |store.items| + BulkItemCount(bs)
    decreases |bs|
  {
    if |bs| > 0 {
      var (next, _) := CreateInvoice(store, clients, bs[0], fyOf, newId(k));
      CreateAllCounts(next, clients, bs[1..], fyOf, newId, k + 1);
    }
  }

  /** From a clean sheet, creation stores exactly one item per spreadsheet row. */
  lemma {:induction false} UploadStoresEveryRow(store: Store, clients: seq<string>, rows: seq<Row>, m: Mapping, fyOf: string -> string, newId: nat -> string)
    requires ValidateAndGroup(rows, m).Groups?
    ensures var (after, _) := CreateAll(store, clients, ValidateAndGroup(rows, m).groups, fyOf, newId, 0);
      |after.items| == |store.items| + |rows| && |after.invoices| == |store.invoices| + |ValidateAndGroup(rows, m).groups|
  {
    GroupsCoverRows(rows, m);
    CreateAllCounts(store, clients, ValidateAndGroup(rows, m).groups, fyOf, newId, 0);
  }
}

=== FILE: common.dfy ===
/**
 Shared vocabulary of the model: optional values, the cells of an extracted
 spreadsheet row (JavaScript values), and the handful of string and number
 helpers that the page handlers use (trim, padStart, includes, toLowerCase,
 decimal digits, sums over a list).
 */
module Common {

  datatype Option<T> = None | Some(value: T) {
    function GetOr(default: T): T {
      match this
      case Some(v) => v
      case None => default
    }
  }

  /** A cell of an extracted row, as JavaScript sees it.
      `Num` carries both the number and the text the engine prints for it
      (`String(n)`), since the model cannot render an arbitrary real. */
  datatype Cell = Absent | Num(n: real, text: string) | Text(s: string)

  /** JavaScript truthiness of a cell: undefined, 0 and "" are falsy. */
  predicate Truthy(c: Cell) {
    match c
    case Absent => false
    case Num(n, _) => n != 0.0
    case Text(s) => s != ""
  }

  /** `String(c)`: what a template literal or `toString()` gives. */
  function Show(c: Cell): string {
    match c
    case Absent => "undefined"
    case Num(_, t) => t
    case Text(s) => s
  }

  /** The value JavaScript's `!!` gives an optional text: present and non-empty. */
  predicate Filled(o: Option<string>) {
    o.Some? && o.value != ""
  }

  /** `c || d` on cells. */
  function Or(c: Cell, d: Cell): Cell {
    if Truthy(c) then c else d
  }

  /** The numeric value of a cell of a numeric column; text and missing cells read as 0. */
  function Numeric(c: Cell): real {
    if c.Num? then c.n else 0.0
  }

  /** `c?.toString().trim()`, with `None` for a missing cell. */
  function TrimmedText(c: Cell): Option<string> {
    if c.Absent? then None else Some(Trim(Show(c)))
  }

  /** An extracted row: its columns in key order, each with its cell. */
  type Row = seq<(string, Cell)>

  /** `row[key]`: the cell of the last column named `key`, `Absent` when there is none. */
  function Get(row: Row, key: string): (c: Cell)
    ensures c != Absent ==> exists i :: 0 <= i < |row| && row[i] == (key, c)
  {
    if |row| == 0 then Absent
    else if row[|row| - 1].0 == key then row[|row| - 1].1
    else Get(row[..|row| - 1], key)
  }

  /** `parseFloat(c)`: a number is itself; a text is read from its leading decimal number
      (optional sign, digits, optional fraction); anything else is `NaN`, here `None`. */
  function ParseFloat(c: Cell): Option<real> {
    match c
    case Absent => None
    case Num(n, _) => Some(n)
    case Text(s) => LeadingDecimal(TrimStart(s))
  }

  /** Length of the run of digits at the start of `s`. */
  function DigitPrefix(s: string): (k: nat)
    ensures k <= |s| && AllDigits(s[..k]) && (k < |s| ==> !IsDigit(s[k]))
  {
    if |s| > 0 && IsDigit(s[0]) then
      var k := DigitPrefix(s[1..]);
      assert s[..k + 1] == [s[0]] + s[1..][..k];
      k + 1
    else 0
  }

  /** The value of the digits after a decimal point. */
  function FractionValue(ds: string): real
    requires AllDigits(ds)
  {
    if |ds| == 0 then 0.0 else (DigitValue(ds[0]) as real + FractionValue(ds[1..])) / 10.0
  }

  /** `parseFloat`'s decimal literal: an optional sign, then digits with an optional `.` and
      fraction digits, or a `.` followed by at least one digit; whatever follows is ignored. */
  function LeadingDecimal(s: string): Option<real> {
    var signed := |s| > 0 && (s[0] == '-' || s[0] == '+');
    var body := if signed then s[1..] else s;
    var k := DigitPrefix(body);
    var rest := body[k..];
    var point := |rest| > 0 && rest[0] == '.';
    var j := if point then DigitPrefix(rest[1..]) else 0;
    if k == 0 && j == 0 then None
    else
      var f := if point then FractionValue(rest[1..][..j]) else 0.0;
      var v := DigitsValue(body[..k]) as real + f;
      Some(if signed && s[0] == '-' then -v else v)
  }

  /** A fraction without an integer part reads as its value, with its sign: `parseFloat(".5")`
      is 0.5 and `parseFloat("-.5")` is -0.5. */
  lemma {:induction false} ParseFloatBareFraction(ds: string)
    requires |ds| > 0 && AllDigits(ds)
    ensures ParseFloat(Text("." + ds)) == Some(FractionValue(ds))
    ensures ParseFloat(Text("-." + ds)) == Some(-FractionValue(ds))
  {
    DigitPrefixAll(ds);
    assert ds[..|ds|] == ds;
    var s := "." + ds;
    assert TrimStart(s) == s;
    assert DigitPrefix(s) == 0;
    assert s[0..] == s && s[1..] == ds;
    var t := "-." + ds;
    assert TrimStart(t) == t;
    assert t[1..] == s;
  }

  lemma {:induction false} DigitPrefixAll(s: string)
    requires AllDigits(s)
    ensures DigitPrefix(s) == |s|
  {
    if |s| > 0 {
      DigitPrefixAll(s[1..]);
    }
  }

  /** `parseFloat(String(n))` of a natural number gives the number back. */
  lemma {:induction false} ParseFloatOfNat(n: nat)
    ensures ParseFloat(Text(NatToString(n))) == Some(n as real)
  {
    var s := NatToString(n);
    assert TrimStart(s) == s by {
      assert IsDigit(s[0]);
    }
    DigitPrefixAll(s);
    assert s[..|s|] == s;
    NatToStringValue(n);
  }

  // ---------------------------------------------------------------- strings

  /** The characters JavaScript's `trim` removes (WhiteSpace and LineTerminator). */
  predicate IsSpace(ch: char) {
    ch == ' ' || ch == '\t' || ch == '\n' || ch == '\r' || ch == '\U{000B}' || ch == '\U{000C}'
    || ch == '\U{00A0}' || ch == '\U{1680}' || ('\U{2000}' <= ch <= '\U{200A}') || ch == '\U{2028}'
    || ch == '\U{2029}' || ch == '\U{202F}' || ch == '\U{205F}' || ch == '\U{3000}' || ch == '\U{FEFF}'
  }

  function TrimStart(s: string): (r: string)
    ensures |r| <= |s| && r == s[|s| - |r|..]
    ensures r == "" || !IsSpace(r[0])
    ensures forall i :: 0 <= i < |s| - |r| ==> IsSpace(s[i])
  {
    if |s| > 0 && IsSpace(s[0]) then TrimStart(s[1..]) else s
  }

  function TrimEnd(s: string): (r: string)
    ensures |r| <= |s| && r == s[..|r|]
    ensures r == "" || !IsSpace(r[|r| - 1])
    ensures forall i :: |r| <= i < |s| ==> IsSpace(s[i])
  {
    if |s| > 0 && IsSpace(s[|s| - 1]) then TrimEnd(s[..|s| - 1]) else s
  }

  /** `sub` occurs in `s` at position `k`. */
  predicate OccursAt(s: string, sub: string, k: int) {
    0 <= k && k + |sub| <= |s| && s[k..k + |sub|] == sub
  }

  /** `s.trim()`: the longest slice of `s` that neither starts nor ends with a space. */
  function Trim(s: string): (r: string)
    ensures exists k :: OccursAt(s, r, k)
    ensures r == "" || (!IsSpace(r[0]) && !IsSpace(r[|r| - 1]))
  {
    var t := TrimStart(s);
    var r := TrimEnd(t);
    assert OccursAt(s, r, |s| - |t|);
    r
  }

  predicate IsDigit(ch: char) {
    '0' <= ch <= '9'
  }

  predicate AllDigits(s: string) {
    forall i :: 0 <= i < |s| ==> IsDigit(s[i])
  }

  function DigitValue(ch: char): nat
    requires IsDigit(ch)
  {
    (ch as int - '0' as int) as nat
  }

  function DigitChar(d: nat): (ch: char)
    requires d < 10
    ensures IsDigit(ch) && DigitValue(ch) == d
  {
    (d + '0' as int) as char
  }

  /** `parseInt(s, 10)` of a string of decimal digits. */
  function DigitsValue(s: string): nat
    requires AllDigits(s)
  {
    if |s| == 0 then 0 else 10 * DigitsValue(s[..|s| - 1]) + DigitValue(s[|s| - 1])
  }

  /** The value of a two-digit text. */
  lemma {:induction false} DigitsValueTwo(s: string)
    requires |s| == 2 && AllDigits(s)
    ensures DigitsValue(s) == 10 * DigitValue(s[0]) + DigitValue(s[1])
  {
    assert s[..1][..0] == [] && s[..1][0] == s[0];
    assert DigitsValue(s[..1]) == DigitValue(s[0]);
    assert s[..|s| - 1] == s[..1];
  }

  /** The decimal text of a natural number, as `String(n)` prints it. */
  function NatToString(n: nat): (r: string)
    ensures |r| > 0 && AllDigits(r)
    ensures r[0] == '0' ==> n == 0 && r == "0"
  {
    if n < 10 then [DigitChar(n)] else NatToString(n / 10) + [DigitChar(n % 10)]
  }

  /** The number of decimal digits of small numbers. */
  lemma {:induction false} NatToStringLength(n: nat)
    ensures n < 10 ==> |NatToString(n)| == 1
    ensures 10 <= n < 100 ==> |NatToString(n)| == 2
    ensures 100 <= n < 1000 ==> |NatToString(n)| == 3
    ensures 1000 <= n < 10000 ==> |NatToString(n)| == 4
    ensures n >= 1000 ==> |NatToString(n)| >= 4
  {
    if n >= 10 {
      NatToStringLength(n / 10);
    }
  }

  /** Reading back the decimal text of `n` gives `n`. */
  lemma {:induction false} NatToStringValue(n: nat)
    ensures DigitsValue(NatToString(n)) == n
  {
    if n >= 10 {
      var p := NatToString(n / 10);
      NatToStringValue(n / 10);
      assert (p + [DigitChar(n % 10)])[..|p|] == p;
    }
  }

  /** Decimal text is one-to-one. */
  lemma {:induction false} NatToStringInjective(a: nat, b: nat)
    requires NatToString(a) == NatToString(b)
    ensures a == b
  {
    NatToStringValue(a);
    NatToStringValue(b);
  }

  /** `String(i)` for an integer. */
  function IntToString(i: int): (r: string)
    ensures i >= 0 ==> r == NatToString(i)
    ensures i < 0 ==> r == "-" + NatToString(-i)
  {
    if i >= 0 then NatToString(i) else "-" + NatToString(-i)
  }

  /** `String(x).padStart(2, '0')`. */
  function PadTwo(s: string): (r: string)
    ensures |s| >= 2 ==> r == s
    ensures |s| < 2 ==> |r| == 2 && r[2 - |s|..] == s && forall i :: 0 <= i < 2 - |s| ==> r[i] == '0'
  {
    if |s| == 0 then "00" else if |s| == 1 then "0" + s else s
  }

  /** A number below 100, padded to two digits, reads back as itself. */
  lemma {:induction false} PadTwoValue(m: nat)
    requires m < 100
    ensures |PadTwo(NatToString(m))| == 2 && AllDigits(PadTwo(NatToString(m)))
    ensures DigitsValue(PadTwo(NatToString(m))) == m
  {
    NatToStringValue(m);
    NatToStringLength(m);
    if m < 10 {
      DigitsValueTwo(PadTwo(NatToString(m)));
    }
  }

  /** `toLowerCase` on one character, for the capitals of Basic Latin, Latin-1, Latin
      Extended-A and Cyrillic (U+0400 to U+042F); every other character is kept. Within Latin
      Extended-A capitals and small letters alternate, the capital first, except in the two
      runs U+0139 to U+0148 and U+0179 to U+017E where the small letter comes first in the
      pair's code order; U+0178 lowers to U+00FF. U+0130 is kept: it lowers to two characters. */
  function LowerChar(ch: char): char {
    var c := ch as int;
    if 'A' <= ch <= 'Z' || ('\U{00C0}' <= ch <= '\U{00DE}' && ch != '\U{00D7}') then (c + 32) as char
    else if ch == '\U{0178}' then '\U{00FF}'
    else if ('\U{0100}' <= ch <= '\U{0137}' || '\U{014A}' <= ch <= '\U{0177}') && c % 2 == 0 && ch != '\U{0130}' then (c + 1) as char
    else if ('\U{0139}' <= ch <= '\U{0148}' || '\U{0179}' <= ch <= '\U{017E}') && c % 2 == 1 then (c + 1) as char
    else if '\U{0410}' <= ch <= '\U{042F}' then (c + 32) as char
    else if '\U{0400}' <= ch <= '\U{040F}' then (c + 80) as char
    else ch
  }

  /** Lowering is idempotent: a lowered character has no capital left to lower. */
  lemma {:induction false} LowerCharTwice(ch: char)
    ensures LowerChar(LowerChar(ch)) == LowerChar(ch)
  {
    var c := ch as int;
    if 'A' <= ch <= 'Z' || ('\U{00C0}' <= ch <= '\U{00DE}' && ch != '\U{00D7}') {
      assert LowerChar(ch) == (c + 32) as char;
    } else if ch == '\U{0178}' {
      assert LowerChar(ch) == '\U{00FF}';
    } else if '\U{0100}' <= ch <= '\U{017F}' {
      var r := LowerChar(ch) as int;
      assert r == c || r == c + 1;
      assert r == c + 1 ==> r % 2 != c % 2;
    } else if '\U{0400}' <= ch <= '\U{042F}' {
      assert '\U{0430}' <= LowerChar(ch) <= '\U{045F}';
    }
  }

  /** "É" and "é", "Ж" and "ж", "Ł" and "ł" fold together. */
  lemma {:induction false} LowerCharExamples()
    ensures LowerChar('\U{00C9}') == LowerChar('\U{00E9}') == '\U{00E9}'
    ensures LowerChar('\U{0416}') == LowerChar('\U{0436}') == '\U{0436}'
    ensures LowerChar('\U{0141}') == LowerChar('\U{0142}') == '\U{0142}'
  {
  }

  function ToLower(s: string): (r: string)
    ensures |r| == |s| && forall i :: 0 <= i < |s| ==> r[i] == LowerChar(s[i])
  {
    if |s| == 0 then "" else [LowerChar(s[0])] + ToLower(s[1..])
  }

  /** `s.includes(sub)`. */
  predicate Contains(s: string, sub: string)
    decreases |s|
  {
    sub <= s || (|s| > 0 && Contains(s[1..], sub))
  }

  /** Every string contains the empty string. */
  lemma {:induction false} ContainsEmpty(s: string)
    ensures Contains(s, "")
  {
  }

  /** A substring is a slice: `includes` holds exactly when `sub` occurs at some position. */
  lemma {:induction false} ContainsIffOccurs(s: string, sub: string)
    ensures Contains(s, sub) <==> exists k :: OccursAt(s, sub, k)
    decreases |s|
  {
    if sub <= s {
      assert OccursAt(s, sub, 0);
    } else if |s| > 0 {
      ContainsIffOccurs(s[1..], sub);
      if Contains(s[1..], sub) {
        var k :| OccursAt(s[1..], sub, k);
        SliceOfTail(s, k, k + |sub|);
        assert OccursAt(s, sub, k + 1);
      }
      if exists k :: OccursAt(s, sub, k) {
        var k :| OccursAt(s, sub, k);
        if k > 0 {
          SliceOfTail(s, k - 1, k - 1 + |sub|);
          assert OccursAt(s[1..], sub, k - 1);
        }
      }
    }
  }

  lemma {:induction false} SliceOfTail(s: string, i: int, j: int)
    requires 0 <= i <= j <= |s| - 1
    ensures s[1..][i..j] == s[i + 1..j + 1]
  {
    assert forall m :: 0 <= m < j - i ==> s[1..][i..j][m] == s[i + 1 + m];
  }

  /** A string that lacks some character of `sub` cannot contain `sub`. */
  lemma {:induction false} NoCharNoContains(s: string, sub: string, ch: char)
    requires ch in sub && ch !in s
    ensures !Contains(s, sub)
  {
    ContainsIffOccurs(s, sub);
  }

  /** `parts.join(sep)`. */
  function Join(parts: seq<string>, sep: string): string {
    if |parts| == 0 then ""
    else if |parts| == 1 then parts[0]
    else parts[0] + sep + Join(parts[1..], sep)
  }

  // ---------------------------------------------------------------- lists

  /** `xs.map(f)`. */
  function Map<T, U>(xs: seq<T>, f: T -> U): (r: seq<U>)
    ensures |r| == |xs| && forall i :: 0 <= i < |xs| ==> r[i] == f(xs[i])
  {
    if |xs| == 0 then [] else Map(xs[..|xs| - 1], f) + [f(xs[|xs| - 1])]
  }

  /** Each element paired with its position, as `forEach((x, index) => ...)` sees it. */
  function Indexed<T>(xs: seq<T>): (r: seq<(nat, T)>)
    ensures |r| == |xs| && forall i :: 0 <= i < |xs| ==> r[i] == (i, xs[i])
  {
    if |xs| == 0 then [] else Indexed(xs[..|xs| - 1]) + [(|xs| - 1, xs[|xs| - 1])]
  }

  function Filter<T>(xs: seq<T>, p: T -> bool): (r: seq<T>)
    ensures |r| <= |xs|
    ensures forall i :: 0 <= i < |r| ==> r[i] in xs && p(r[i])
    ensures forall i :: 0 <= i < |xs| && p(xs[i]) ==> xs[i] in r
  {
    if |xs| == 0 then [] else (if p(xs[0]) then [xs[0]] else []) + Filter(xs[1..], p)
  }

  lemma {:induction false} FilterAppend<T>(a: seq<T>, b: seq<T>, p: T -> bool)
    ensures Filter(a + b, p) == Filter(a, p) + Filter(b, p)
  {
    if |a| > 0 {
      assert (a + b)[1..] == a[1..] + b;
      FilterAppend(a[1..], b, p);
    } else {
      assert a + b == b;
    }
  }

  /** `a` is `b` with some elements left out, the rest in their order. */
  predicate SubsequenceOf<T(==)>(a: seq<T>, b: seq<T>)
    decreases |b|
  {
    if |a| == 0 then true
    else if |b| == 0 then false
    else (a[0] == b[0] && SubsequenceOf(a[1..], b[1..])) || SubsequenceOf(a, b[1..])
  }

  lemma {:induction false} FilterIsSubsequence<T>(xs: seq<T>, p: T -> bool)
    ensures SubsequenceOf(Filter(xs, p), xs)
  {
    if |xs| > 0 {
      FilterIsSubsequence(xs[1..], p);
      var r := Filter(xs, p);
      if p(xs[0]) {
        assert r[0] == xs[0] && r[1..] == Filter(xs[1..], p);
      } else {
        assert r == Filter(xs[1..], p);
      }
    }
  }

  /** A filter that every element passes keeps the whole list. */
  lemma {:induction false} FilterKeepsAll<T>(xs: seq<T>, p: T -> bool)
    requires forall i :: 0 <= i < |xs| ==> p(xs[i])
    ensures Filter(xs, p) == xs
  {
    if |xs| > 0 {
      FilterKeepsAll(xs[1..], p);
      assert xs == [xs[0]] + xs[1..];
    }
  }

  /** `f` strictly increases along `xs`. */
  predicate Increasing<T>(xs: seq<T>, f: T -> int) {
    forall i, j :: 0 <= i < j < |xs| ==> f(xs[i]) < f(xs[j])
  }

  function Count<T>(xs: seq<T>, p: T -> bool): nat {
    |Filter(xs, p)|
  }

  /** `xs.reduce((sum, x) => sum + f(x), 0)`. */
  function Sum<T>(xs: seq<T>, f: T -> real): real {
    if |xs| == 0 then 0.0 else Sum(xs[..|xs| - 1], f) + f(xs[|xs| - 1])
  }

  lemma {:induction false} SumAppend<T>(a: seq<T>, b: seq<T>, f: T -> real)
    ensures Sum(a + b, f) == Sum(a, f) + Sum(b, f)
    decreases |b|
  {
    if |b| > 0 {
      assert (a + b)[..|a + b| - 1] == a + b[..|b| - 1];
      SumAppend(a, b[..|b| - 1], f);
    } else {
      assert a + b == a;
    }
  }

  /** Sums of two lists that agree pointwise under `f` and `g` are equal. */
  lemma {:induction false} SumPointwise<T, U>(xs: seq<T>, ys: seq<U>, f: T -> real, g: U -> real)
    requires |xs| == |ys|
    requires forall i :: 0 <= i < |xs| ==> f(xs[i]) == g(ys[i])
    ensures Sum(xs, f) == Sum(ys, g)
  {
    if |xs| > 0 {
      SumPointwise(xs[..|xs| - 1], ys[..|ys| - 1], f, g);
    }
  }

  function Max(a: int, b: int): int {
    if a >= b then a else b
  }
}

=== FILE: currency.dfy ===
/**
 `formatIndianCurrency`: a rupee amount with two decimals and Indian digit
 grouping (the last three digits of the integer part, then pairs leftwards),
 e.g. 1234567.8 as "₹12,34,567.80".

 The amount is taken after `toFixed(2)`: a sign and a whole number of paise.
 */
module Currency {
  import opened Common

  /** Paise, the two decimals of `toFixed(2)`. */
  type Paise = p: nat | p < 100

  /** The input: `null`, `undefined` and `NaN` are `Missing`; a number is its sign and the
      rupees and paise of its absolute value rounded to two decimals. */
  datatype Amount = Missing | Value(negative: bool, rupees: nat, paise: Paise)

  /** The rupee sign, U+20B9. */
  const Rupee: char := '\U{20B9}'

  /** Pairs of digits from the right, separated by commas: what
      `replace(/\B(?=(\d{2})+(?!\d))/g, ',')` does to a string of digits. */
  function GroupPairs(r: string): (g: string)
    ensures |r| > 0 ==> |g| > 0 && g[0] == r[0]
  {
    if |r| <= 2 then r else GroupPairs(r[..|r| - 2]) + "," + r[|r| - 2..]
  }

  function Sign(negative: bool): string {
    if negative then "-" else ""
  }

  /** The two decimals of `toFixed(2)`. */
  function DecimalPart(paise: Paise): (d: string)
    ensures |d| == 2 && AllDigits(d)
  {
    NatToStringLength(paise);
    PadTwo(NatToString(paise))
  }

  /** The integer part as printed: unchanged up to three digits, otherwise the leading digits
      grouped in pairs, a comma, and the last three digits. */
  function Grouped(ip: string): (b: string)
    ensures |ip| > 0 ==> |b| > 0 && b[0] == ip[0]
  {
    if |ip| <= 3 then ip else GroupPairs(ip[..|ip| - 3]) + "," + ip[|ip| - 3..]
  }

  /** Everything after the sign. */
  function Unsigned(rupees: nat, paise: Paise): (u: string)
    ensures |u| >= 4 && IsDigit(u[0])
    ensures u[|u| - 3] == '.' && IsDigit(u[|u| - 2]) && IsDigit(u[|u| - 1])
  {
    var ip, dp := NatToString(rupees), DecimalPart(paise);
    var u := Grouped(ip) + "." + dp;
    assert u[0] == ip[0];
    assert u[|u| - 2] == dp[0] && u[|u| - 1] == dp[1];
    u
  }

  function FormatIndianCurrency(a: Amount): (r: string)
    ensures a.Missing? ==> r == [Rupee, '0']
    ensures a.Value? ==> |r| >= 5 && r[0] == Rupee && (r[1] == '-' <==> a.negative)
    ensures a.Value? ==> r[|r| - 3] == '.' && IsDigit(r[|r| - 2]) && IsDigit(r[|r| - 1])
  {
    match a
    case Missing => [Rupee, '0']
    case Value(negative, rupees, paise) =>
      var u := Unsigned(rupees, paise);
      var r := [Rupee] + Sign(negative) + u;
      assert r[|r| - 3] == u[|u| - 3] && r[|r| - 2] == u[|u| - 2] && r[|r| - 1] == u[|u| - 1];
      assert r[1] == if negative then '-' else u[0];
      r
  }

  // ------------------------------------------------------------ the regular expression

  /** What the regular expression puts before position `i`: a comma when the position is not
      the start and a positive even number of digits follows it. */
  function Piece(r: string, i: nat): string
    requires i < |r|
  {
    (if 0 < i && (|r| - i) % 2 == 0 then "," else "") + [r[i]]
  }

  /** A direct reading of the regular expression over the first `k` positions of `r`,
      scanning left to right. */
  function InsertCommas(r: string, k: nat): string
    requires k <= |r|
  {
    if k == 0 then "" else InsertCommas(r, k - 1) + Piece(r, k - 1)
  }

  /** Dropping the last two digits changes neither the parity of what follows an earlier
      position nor its digit, so the scan over those positions is unchanged. */
  lemma {:induction false} InsertCommasPrefix(r: string, k: nat)
    requires |r| >= 2 && k <= |r| - 2
    ensures InsertCommas(r, k) == InsertCommas(r[..|r| - 2], k)
  {
    if k > 0 {
      InsertCommasPrefix(r, k - 1);
      var p := r[..|r| - 2];
      assert p[k - 1] == r[k - 1] && (|r| - (k - 1)) % 2 == (|p| - (k - 1)) % 2;
      assert Piece(r, k - 1) == Piece(p, k - 1);
    }
  }

  /** Grouping by pairs from the right is the regular expression's comma insertion. */
  lemma {:induction false} GroupPairsIsRegex(r: string)
    ensures GroupPairs(r) == InsertCommas(r, |r|)
  {
    var n := |r|;
    if n > 2 {
      var p := r[..n - 2];
      GroupPairsIsRegex(p);
      InsertCommasPrefix(r, n - 2);
      assert Piece(r, n - 2) == [','] + [r[n - 2]];
      assert Piece(r, n - 1) == [r[n - 1]];
      var x := InsertCommas(p, n - 2);
      assert InsertCommas(r, n) == (x + ([','] + [r[n - 2]])) + [r[n - 1]];
      assert r[n - 2..] == [r[n - 2]] + [r[n - 1]];
      assert (x + ([','] + [r[n - 2]])) + [r[n - 1]] == x + "," + r[n - 2..];
    } else if n == 2 {
      assert InsertCommas(r, 1) == [r[0]];
      assert InsertCommas(r, 2) == [r[0]] + [r[1]];
    } else if n == 1 {
      assert InsertCommas(r, 1) == [r[0]];
    }
  }

  // ------------------------------------------------------------ reading back

  /** `s` with every comma removed. */
  function RemoveCommas(s: string): (r: string)
    ensures ',' !in s ==> r == s
  {
    if |s| == 0 then ""
    else (if s[0] == ',' then "" else [s[0]]) + RemoveCommas(s[1..])
  }

  lemma {:induction false} RemoveCommasAppend(a: string, b: string)
    ensures RemoveCommas(a + b) == RemoveCommas(a) + RemoveCommas(b)
  {
    if |a| > 0 {
      assert (a + b)[1..] == a[1..] + b;
      RemoveCommasAppend(a[1..], b);
    } else {
      assert a + b == b;
    }
  }

  /** Removing the commas of `a + "," + b` joins `a` and `b`. */
  lemma {:induction false} RemoveCommasJoin(a: string, b: string)
    requires ',' !in b
    ensures RemoveCommas(a + "," + b) == RemoveCommas(a) + b
  {
    RemoveCommasAppend(a, ",");
    RemoveCommasAppend(a + ",", b);
  }

  predicate NoSignOrComma(s: string) {
    ',' !in s && '-' !in s
  }

  lemma {:induction false} DigitsHaveNoSign(s: string)
    requires AllDigits(s)
    ensures NoSignOrComma(s)
  {
    assert forall i :: 0 <= i < |s| ==> IsDigit(s[i]);
  }

  lemma {:induction false} GroupPairsStrip(r: string)
    requires NoSignOrComma(r)
    ensures RemoveCommas(GroupPairs(r)) == r && '-' !in GroupPairs(r)
  {
    if |r| > 2 {
      var p, t := r[..|r| - 2], r[|r| - 2..];
      assert NoSignOrComma(p) && NoSignOrComma(t);
      GroupPairsStrip(p);
      RemoveCommasJoin(GroupPairs(p), t);
      assert p + t == r;
    }
  }

  /** Removing the commas of the grouped integer part gives the integer part back; a comma
      is there exactly when the integer part has more than three digits. */
  lemma {:induction false} GroupedStrip(ip: string)
    requires AllDigits(ip)
    ensures RemoveCommas(Grouped(ip)) == ip && '-' !in Grouped(ip)
    ensures ',' in Grouped(ip) <==> |ip| > 3
  {
    DigitsHaveNoSign(ip);
    if |ip| > 3 {
      var p, t := ip[..|ip| - 3], ip[|ip| - 3..];
      assert NoSignOrComma(p) && NoSignOrComma(t);
      GroupPairsStrip(p);
      RemoveCommasJoin(GroupPairs(p), t);
      assert p + t == ip;
      assert Grouped(ip)[|GroupPairs(p)|] == ',';
    }
  }

  /** Reads a formatted amount back: strips the rupee sign, the minus sign and the commas,
      and reads the digits on either side of the decimal point. */
  function ParseIndianCurrency(s: string): Option<Amount> {
    if s == [Rupee, '0'] then Some(Missing)
    else if |s| >= 1 && s[0] == Rupee then ParseSigned(s[1..])
    else None
  }

  /** The text after the rupee sign: an optional minus sign, then the grouped number. */
  function ParseSigned(t: string): Option<Amount> {
    var negative := |t| > 0 && t[0] == '-';
    match ReadFixed(RemoveCommas(if negative then t[1..] else t))
    case Some(v) => Some(Value(negative, v.0, v.1))
    case None => None
  }

  /** Reads `digits.dd` as rupees and paise. */
  function ReadFixed(v: string): Option<(nat, Paise)> {
    if |v| >= 3 && v[|v| - 3] == '.' && AllDigits(v[..|v| - 3]) && AllDigits(v[|v| - 2..]) then
      var p := DigitsValue(v[|v| - 2..]);
      if p < 100 then Some((DigitsValue(v[..|v| - 3]), p)) else None
    else None
  }

  /** Without its commas, the unsigned text is the `toFixed(2)` text. */
  lemma {:induction false} UnsignedStrip(rupees: nat, paise: Paise)
    ensures RemoveCommas(Unsigned(rupees, paise)) == NatToString(rupees) + "." + DecimalPart(paise)
  {
    var ip, dp := NatToString(rupees), DecimalPart(paise);
    GroupedStrip(ip);
    DigitsHaveNoSign(dp);
    assert Unsigned(rupees, paise) == (Grouped(ip) + ".") + dp;
    RemoveCommasAppend(Grouped(ip) + ".", dp);
    RemoveCommasAppend(Grouped(ip), ".");
    assert RemoveCommas(".") == ".";
  }

  /** The `toFixed(2)` text reads back as its rupees and paise. */
  lemma {:induction false} ReadFixedOf(rupees: nat, paise: Paise)
    ensures ReadFixed(NatToString(rupees) + "." + DecimalPart(paise)) == Some((rupees, paise))
  {
    var ip, dp := NatToString(rupees), DecimalPart(paise);
    var v := ip + "." + dp;
    assert v[..|v| - 3] == ip && v[|v| - 2..] == dp && v[|v| - 3] == '.';
    NatToStringValue(rupees);
    PadTwoValue(paise);
  }

  /** After the rupee sign: the minus sign, if any, then the unsigned text. */
  lemma {:induction false} ParseSignedOf(negative: bool, rupees: nat, paise: Paise)
    ensures ParseSigned(Sign(negative) + Unsigned(rupees, paise)) == Some(Value(negative, rupees, paise))
  {
    var u := Unsigned(rupees, paise);
    var t := Sign(negative) + u;
    assert (|t| > 0 && t[0] == '-') == negative;
    assert (if negative then t[1..] else t) == u;
    UnsignedStrip(rupees, paise);
    ReadFixedOf(rupees, paise);
    assert ReadFixed(RemoveCommas(u)) == Some((rupees, paise));
  }

  /** Reading back a formatted amount gives the amount: removing the rupee sign, the minus
      sign and the commas leaves the absolute value with its two decimals. */
  lemma {:induction false} FormatRoundTrip(a: Amount)
    ensures ParseIndianCurrency(FormatIndianCurrency(a)) == Some(a)
  {
    if a.Value? {
      var t := Sign(a.negative) + Unsigned(a.rupees, a.paise);
      assert FormatIndianCurrency(a) == [Rupee] + t;
      ParseAfterRupee(t);
      ParseSignedOf(a.negative, a.rupees, a.paise);
    }
  }

  lemma {:induction false} ParseAfterRupee(t: string)
    requires |t| >= 2
    ensures ParseIndianCurrency([Rupee] + t) == ParseSigned(t)
  {
    var s := [Rupee] + t;
    assert s != [Rupee, '0'] by {
      assert |s| >= 3;
    }
    assert s[1..] == t;
  }

  /** Distinct amounts are never formatted alike. */
  lemma {:induction false} FormatInjective(a: Amount, b: Amount)
    requires FormatIndianCurrency(a) == FormatIndianCurrency(b)
    ensures a == b
  {
    FormatRoundTrip(a);
    FormatRoundTrip(b);
  }

  /** A comma appears exactly when the integer part is 1000 or more. */
  lemma {:induction false} CommaIffThousands(negative: bool, rupees: nat, paise: Paise)
    ensures ',' in FormatIndianCurrency(Value(negative, rupees, paise)) <==> rupees >= 1000
  {
    var u := Unsigned(rupees, paise);
    UnsignedComma(rupees, paise);
    assert ',' !in [Rupee] + Sign(negative);
    assert FormatIndianCurrency(Value(negative, rupees, paise)) == ([Rupee] + Sign(negative)) + u;
  }

  /** The unsigned text has a comma exactly when its integer part does. */
  lemma {:induction false} UnsignedComma(rupees: nat, paise: Paise)
    ensures ',' in Unsigned(rupees, paise) <==> rupees >= 1000
  {
    var ip, dp := NatToString(rupees), DecimalPart(paise);
    DigitsHaveNoSign(dp);
    assert Unsigned(rupees, paise) == Grouped(ip) + ("." + dp);
    assert ',' !in "." + dp;
    GroupedComma(rupees);
  }

  lemma {:induction false} GroupedComma(rupees: nat)
    ensures ',' in Grouped(NatToString(rupees)) <==> rupees >= 1000
  {
    GroupedStrip(NatToString(rupees));
    NatToStringLength(rupees);
  }

  /** A negative amount is the minus sign followed by the format of its absolute value. */
  lemma {:induction false} NegativeIsSignedAbsolute(rupees: nat, paise: Paise)
    ensures FormatIndianCurrency(Value(true, rupees, paise))
         == [Rupee, '-'] + FormatIndianCurrency(Value(false, rupees, paise))[1..]
  {
    var u := Unsigned(rupees, paise);
    SignAfterFirst(FormatIndianCurrency(Value(false, rupees, paise)), u);
  }

  lemma {:induction false} SignAfterFirst(pos: string, u: string)
    requires pos == [Rupee] + u
    ensures [Rupee, '-'] + pos[1..] == [Rupee] + "-" + u
  {
    assert pos[1..] == u;
  }

  /** 1234567.80 is written "₹12,34,567.80". */
  lemma {:induction false} LakhExample()
    ensures FormatIndianCurrency(Value(false, 1234567, 80)) == [Rupee] + "12,34,567.80"
  {
    LakhDigits(1234567, 80);
  }

  lemma {:induction false} NatToStringSnoc(n: nat, prefix: string, d: nat)
    requires n >= 10 && NatToString(n / 10) == prefix && d == n % 10
    ensures NatToString(n) == prefix + [DigitChar(d)]
  {
  }

  lemma {:induction false} LakhInteger(n: nat)
    requires n == 1234567
    ensures NatToString(n) == "1234567"
  {
    assert NatToString(1) == "1";
    NatToStringSnoc(12, "1", 2);
    NatToStringSnoc(123, "12", 3);
    NatToStringSnoc(1234, "123", 4);
    NatToStringSnoc(12345, "1234", 5);
    NatToStringSnoc(123456, "12345", 6);
    NatToStringSnoc(n, "123456", 7);
  }

  lemma {:induction false} EightyPaise(p: Paise)
    requires p == 80
    ensures DecimalPart(p) == "80"
  {
    assert NatToString(8) == "8";
    NatToStringSnoc(p, "8", 0);
  }

  lemma {:induction false} LakhGrouped(ip: string)
    requires ip == "1234567"
    ensures Grouped(ip) == "12,34,567"
  {
    assert GroupPairs("1234") == "12,34" by {
      assert "1234"[..2] == "12" && "1234"[2..] == "34";
    }
    assert ip[..4] == "1234" && ip[4..] == "567";
  }

  lemma {:induction false} LakhDigits(n: nat, p: Paise)
    requires n == 1234567 && p == 80
    ensures FormatIndianCurrency(Value(false, n, p)) == [Rupee] + "12,34,567.80"
  {
    LakhInteger(n);
    EightyPaise(p);
    LakhGrouped(NatToString(n));
    assert Unsigned(n, p) == "12,34,567" + "." + "80";
  }
}

=== FILE: dates.dfy ===
/**
 Calendar dates and the two date normalisers of the import flows.

 A spreadsheet date cell is either a day serial (days after 1899-12-30, UTC),
 an ISO-like `YYYY-M-D...` text, or a `D/M/YYYY` (or `D-M-YYYY`) text. The
 historical import's `parseDate` turns it into `YYYY-MM-DD` or rejects it; the
 sales import inlines the same branches but falls back to today's date.
 Dates are (year, month, day) integers on the proleptic Gregorian calendar,
 which is the calendar JavaScript's `Date` uses.
 */
module Dates {
  import opened Common

  datatype Date = Date(year: int, month: int, day: int)

  predicate Leap(y: int) {
    y % 4 == 0 && (y % 100 != 0 || y % 400 == 0)
  }

  function DaysInMonth(y: int, m: int): int {
    if m == 2 then (if Leap(y) then 29 else 28)
    else if m == 4 || m == 6 || m == 9 || m == 11 then 30
    else 31
  }

  predicate ValidDate(d: Date) {
    1 <= d.month <= 12 && 1 <= d.day <= DaysInMonth(d.year, d.month)
  }

  /** The day after `d`. */
  function Next(d: Date): (r: Date)
    requires ValidDate(d)
    ensures ValidDate(r)
  {
    if d.day < DaysInMonth(d.year, d.month) then Date(d.year, d.month, d.day + 1)
    else if d.month < 12 then Date(d.year, d.month + 1, 1)
    else Date(d.year + 1, 1, 1)
  }

  /** The day before `d`. */
  function Prev(d: Date): (r: Date)
    requires ValidDate(d)
    ensures ValidDate(r)
  {
    if d.day > 1 then Date(d.year, d.month, d.day - 1)
    else if d.month > 1 then Date(d.year, d.month - 1, DaysInMonth(d.year, d.month - 1))
    else Date(d.year - 1, 12, 31)
  }

  lemma {:induction false} NextPrev(d: Date)
    requires ValidDate(d)
    ensures Prev(Next(d)) == d && Next(Prev(d)) == d
  {
  }

  /** Calendar order. */
  predicate Before(a: Date, b: Date) {
    a.year < b.year || (a.year == b.year && (a.month < b.month || (a.month == b.month && a.day < b.day)))
  }

  lemma {:induction false} NextIsLater(d: Date)
    requires ValidDate(d)
    ensures Before(d, Next(d)) && Before(Prev(d), d)
  {
  }

  /** `n` days after `d` (before it, for negative `n`). */
  function AddDays(d: Date, n: int): (r: Date)
    requires ValidDate(d)
    ensures ValidDate(r)
    decreases if n >= 0 then n else -n
  {
    if n == 0 then d
    else if n > 0 then AddDays(Next(d), n - 1)
    else AddDays(Prev(d), n + 1)
  }

  lemma {:induction false} AddDaysSucc(d: Date, n: int)
    requires ValidDate(d)
    ensures AddDays(d, n + 1) == Next(AddDays(d, n))
    decreases if n >= 0 then n else -n
  {
    if n > 0 {
      AddDaysSucc(Next(d), n - 1);
    } else if n < 0 {
      if n == -1 {
        NextPrev(d);
      } else {
        AddDaysSucc(Prev(d), n + 1);
        NextPrev(AddDays(Prev(d), n + 1));
      }
    }
  }

  lemma {:induction false} AddDaysMonotone(d: Date, a: int, b: int)
    requires ValidDate(d) && a < b
    ensures Before(AddDays(d, a), AddDays(d, b))
    decreases b - a
  {
    AddDaysSucc(d, b - 1);
    NextIsLater(AddDays(d, b - 1));
    if a < b - 1 {
      AddDaysMonotone(d, a, b - 1);
    }
  }

  /** Day zero of spreadsheet serials: 1899-12-30. */
  const SerialEpoch: Date := Date(1899, 12, 30)

  /** The UTC calendar day `serial` days after the epoch; a fraction is a time of day. */
  function SerialDate(serial: real): (r: Date)
    ensures ValidDate(r)
  {
    AddDays(SerialEpoch, serial.Floor)
  }

  /** Consecutive whole serials are consecutive days, and distinct days have distinct serials. */
  lemma {:induction false} SerialDateSteps(a: int, b: int)
    ensures SerialDate((a + 1) as real) == Next(SerialDate(a as real))
    ensures a < b ==> Before(SerialDate(a as real), SerialDate(b as real))
    ensures SerialDate(a as real) == SerialDate(b as real) ==> a == b
  {
    assert ((a + 1) as real).Floor == a + 1;
    AddDaysSucc(SerialEpoch, a);
    if a < b {
      AddDaysMonotone(SerialEpoch, a, b);
    } else if b < a {
      AddDaysMonotone(SerialEpoch, b, a);
    }
  }

  lemma {:induction false} SerialExamples()
    ensures SerialDate(1.0) == Date(1899, 12, 31)
    ensures SerialDate(2.5) == Date(1900, 1, 1)
  {
    assert AddDays(Date(1899, 12, 31), 1) == AddDays(Date(1900, 1, 1), 0);
  }

  // ------------------------------------------------------------ text

  /** `` `${yyyy}-${mm}-${dd}` `` with month and day padded to two digits. */
  function FormatDate(d: Date): string
    requires d.month >= 0 && d.day >= 0
  {
    IntToString(d.year) + "-" + PadTwo(NatToString(d.month)) + "-" + PadTwo(NatToString(d.day))
  }

  /** A padded `YYYY-MM-DD` text: four digits, dash, two digits, dash, two digits. */
  predicate IsoShaped(s: string) {
    |s| == 10 && AllDigits(s[..4]) && s[4] == '-' && AllDigits(s[5..7]) && s[7] == '-' && AllDigits(s[8..])
  }

  predicate IsSep(ch: char) {
    ch == '/' || ch == '-'
  }

  /** Length of a one-or-two-digit field at the start of `t` that must be followed by `next`
      (the greedy `(\d{1,2})` of a regular expression, backtracking to one digit). */
  function FieldBefore(t: string, next: char -> bool): (k: nat)
    ensures k <= 2 && k <= |t|
    ensures k > 0 ==> |t| > k && AllDigits(t[..k]) && next(t[k])
  {
    if |t| >= 3 && IsDigit(t[0]) && IsDigit(t[1]) && next(t[2]) then 2
    else if |t| >= 2 && IsDigit(t[0]) && next(t[1]) then 1
    else 0
  }

  /** Length of the greedy unanchored `(\d{1,2})` at the start of `t`. */
  function LeadingField(t: string): (k: nat)
    ensures k <= 2 && k <= |t| && AllDigits(t[..k])
  {
    if |t| >= 2 && IsDigit(t[0]) && IsDigit(t[1]) then 2
    else if |t| >= 1 && IsDigit(t[0]) then 1
    else 0
  }

  function IsDash(ch: char): bool {
    ch == '-'
  }

  /** The three captures of `/^(\d{4})-(\d{1,2})-(\d{1,2})/` (not anchored at the end). */
  datatype Captures = Captures(year: string, month: string, day: string)

  function MatchIso(s: string): (r: Option<Captures>)
    ensures r.Some? ==> |r.value.year| == 4 && AllDigits(r.value.year)
                        && 1 <= |r.value.month| <= 2 && AllDigits(r.value.month)
                        && 1 <= |r.value.day| <= 2 && AllDigits(r.value.day)
  {
    if |s| >= 5 && AllDigits(s[..4]) && s[4] == '-' then
      var m := FieldBefore(s[5..], IsDash);
      if m == 0 then None
      else
        var rest := s[5 + m + 1..];
        var d := LeadingField(rest);
        if d == 0 then None
        else Some(Captures(s[..4], s[5..5 + m], rest[..d]))
    else None
  }

  /** The three captures of `/^(\d{1,2})[\/\-](\d{1,2})[\/\-](\d{4})$/`, in day, month, year order. */
  function MatchDmy(s: string): (r: Option<Captures>)
    ensures r.Some? ==> |r.value.year| == 4 && AllDigits(r.value.year)
                        && 1 <= |r.value.month| <= 2 && AllDigits(r.value.month)
                        && 1 <= |r.value.day| <= 2 && AllDigits(r.value.day)
  {
    var d := FieldBefore(s, IsSep);
    if d == 0 then None
    else
      var t := s[d + 1..];
      var m := FieldBefore(t, IsSep);
      if m == 0 then None
      else
        var y := t[m + 1..];
        if |y| == 4 && AllDigits(y) then Some(Captures(y, t[..m], s[..d])) else None
  }

  function Padded(c: Captures): string {
    c.year + "-" + PadTwo(c.month) + "-" + PadTwo(c.day)
  }

  /** The range check of the day-first branch. */
  predicate InRange(c: Captures)
    requires AllDigits(c.year) && AllDigits(c.month) && AllDigits(c.day)
  {
    1 <= DigitsValue(c.day) <= 31 && 1 <= DigitsValue(c.month) <= 12 && DigitsValue(c.year) >= 1900
  }

  /** `parseDate` of the historical import: `None` is its `null`. */
  function ParseDate(raw: Cell): Option<string> {
    if !Truthy(raw) then None
    else match raw
      case Num(n, _) => Some(FormatDate(SerialDate(n)))
      case Text(s) =>
        var t := Trim(s);
        match MatchIso(t)
        case Some(c) => Some(Padded(c))
        case None =>
          match MatchDmy(t)
          case Some(c) => if InRange(c) then Some(Padded(c)) else None
          case None => None
  }

  /** The inline date normalisation of the sales import, which answers today's date
      wherever the historical parser would reject the cell. */
  function NormalizeSalesDate(raw: Cell, today: Date): (r: string)
    requires ValidDate(today)
  {
    var fallback := FormatDate(today);
    if !Truthy(raw) then fallback
    else if raw.Num? then FormatDate(SerialDate(raw.n))
    else if raw.Text? then
      var t := Trim(raw.s);
      match MatchIso(t)
      case Some(c) => Padded(c)
      case None =>
        match MatchDmy(t)
        case Some(c) => if InRange(c) then Padded(c) else fallback
        case None => fallback
    else fallback
  }

  /** The sales import agrees with the historical parser wherever that parser gives a date,
      and uses today's date exactly where it gives none. */
  lemma {:induction false} SalesDateIsParseOrToday(raw: Cell, today: Date)
    requires ValidDate(today)
    ensures ParseDate(raw).Some? ==> NormalizeSalesDate(raw, today) == ParseDate(raw).value
    ensures ParseDate(raw).None? ==> NormalizeSalesDate(raw, today) == FormatDate(today)
  {
  }

  lemma {:induction false} PaddedIsIso(c: Captures)
    requires |c.year| == 4 && AllDigits(c.year)
    requires 1 <= |c.month| <= 2 && AllDigits(c.month) && 1 <= |c.day| <= 2 && AllDigits(c.day)
    ensures IsoShaped(Padded(c))
  {
    var s := Padded(c);
    assert s[..4] == c.year;
    assert s[5..7] == PadTwo(c.month);
    assert s[8..] == PadTwo(c.day);
  }

  /** A date year with four digits formats as a padded ISO text. */
  lemma {:induction false} FormatDateIso(d: Date)
    requires ValidDate(d) && 1000 <= d.year <= 9999
    ensures IsoShaped(FormatDate(d))
  {
    var y := NatToString(d.year);
    NatToStringLength(d.year);
    NatToStringLength(d.month);
    NatToStringLength(d.day);
    PaddedIsIso(Captures(y, NatToString(d.month), NatToString(d.day)));
    assert FormatDate(d) == Padded(Captures(y, NatToString(d.month), NatToString(d.day)));
  }

  /** The ISO branch reads a padded ISO text back unchanged. */
  lemma {:induction false} IsoFixedPoint(s: string)
    requires IsoShaped(s)
    ensures MatchIso(s) == Some(Captures(s[..4], s[5..7], s[8..10]))
    ensures Padded(Captures(s[..4], s[5..7], s[8..10])) == s
  {
    assert s[5..][..2] == s[5..7] && s[5..][2] == '-';
    var rest := s[8..];
    assert rest[..2] == s[8..10];
    var c := Captures(s[..4], s[5..7], s[8..10]);
    assert Padded(c) == s[..4] + "-" + s[5..7] + "-" + s[8..10];
    assert s == s[..4] + "-" + s[5..7] + "-" + s[8..10];
  }

  /** A padded ISO text has nothing for `trim` to remove. */
  lemma {:induction false} IsoTrimmed(s: string)
    requires IsoShaped(s)
    ensures Trim(s) == s
  {
    assert !IsSpace(s[0]) && !IsSpace(s[|s| - 1]);
    assert TrimStart(s) == s;
  }

  /** The parser reads a padded ISO text back unchanged. */
  lemma {:induction false} ParseIsoText(s: string)
    requires IsoShaped(s)
    ensures ParseDate(Text(s)) == Some(s)
  {
    IsoTrimmed(s);
    IsoFixedPoint(s);
  }

  /** What the text branch produces is a padded ISO text. */
  lemma {:induction false} ParsedTextIsIso(t: string)
    ensures MatchIso(t).Some? ==> IsoShaped(Padded(MatchIso(t).value))
    ensures MatchDmy(t).Some? ==> IsoShaped(Padded(MatchDmy(t).value))
  {
    if MatchIso(t).Some? {
      PaddedIsIso(MatchIso(t).value);
    }
    if MatchDmy(t).Some? {
      PaddedIsIso(MatchDmy(t).value);
    }
  }

  /** Every date the parser produces is a fixed point of the parser, provided its year has four digits. */
  lemma {:induction false} ParseDateIdempotent(raw: Cell)
    requires ParseDate(raw).Some?
    requires raw.Num? ==> 1000 <= SerialDate(raw.n).year <= 9999
    ensures IsoShaped(ParseDate(raw).value)
    ensures ParseDate(Text(ParseDate(raw).value)) == ParseDate(raw)
  {
    if raw.Num? {
      FormatDateIso(SerialDate(raw.n));
    } else {
      ParsedTextIsIso(Trim(raw.s));
    }
    ParseIsoText(ParseDate(raw).value);
  }

  /** A `DD/MM/YYYY` (or `DD-MM-YYYY`) text. */
  predicate DayFirstShaped(s: string) {
    |s| == 10 && IsDigit(s[0]) && IsDigit(s[1]) && IsSep(s[2]) && IsDigit(s[3]) && IsDigit(s[4]) && IsSep(s[5])
    && AllDigits(s[6..])
  }

  /** A day-first text goes to the day-first branch with its three fields as captures. */
  lemma {:induction false} DayFirstText(s: string)
    requires DayFirstShaped(s)
    ensures Trim(s) == s && MatchIso(s) == None && MatchDmy(s) == Some(Captures(s[6..], s[3..5], s[..2]))
  {
    assert !IsSpace(s[0]) && !IsSpace(s[|s| - 1]);
    assert TrimStart(s) == s;
    assert s[..4][2] == s[2];
    var t := s[3..];
    assert t[..2] == s[3..5] && t[3..] == s[6..];
  }

  lemma {:induction false} DigitsValueFour(s: string)
    requires |s| == 4 && AllDigits(s)
    ensures DigitsValue(s) == 1000 * DigitValue(s[0]) + 100 * DigitValue(s[1]) + 10 * DigitValue(s[2]) + DigitValue(s[3])
  {
    DigitsValueTwo(s[..2]);
    assert s[..3][..2] == s[..2];
  }

  /** The parser on a day-first text: the padded date when the fields pass the range check, nothing otherwise. */
  lemma {:induction false} ParseDayFirst(s: string)
    requires DayFirstShaped(s)
    ensures var c := Captures(s[6..], s[3..5], s[..2]);
      ParseDate(Text(s)) == if InRange(c) then Some(Padded(c)) else None
  {
    DayFirstText(s);
  }

  /** The day-first branch does not check the length of the month. */
  lemma {:induction false} ThirtyFirstOfFebruary()
    ensures ParseDate(Text("31/02/2024")) == Some("2024-02-31")
  {
    var s := "31/02/2024";
    var c := Captures("2024", "02", "31");
    assert DayFirstShaped(s) && c == Captures(s[6..], s[3..5], s[..2]) by {
      assert s[6..] == "2024" && s[3..5] == "02" && s[..2] == "31";
    }
    assert InRange(c) by {
      DigitsValueTwo("31");
      DigitsValueTwo("02");
      DigitsValueFour("2024");
    }
    assert Padded(c) == "2024-02-31";
    ParseDayFirst(s);
  }

  /** Out-of-range day-first dates are rejected by the historical parser and replaced by today in the sales import. */
  lemma {:induction false} OutOfRangeDate(today: Date)
    requires ValidDate(today)
    ensures ParseDate(Text("32-01-2024")) == None
    ensures NormalizeSalesDate(Text("32-01-2024"), today) == FormatDate(today)
  {
    var s := "32-01-2024";
    var c := Captures("2024", "01", "32");
    assert DayFirstShaped(s) && c == Captures(s[6..], s[3..5], s[..2]) by {
      assert s[6..] == "2024" && s[3..5] == "01" && s[..2] == "32";
    }
    assert !InRange(c) by {
      DigitsValueTwo("32");
    }
    ParseDayFirst(s);
    SalesDateIsParseOrToday(Text(s), today);
  }

  // ------------------------------------------------------------ reading a stored date

  /** `new Date(s)` on a stored date text, as a calendar day: a padded `YYYY-MM-DD` naming a
      real day; every other text is an invalid date (`None`). */
  function ReadIsoDate(s: string): (r: Option<Date>)
    ensures r.Some? ==> ValidDate(r.value) && r.value.year >= 0 && IsoShaped(s)
  {
    if IsoShaped(s) then
      var d := Date(DigitsValue(s[..4]), DigitsValue(s[5..7]), DigitsValue(s[8..]));
      if ValidDate(d) then Some(d) else None
    else None
  }

  /** A day with a four-digit year, written out and read back, is the same day. */
  lemma {:induction false} ReadFormatDate(d: Date)
    requires ValidDate(d) && 1000 <= d.year <= 9999
    ensures ReadIsoDate(FormatDate(d)) == Some(d)
  {
    var s := FormatDate(d);
    FormatDateIso(d);
    var y, m, dd := NatToString(d.year), PadTwo(NatToString(d.month)), PadTwo(NatToString(d.day));
    assert s == y + "-" + m + "-" + dd;
    NatToStringLength(d.year);
    PadTwoValue(d.month);
    PadTwoValue(d.day);
    assert s[..4] == y && s[5..7] == m && s[8..] == dd;
    NatToStringValue(d.year);
  }

  /** The month of a stored date text (`getMonth() + 1`), `None` for an invalid date (`NaN`). */
  function MonthOf(date: string): Option<int> {
    match ReadIsoDate(date)
    case Some(d) => Some(d.month)
    case None => None
  }

  /** `getFullYear()` of a stored date text, `None` for an invalid date. */
  function YearOf(date: string): Option<int> {
    match ReadIsoDate(date)
    case Some(d) => Some(d.year)
    case None => None
  }
}

=== FILE: entities.dfy ===
/**
 The stored tables of the application, as the pages read and write them
 through the persistence layer. Ids are assigned by the server; a missing
 text field is the empty text, and a missing amount is 0, which is how every
 page reads them (`x || ''`, `x || 0`).
 */
module Entities {
  import opened Common

  /** A row of the Sales table. */
  datatype Sale = Sale(
    id: string, batchId: string, barcode: string, description: string, colour: string, size: string,
    price: real, saleDate: string)

  /** A row of the PaymentTracker table. */
  datatype Tracker = Tracker(
    id: string, barcode: string, saleAmount: real, received: real, balance: real, status: string,
    saleDate: string, paymentDate: string)

  /** A row of the GST table. `month` and `year` are `None` where the sale date was not a
      readable date (`NaN`); `srNo` and `status` are only written by the sales import. */
  datatype GstRec = GstRec(
    id: string, srNo: Option<int>, barcode: string, description: string, colour: string, size: string,
    saleAmount: real, margin: real, purchase: real, gst: real, month: Option<int>, year: Option<int>,
    status: string, saleDate: string)

  /** A row of the Invoice table (the client's address and tax fields are left out). */
  datatype Invoice = Invoice(
    id: string, number: string, date: string, fy: string, clientName: string,
    totalQuantity: real, grandTotal: real, words: string, status: string)

  /** A row of the InvoiceItem table. */
  datatype Item = Item(
    id: string, invoiceId: string, rowIndex: nat, barcode: string, description: string, hsn: string,
    quantity: real, unit: string, rate: real, amount: real)

  datatype Store = Store(
    sales: seq<Sale>, trackers: seq<Tracker>, gst: seq<GstRec>, invoices: seq<Invoice>, items: seq<Item>)

  /** GST is 18% of the taxable margin. */
  const GstRate: real := 0.18

  /** The fixed item fields every import writes. */
  const ShoeHsn: string := "640319"
  const PairUnit: string := "Pair"

  /** `` `${description} - ${colour} - ${size}` ``. */
  function ItemDescription(description: string, colour: string, size: string): string {
    description + " - " + colour + " - " + size
  }

  /** An import's error: the spreadsheet row (header is row 1) and the message. */
  datatype RowError = RowError(row: nat, message: string)

  /** The spreadsheet row of the `index`-th data row: the header occupies row 1. */
  function RowNumber(index: nat): nat {
    index + 2
  }

  /** The row numbers of `errors` strictly increase, so no row reports twice. */
  predicate OnePerRow(errors: seq<RowError>) {
    forall i, j :: 0 <= i < j < |errors| ==> errors[i].row < errors[j].row
  }
}

=== FILE: fiscal.dfy ===
/**
 The Indian financial-year label (`getFinancialYear`), copied into the invoice
 form, the sales import and the bulk upload: a year runs from 1 April to
 31 March and is labelled by the last two digits of its two calendar years,
 e.g. "24-25".
 */
module FiscalYear {
  import opened Common
  import opened Dates

  /** `String(y).slice(2)`. */
  function Tail(y: int): string {
    var s := IntToString(y);
    if |s| >= 2 then s[2..] else ""
  }

  /** The calendar year in which the financial year containing `d` starts. */
  function StartYear(d: Date): int {
    if d.month - 1 >= 3 then d.year else d.year - 1
  }

  /** `getFinancialYear`: `getMonth()` is the zero-based month, so index 3 is April. */
  function FinancialYear(d: Date): (r: string)
    ensures r == Tail(StartYear(d)) + "-" + Tail(StartYear(d) + 1)
  {
    var monthIndex := d.month - 1;
    if monthIndex >= 3 then Tail(d.year) + "-" + Tail(d.year + 1)
    else Tail(d.year - 1) + "-" + Tail(d.year)
  }

  /** Calendar reference: the financial year starting in `y` is the window from 1 April `y`
      up to (not including) 1 April `y + 1`. */
  lemma {:induction false} StartYearWindow(d: Date, y: int)
    requires ValidDate(d)
    ensures StartYear(d) == y <==> !Before(d, Date(y, 4, 1)) && Before(d, Date(y + 1, 4, 1))
  {
  }

  /** A day from 1 April `y` up to (not including) 1 April `y + 1` is labelled by `y` and `y + 1`. */
  lemma {:induction false} WindowLabel(d: Date, y: int)
    requires ValidDate(d)
    requires !Before(d, Date(y, 4, 1)) && Before(d, Date(y + 1, 4, 1))
    ensures FinancialYear(d) == Tail(y) + "-" + Tail(y + 1)
  {
    StartYearWindow(d, y);
  }

  /** Two days of the same April-to-March window carry the same label. */
  lemma {:induction false} SameWindowSameLabel(a: Date, b: Date, y: int)
    requires ValidDate(a) && ValidDate(b)
    requires !Before(a, Date(y, 4, 1)) && Before(a, Date(y + 1, 4, 1))
    requires !Before(b, Date(y, 4, 1)) && Before(b, Date(y + 1, 4, 1))
    ensures FinancialYear(a) == FinancialYear(b)
  {
    StartYearWindow(a, y);
    StartYearWindow(b, y);
  }

  /** The last two digits of a four-digit year. */
  lemma {:induction false} TailOfFourDigits(y: int)
    requires 1000 <= y <= 9999
    ensures |Tail(y)| == 2 && AllDigits(Tail(y))
    ensures DigitValue(Tail(y)[0]) == (y / 10) % 10 && DigitValue(Tail(y)[1]) == y % 10
  {
    var s := NatToString(y);
    assert s == NatToString(y / 10) + [DigitChar(y % 10)];
    assert NatToString(y / 10) == NatToString(y / 100) + [DigitChar((y / 10) % 10)];
    assert NatToString(y / 100) == NatToString(y / 1000) + [DigitChar((y / 100) % 10)];
    assert NatToString(y / 1000) == [DigitChar(y / 1000)];
  }

  /** The two-digit tail of a four-digit year reads back as the year modulo 100. */
  lemma {:induction false} TailValue(y: int)
    requires 1000 <= y <= 9999
    ensures |Tail(y)| == 2 && AllDigits(Tail(y)) && DigitsValue(Tail(y)) == y % 100
  {
    TailOfFourDigits(y);
    DigitsValueTwo(Tail(y));
    LastTwoDigits(y);
  }

  /** The tens and units digits of `y` make up `y % 100`. */
  lemma {:induction false} LastTwoDigits(y: int)
    requires y >= 0
    ensures 10 * ((y / 10) % 10) + y % 10 == y % 100
  {
    var q := y / 10;
    assert y == 10 * q + y % 10;
    assert q == 10 * (q / 10) + q % 10;
    ModOfSplit(y, q / 10, 10 * (q % 10) + y % 10);
  }

  lemma {:induction false} ModOfSplit(y: int, p: int, k: int)
    requires y == 100 * p + k && 0 <= k < 100
    ensures y % 100 == k
  {
  }

  /** For four-digit years the label is `YY-YY` with the two halves consecutive modulo 100. */
  lemma {:induction false} LabelHalvesConsecutive(d: Date)
    requires 1000 <= StartYear(d) && StartYear(d) + 1 <= 9999
    ensures var r := FinancialYear(d);
      |r| == 5 && r[2] == '-' && AllDigits(r[..2]) && AllDigits(r[3..])
      && DigitsValue(r[3..]) == (DigitsValue(r[..2]) + 1) % 100
  {
    var y := StartYear(d);
    var a, b := Tail(y), Tail(y + 1);
    TailValue(y);
    TailValue(y + 1);
    var r := FinancialYear(d);
    assert r[..2] == a && r[3..] == b;
    ConsecutiveMod(y);
  }

  lemma {:induction false} ConsecutiveMod(y: int)
    ensures (y + 1) % 100 == (y % 100 + 1) % 100
  {
    var q := y / 100;
    assert y == 100 * q + y % 100;
    assert y + 1 == 100 * q + (y % 100 + 1);
  }

  /** The April boundary: 31 March 2024 belongs to 23-24, 1 April 2024 to 24-25. */
  lemma {:induction false} AprilBoundary()
    ensures FinancialYear(Date(2024, 3, 31)) == "23-24"
    ensures FinancialYear(Date(2024, 4, 1)) == "24-25"
  {
    TailExample(2023, "23");
    TailExample(2024, "24");
    TailExample(2025, "25");
  }

  lemma {:induction false} TailExample(y: int, t: string)
    requires 1000 <= y <= 9999 && |t| == 2
    requires t[0] == DigitChar((y / 10) % 10) && t[1] == DigitChar(y % 10)
    ensures Tail(y) == t
  {
    TailOfFourDigits(y);
    var u := Tail(y);
    assert DigitValue(u[0]) == DigitValue(t[0]) && DigitValue(u[1]) == DigitValue(t[1]);
  }

  /** `getFinancialYear(dateStr)` on a stored date text. An invalid date makes every
      `getMonth`/`getFullYear` `NaN`, whose text `"NaN"` sliced from index 2 is `"N"`. */
  function FinancialYearOf(s: string): (r: string)
    ensures ReadIsoDate(s).None? ==> r == "N-N"
    ensures ReadIsoDate(s).Some? ==> r == FinancialYear(ReadIsoDate(s).value)
  {
    match ReadIsoDate(s)
    case Some(d) => FinancialYear(d)
    case None => "NaN"[2..] + "-" + "NaN"[2..]
  }

  /** Every text that is not a real padded date gets one and the same label, so all such
      invoices share a numbering sequence. */
  lemma {:induction false} InvalidDatesShareLabel(a: string, b: string)
    requires ReadIsoDate(a).None? && ReadIsoDate(b).None?
    ensures FinancialYearOf(a) == FinancialYearOf(b) == "N-N"
  {
  }

  /** Written out and read back, a day keeps its financial year. */
  lemma {:induction false} FinancialYearOfFormat(d: Date)
    requires ValidDate(d) && 1000 <= d.year <= 9999
    ensures FinancialYearOf(FormatDate(d)) == FinancialYear(d)
  {
    ReadFormatDate(d);
  }
}

=== FILE: grouping.dfy ===
/**
 Grouping a list by a key, the way every page of the application does it:
 `acc[k] ||= []; acc[k].push(x)` over the list, then reading the groups back
 in insertion order. `GroupBy` is that fold; `FirstKeys`/`Members` give an
 independent description of its result, and `GroupByIsPartition` connects the
 two.
 */
module Grouping {
  import opened Common

  datatype Group<K, T> = Group(key: K, items: seq<T>)

  /** One step of the fold: push `x` onto the group keyed `k`, opening it if new. */
  function AddTo<K(==), T>(gs: seq<Group<K, T>>, k: K, x: T): seq<Group<K, T>>
  {
    if |gs| == 0 then [Group(k, [x])]
    else if gs[0].key == k then [Group(k, gs[0].items + [x])] + gs[1..]
    else [gs[0]] + AddTo(gs[1..], k, x)
  }

  /** `xs.reduce((acc, x) => { (acc[key(x)] ||= []).push(x); return acc }, {})`. */
  function GroupBy<K(==), T>(xs: seq<T>, key: T -> K): seq<Group<K, T>>
  {
    if |xs| == 0 then []
    else AddTo(GroupBy(xs[..|xs| - 1], key), key(xs[|xs| - 1]), xs[|xs| - 1])
  }

  function KeysOf<K, T>(gs: seq<Group<K, T>>): (ks: seq<K>)
    ensures |ks| == |gs| && forall i :: 0 <= i < |gs| ==> ks[i] == gs[i].key
  {
    if |gs| == 0 then [] else [gs[0].key] + KeysOf(gs[1..])
  }

  // ------------------------------------------------------------ reference

  /** The distinct keys of `xs`, in the order of their first occurrence. */
  function FirstKeys<K(==), T>(xs: seq<T>, key: T -> K): seq<K>
  {
    if |xs| == 0 then []
    else
      var ks := FirstKeys(xs[..|xs| - 1], key);
      if key(xs[|xs| - 1]) in ks then ks else ks + [key(xs[|xs| - 1])]
  }

  /** The elements of `xs` with key `k`, in list order. */
  function Members<K(==), T>(xs: seq<T>, key: T -> K, k: K): seq<T>
  {
    Filter(xs, x => key(x) == k)
  }

  predicate Distinct<K(==)>(ks: seq<K>) {
    forall i, j :: 0 <= i < j < |ks| ==> ks[i] != ks[j]
  }

  /** The groups are the distinct keys in first-occurrence order, each holding exactly its members in list order. */
  ghost predicate IsGrouping<K, T>(gs: seq<Group<K, T>>, xs: seq<T>, key: T -> K) {
    && KeysOf(gs) == FirstKeys(xs, key)
    && forall i :: 0 <= i < |gs| ==> gs[i].items == Members(xs, key, gs[i].key)
  }

  lemma {:induction false} MembersSnoc<K, T>(xs: seq<T>, x: T, key: T -> K, k: K)
    ensures Members(xs + [x], key, k) == Members(xs, key, k) + (if key(x) == k then [x] else [])
  {
    FilterAppend(xs, [x], y => key(y) == k);
  }

  lemma {:induction false} AddToExisting<K, T>(gs: seq<Group<K, T>>, k: K, x: T, i: nat)
    requires i < |gs| && gs[i].key == k && forall j :: 0 <= j < i ==> gs[j].key != k
    ensures var r := AddTo(gs, k, x);
      |r| == |gs| && KeysOf(r) == KeysOf(gs)
      && r[i].items == gs[i].items + [x]
      && forall j :: 0 <= j < |gs| && j != i ==> r[j] == gs[j]
  {
    if i > 0 {
      AddToExisting(gs[1..], k, x, i - 1);
    }
  }

  lemma {:induction false} AddToFresh<K, T>(gs: seq<Group<K, T>>, k: K, x: T)
    requires k !in KeysOf(gs)
    ensures AddTo(gs, k, x) == gs + [Group(k, [x])]
  {
    if |gs| > 0 {
      assert KeysOf(gs) == [gs[0].key] + KeysOf(gs[1..]);
      AddToFresh(gs[1..], k, x);
    }
  }

  lemma {:induction false} FirstKeysDistinct<K, T>(xs: seq<T>, key: T -> K)
    ensures Distinct(FirstKeys(xs, key))
    ensures forall i :: 0 <= i < |xs| ==> key(xs[i]) in FirstKeys(xs, key)
    ensures forall k :: k in FirstKeys(xs, key) ==> exists i :: 0 <= i < |xs| && key(xs[i]) == k
  {
    if |xs| > 0 {
      var init := xs[..|xs| - 1];
      FirstKeysDistinct(init, key);
      forall k | k in FirstKeys(xs, key)
        ensures exists i :: 0 <= i < |xs| && key(xs[i]) == k
      {
        if k in FirstKeys(init, key) {
          var i :| 0 <= i < |init| && key(init[i]) == k;
          assert key(xs[i]) == k;
        } else {
          assert key(xs[|xs| - 1]) == k;
        }
      }
      forall i | 0 <= i < |xs|
        ensures key(xs[i]) in FirstKeys(xs, key)
      {
        if i < |xs| - 1 {
          assert xs[i] == init[i];
        }
      }
    }
  }

  /** One fold step keeps the grouping in step with the reference. */
  lemma {:induction false} GroupingStep<K, T>(gs: seq<Group<K, T>>, init: seq<T>, x: T, key: T -> K)
    requires IsGrouping(gs, init, key)
    ensures IsGrouping(AddTo(gs, key(x), x), init + [x], key)
  {
    FirstKeysDistinct(init, key);
    var xs := init + [x];
    assert xs[..|xs| - 1] == init;
    if key(x) in KeysOf(gs) {
      var i :| 0 <= i < |gs| && gs[i].key == key(x);
      GroupingStepExisting(gs, init, x, key, i);
    } else {
      GroupingStepFresh(gs, init, x, key);
    }
  }

  lemma {:induction false} GroupingStepExisting<K, T>(gs: seq<Group<K, T>>, init: seq<T>, x: T, key: T -> K, i: nat)
    requires IsGrouping(gs, init, key) && Distinct(KeysOf(gs))
    requires i < |gs| && gs[i].key == key(x)
    ensures IsGrouping(AddTo(gs, key(x), x), init + [x], key)
  {
    var xs := init + [x];
    assert xs[..|xs| - 1] == init;
    var k := key(x);
    OnlyGroupWithKey(gs, i);
    AddToExisting(gs, k, x, i);
    var r := AddTo(gs, k, x);
    assert KeysOf(r) == FirstKeys(xs, key);
    forall j | 0 <= j < |r| ensures r[j].items == Members(xs, key, r[j].key) {
      MembersSnoc(init, x, key, r[j].key);
    }
  }

  /** With distinct keys, group `i` is the only one carrying its key. */
  lemma {:induction false} OnlyGroupWithKey<K, T>(gs: seq<Group<K, T>>, i: nat)
    requires Distinct(KeysOf(gs)) && i < |gs|
    ensures forall j :: 0 <= j < |gs| && j != i ==> gs[j].key != gs[i].key
  {
    forall j | 0 <= j < |gs| && j != i ensures gs[j].key != gs[i].key {
      assert KeysOf(gs)[j] != KeysOf(gs)[i];
    }
  }

  lemma {:induction false} GroupingStepFresh<K, T>(gs: seq<Group<K, T>>, init: seq<T>, x: T, key: T -> K)
    requires IsGrouping(gs, init, key)
    requires key(x) !in KeysOf(gs)
    ensures IsGrouping(AddTo(gs, key(x), x), init + [x], key)
  {
    var xs := init + [x];
    assert xs[..|xs| - 1] == init;
    var k := key(x);
    FirstKeysDistinct(init, key);
    AddToFresh(gs, k, x);
    KeysOfSnoc(gs, Group(k, [x]));
    var r := AddTo(gs, k, x);
    MembersOfAbsentKey(init, key, k);
    forall j | 0 <= j < |r| ensures r[j].items == Members(xs, key, r[j].key) {
      MembersSnoc(init, x, key, r[j].key);
    }
  }

  lemma {:induction false} MembersOfAbsentKey<K, T>(xs: seq<T>, key: T -> K, k: K)
    requires forall i :: 0 <= i < |xs| ==> key(xs[i]) != k
    ensures Members(xs, key, k) == []
  {
    if |xs| > 0 {
      MembersOfAbsentKey(xs[1..], key, k);
    }
  }

  lemma {:induction false} KeysOfSnoc<K, T>(gs: seq<Group<K, T>>, g: Group<K, T>)
    ensures KeysOf(gs + [g]) == KeysOf(gs) + [g.key]
  {
  }

  /** The fold computes the reference grouping: it is a partition of `xs` by key, stable within each group. */
  lemma {:induction false} GroupByIsPartition<K, T>(xs: seq<T>, key: T -> K)
    ensures IsGrouping(GroupBy(xs, key), xs, key)
  {
    if |xs| > 0 {
      var init, x := xs[..|xs| - 1], xs[|xs| - 1];
      assert xs == init + [x];
      GroupByIsPartition(init, key);
      GroupingStep(GroupBy(init, key), init, x, key);
    }
  }

  /** Total number of items over all groups. */
  function ItemCount<K, T>(gs: seq<Group<K, T>>): nat {
    if |gs| == 0 then 0 else |gs[0].items| + ItemCount(gs[1..])
  }

  /** Sum of `f` over the items of all groups. */
  function SumItems<K, T>(gs: seq<Group<K, T>>, f: T -> real): real {
    if |gs| == 0 then 0.0 else Sum(gs[0].items, f) + SumItems(gs[1..], f)
  }

  lemma {:induction false} AddToTotals<K, T>(gs: seq<Group<K, T>>, k: K, x: T, f: T -> real)
    ensures ItemCount(AddTo(gs, k, x)) == ItemCount(gs) + 1
    ensures SumItems(AddTo(gs, k, x), f) == SumItems(gs, f) + f(x)
  {
    if |gs| > 0 && gs[0].key != k {
      AddToTotals(gs[1..], k, x, f);
    } else if |gs| > 0 {
      var r := AddTo(gs, k, x);
      assert (gs[0].items + [x])[..|gs[0].items|] == gs[0].items;
      assert r[0].items == gs[0].items + [x] && r[1..] == gs[1..];
      assert Sum(gs[0].items + [x], f) == Sum(gs[0].items, f) + f(x);
      assert SumItems(r, f) == Sum(r[0].items, f) + SumItems(r[1..], f);
      assert SumItems(gs, f) == Sum(gs[0].items, f) + SumItems(gs[1..], f);
    } else {
      assert Sum([x], f) == Sum([x][..0], f) + f(x);
    }
  }

  /** Every element lands in exactly one group: the group sizes add up to the list length and group sums to the list sum. */
  lemma {:induction false} GroupByTotals<K, T>(xs: seq<T>, key: T -> K, f: T -> real)
    ensures ItemCount(GroupBy(xs, key)) == |xs|
    ensures SumItems(GroupBy(xs, key), f) == Sum(xs, f)
  {
    if |xs| > 0 {
      GroupByTotals(xs[..|xs| - 1], key, f);
      AddToTotals(GroupBy(xs[..|xs| - 1], key), key(xs[|xs| - 1]), xs[|xs| - 1], f);
    }
  }

  lemma {:induction false} AddToNonEmpty<K, T>(gs: seq<Group<K, T>>, k: K, x: T)
    requires forall i :: 0 <= i < |gs| ==> |gs[i].items| > 0
    ensures forall i :: 0 <= i < |AddTo(gs, k, x)| ==> |AddTo(gs, k, x)[i].items| > 0
  {
    if |gs| > 0 && gs[0].key != k {
      AddToNonEmpty(gs[1..], k, x);
    }
  }

  /** No group is empty: a group is opened only to receive an element. */
  lemma {:induction false} GroupByNonEmpty<K, T>(xs: seq<T>, key: T -> K)
    ensures forall i :: 0 <= i < |GroupBy(xs, key)| ==> |GroupBy(xs, key)[i].items| > 0
  {
    if |xs| > 0 {
      GroupByNonEmpty(xs[..|xs| - 1], key);
      AddToNonEmpty(GroupBy(xs[..|xs| - 1], key), key(xs[|xs| - 1]), xs[|xs| - 1]);
    }
  }

  /** A group keeps the order of the list: a measure increasing along the list increases
      along every group's members. */
  lemma {:induction false} MembersIncreasing<K, T>(xs: seq<T>, key: T -> K, k: K, f: T -> int)
    requires Increasing(xs, f)
    ensures Increasing(Members(xs, key, k), f)
  {
    if |xs| > 0 {
      var init, x := xs[..|xs| - 1], xs[|xs| - 1];
      assert xs == init + [x];
      MembersIncreasing(init, key, k, f);
      MembersSnoc(init, x, key, k);
      var ms := Members(init, key, k);
      forall i | 0 <= i < |ms| ensures f(ms[i]) < f(x) {
        var j :| 0 <= j < |init| && init[j] == ms[i];
        assert xs[j] == ms[i];
      }
    }
  }
}

=== FILE: gstpage.dfy ===
/**
 The GST register page: the years offered for selection, the month-by-month
 summary of a year, the filtered and sorted list of records, the column-sort
 toggle, the margin correction of one record, and the delete that takes the
 record's sale and payment entries with it.
 */
module GstPage {
  import opened Common
  import opened Entities
  import opened Sorting

  // ------------------------------------------------------------ years

  predicate Decreasing(ys: seq<int>) {
    forall i, j :: 0 <= i < j < |ys| ==> ys[i] > ys[j]
  }

  lemma {:induction false} DecreasingTail(ys: seq<int>)
    requires Decreasing(ys) && |ys| > 0
    ensures Decreasing(ys[1..]) && forall z :: z in ys[1..] ==> z < ys[0]
  {
    forall z | z in ys[1..] ensures z < ys[0] {
      var k :| 0 <= k < |ys[1..]| && ys[1..][k] == z;
      assert ys[k + 1] == z;
    }
  }

  lemma {:induction false} ConsDecreasing(h: int, t: seq<int>)
    requires Decreasing(t) && forall z :: z in t ==> z < h
    ensures Decreasing([h] + t)
  {
    forall i, j | 0 <= i < j < |[h] + t| ensures ([h] + t)[i] > ([h] + t)[j] {
      assert ([h] + t)[j] == t[j - 1];
      if i > 0 {
        assert ([h] + t)[i] == t[i - 1];
      } else {
        assert t[j - 1] in t;
      }
    }
  }

  /** Adding one year to a strictly decreasing list of distinct years. */
  function InsertYear(ys: seq<int>, y: int): (r: seq<int>)
    requires Decreasing(ys)
    ensures Decreasing(r)
    ensures forall z :: z in r <==> z in ys || z == y
  {
    if |ys| == 0 then [y]
    else if y == ys[0] then ys
    else if y > ys[0] then
      DecreasingTail(ys);
      assert ys == [ys[0]] + ys[1..];
      ConsDecreasing(y, ys);
      [y] + ys
    else
      DecreasingTail(ys);
      var t := InsertYear(ys[1..], y);
      assert ys == [ys[0]] + ys[1..];
      ConsDecreasing(ys[0], t);
      [ys[0]] + t
  }

  /** `[...new Set(records.map(r => r.year))].sort((a, b) => b - a)`: every year that some
      record carries, once each, newest first. */
  function AvailableYears(rs: seq<GstRec>): (r: seq<int>)
    ensures Decreasing(r)
    ensures forall y :: y in r <==> exists i :: 0 <= i < |rs| && rs[i].year == Some(y)
  {
    if |rs| == 0 then []
    else
      var ys := AvailableYears(rs[..|rs| - 1]);
      assert forall i :: 0 <= i < |rs| - 1 ==> rs[..|rs| - 1][i] == rs[i];
      match rs[|rs| - 1].year
      case None => ys
      case Some(y) => InsertYear(ys, y)
  }

  // ------------------------------------------------------------ monthly summary

  const MonthNames: seq<string> := [
    "January", "February", "March", "April", "May", "June",
    "July", "August", "September", "October", "November", "December"]

  function InYear(year: int): GstRec -> bool {
    (r: GstRec) => r.year == Some(year)
  }

  function SaleAmount(r: GstRec): real {
    r.saleAmount
  }

  function PurchaseAmount(r: GstRec): real {
    r.purchase
  }

  function GstAmount(r: GstRec): real {
    r.gst
  }

  /** A line of `monthlySummary`; its `monthName` is the name of its month. */
  datatype MonthSummary = MonthSummary(
    month: int, count: nat, totalSale: real, totalPurchase: real, totalGst: real)
  {
    function MonthName(): string
      requires 1 <= month <= 12
    {
      MonthNames[month - 1]
    }
  }

  /** `monthlyData.filter(r => r.month === m)`. */
  function MonthRecords(data: seq<GstRec>, m: int): seq<GstRec> {
    if |data| == 0 then [] else (if data[0].month == Some(m) then [data[0]] else []) + MonthRecords(data[1..], m)
  }

  /** Month `m` has at least one record. */
  predicate HasRecords(data: seq<GstRec>, m: int) {
    |MonthRecords(data, m)| > 0
  }

  /** The line of month `m`: its number of records and their three sums. */
  function SummaryOf(data: seq<GstRec>, m: int): (e: MonthSummary)
    ensures e.month == m && e.count == |MonthRecords(data, m)|
  {
    var rs := MonthRecords(data, m);
    MonthSummary(m, |rs|, Sum(rs, SaleAmount), Sum(rs, PurchaseAmount), Sum(rs, GstAmount))
  }

  /** The months among 1 to `m` that have a record, in order: the months for which the loop
      `for (let m = 1; m <= 12; m++)` pushes a line. */
  function ActiveMonths(data: seq<GstRec>, m: nat): (ms: seq<int>)
    requires m <= 12
    ensures forall i :: 0 <= i < |ms| ==> 1 <= ms[i] <= m && HasRecords(data, ms[i])
    ensures forall i, j :: 0 <= i < j < |ms| ==> ms[i] < ms[j]
  {
    if m == 0 then []
    else
      var ms := ActiveMonths(data, m - 1);
      if HasRecords(data, m) then ms + [m] else ms
  }

  /** No month with a record is skipped. */
  lemma {:induction false} ActiveMonthsComplete(data: seq<GstRec>, m: nat, k: int)
    requires m <= 12 && 1 <= k <= m && HasRecords(data, k)
    ensures k in ActiveMonths(data, m)
  {
    if k < m {
      ActiveMonthsComplete(data, m - 1, k);
    }
  }

  function YearData(rs: seq<GstRec>, year: int): seq<GstRec> {
    Filter(rs, InYear(year))
  }

  /** `monthlySummary` for the selected year: lines in month order, each the count and sums
      of its month, and only for months that have a record. */
  function MonthlySummary(rs: seq<GstRec>, year: int): (r: seq<MonthSummary>)
    ensures forall i :: 0 <= i < |r| ==>
      1 <= r[i].month <= 12 && r[i].count > 0 && r[i] == SummaryOf(YearData(rs, year), r[i].month)
    ensures forall i, j :: 0 <= i < j < |r| ==> r[i].month < r[j].month
    ensures MonthsOf(r) == ActiveMonths(YearData(rs, year), 12)
  {
    var data := YearData(rs, year);
    var ms := ActiveMonths(data, 12);
    var r := Map(ms, k => SummaryOf(data, k));
    assert forall i :: 0 <= i < |r| ==> r[i].month == ms[i];
    assert MonthsOf(r) == ms;
    r
  }

  /** Every month of the year that has a record gets a line. */
  lemma {:induction false} MonthlySummaryComplete(rs: seq<GstRec>, year: int, k: int)
    requires 1 <= k <= 12 && HasRecords(YearData(rs, year), k)
    ensures exists i :: 0 <= i < |MonthlySummary(rs, year)| && MonthlySummary(rs, year)[i].month == k
  {
    var r := MonthlySummary(rs, year);
    ActiveMonthsComplete(YearData(rs, year), 12, k);
    var i :| 0 <= i < |MonthsOf(r)| && MonthsOf(r)[i] == k;
    assert r[i].month == k;
  }

  function MonthsOf(r: seq<MonthSummary>): (ms: seq<int>)
    ensures |ms| == |r| && forall i :: 0 <= i < |r| ==> ms[i] == r[i].month
  {
    if |r| == 0 then [] else MonthsOf(r[..|r| - 1]) + [r[|r| - 1].month]
  }

  function Counts(s: seq<MonthSummary>): nat {
    if |s| == 0 then 0 else Counts(s[..|s| - 1]) + s[|s| - 1].count
  }

  /** The number of records in the months `ms`. */
  function MonthsCount(data: seq<GstRec>, ms: seq<int>): nat {
    if |ms| == 0 then 0 else MonthsCount(data, ms[..|ms| - 1]) + |MonthRecords(data, ms[|ms| - 1])|
  }

  lemma {:induction false} LineCounts(r: seq<MonthSummary>, data: seq<GstRec>)
    requires forall i :: 0 <= i < |r| ==> r[i].count == |MonthRecords(data, r[i].month)|
    ensures Counts(r) == MonthsCount(data, MonthsOf(r))
  {
    if |r| > 0 {
      var init := r[..|r| - 1];
      assert forall i :: 0 <= i < |init| ==> init[i] == r[i];
      LineCounts(init, data);
      assert MonthsOf(r)[..|r| - 1] == MonthsOf(init);
    }
  }

  /** The number of records whose month is one of 1 to `m`. */
  function UpToCount(data: seq<GstRec>, m: int): nat {
    if |data| == 0 then 0
    else (if data[0].month.Some? && 1 <= data[0].month.value <= m then 1 else 0) + UpToCount(data[1..], m)
  }

  lemma {:induction false} UpToCountSplit(data: seq<GstRec>, m: int)
    requires m >= 1
    ensures UpToCount(data, m) == UpToCount(data, m - 1) + |MonthRecords(data, m)|
  {
    if |data| > 0 {
      UpToCountSplit(data[1..], m);
    }
  }

  lemma {:induction false} UpToCountZero(data: seq<GstRec>)
    ensures UpToCount(data, 0) == 0
  {
    if |data| > 0 {
      UpToCountZero(data[1..]);
    }
  }

  lemma {:induction false} ActiveCount(data: seq<GstRec>, m: nat)
    requires m <= 12
    ensures MonthsCount(data, ActiveMonths(data, m)) == UpToCount(data, m)
  {
    if m == 0 {
      UpToCountZero(data);
    } else {
      ActiveCount(data, m - 1);
      UpToCountSplit(data, m);
      ActiveStep(data, m);
    }
  }

  /** Month `m` adds its own records to the count of the active months before it. */
  lemma {:induction false} ActiveStep(data: seq<GstRec>, m: nat)
    requires 1 <= m <= 12
    ensures MonthsCount(data, ActiveMonths(data, m)) == MonthsCount(data, ActiveMonths(data, m - 1)) + |MonthRecords(data, m)|
  {
    var ms := ActiveMonths(data, m - 1);
    if HasRecords(data, m) {
      var ms' := ms + [m];
      assert ActiveMonths(data, m) == ms';
      assert ms'[..|ms'| - 1] == ms;
    } else {
      assert ActiveMonths(data, m) == ms;
    }
  }

  /** The number of records whose month is not one of 1 to 12. */
  function NoMonthCount(data: seq<GstRec>): nat {
    if |data| == 0 then 0
    else (if data[0].month.Some? && 1 <= data[0].month.value <= 12 then 0 else 1) + NoMonthCount(data[1..])
  }

  lemma {:induction false} MonthOrNot(data: seq<GstRec>)
    ensures UpToCount(data, 12) + NoMonthCount(data) == |data|
  {
    if |data| > 0 {
      MonthOrNot(data[1..]);
    }
  }

  /** The month counts add up to the year's records, less those whose month is not 1 to 12
      (which no month line shows). */
  lemma {:induction false} SummaryCountsAddUp(rs: seq<GstRec>, year: int)
    ensures Counts(MonthlySummary(rs, year)) + NoMonthCount(YearData(rs, year)) == |YearData(rs, year)|
  {
    var data := YearData(rs, year);
    var r := MonthlySummary(rs, year);
    LineCounts(r, data);
    ActiveCount(data, 12);
    MonthOrNot(data);
  }

  // ------------------------------------------------------------ filtering

  datatype TextColumn = BarcodeColumn | DescriptionColumn | ColourColumn | SizeColumn

  function TextOf(r: GstRec, c: TextColumn): string {
    match c
    case BarcodeColumn => r.barcode
    case DescriptionColumn => r.description
    case ColourColumn => r.colour
    case SizeColumn => r.size
  }

  /** The search box: the lower-cased term occurs in the lower-cased barcode, description,
      colour or size. */
  predicate Matches(r: GstRec, search: string) {
    var s := ToLower(search);
    Contains(ToLower(r.barcode), s) || Contains(ToLower(r.description), s)
    || Contains(ToLower(r.colour), s) || Contains(ToLower(r.size), s)
  }

  /** The three tests of `filteredRecords`. `month` is the selected month of the monthly
      view, `None` on the dashboard. */
  predicate Keep(r: GstRec, year: int, month: Option<int>, search: string, filters: seq<(TextColumn, string)>) {
    && (month.Some? && month.value != 0 ==> r.year == Some(year) && r.month == month)
    && (search != "" ==> Matches(r, search))
    && (forall k :: 0 <= k < |filters| ==> filters[k].1 == "" || ToLower(TextOf(r, filters[k].0)) == ToLower(filters[k].1))
  }

  /** `filteredRecords`: the records passing the tests, in their order. */
  function FilteredRecords(rs: seq<GstRec>, year: int, month: Option<int>, search: string, filters: seq<(TextColumn, string)>): (r: seq<GstRec>)
    ensures SubsequenceOf(r, rs)
    ensures forall x :: x in r <==> x in rs && Keep(x, year, month, search, filters)
  {
    FilterIsSubsequence(rs, x => Keep(x, year, month, search, filters));
    Filter(rs, x => Keep(x, year, month, search, filters))
  }

  /** With no month, no search and no filter every record is listed. */
  lemma {:induction false} NoCriteriaListsAll(rs: seq<GstRec>, year: int)
    ensures FilteredRecords(rs, year, None, "", []) == rs
  {
    FilterKeepsAll(rs, x => Keep(x, year, None, "", []));
  }

  lemma {:induction false} LowerTwice(s: string)
    ensures ToLower(ToLower(s)) == ToLower(s)
  {
    forall i | 0 <= i < |s| ensures LowerChar(LowerChar(s[i])) == LowerChar(s[i]) {
      LowerCharTwice(s[i]);
    }
  }

  /** The search is case-insensitive: a term and its lower-case form select the same records. */
  lemma {:induction false} SearchIgnoresCase(r: GstRec, year: int, month: Option<int>, search: string, filters: seq<(TextColumn, string)>)
    ensures Keep(r, year, month, search, filters) == Keep(r, year, month, ToLower(search), filters)
  {
    LowerTwice(search);
  }

  /** The monthly view of month `m` lists exactly as many records as its summary line counts. */
  lemma {:induction false} MonthViewMatchesSummary(rs: seq<GstRec>, year: int, m: int)
    requires 1 <= m <= 12
    ensures |FilteredRecords(rs, year, Some(m), "", [])| == |MonthRecords(YearData(rs, year), m)|
  {
    if |rs| > 0 {
      MonthViewMatchesSummary(rs[1..], year, m);
      var x := rs[0];
      var tail := YearData(rs[1..], year);
      if x.year == Some(year) {
        assert YearData(rs, year) == [x] + tail;
        assert ([x] + tail)[1..] == tail;
      } else {
        assert YearData(rs, year) == tail;
      }
    }
  }

  // ------------------------------------------------------------ sorting

  datatype Column = SrNo | Description | Colour | Size | Sale | Margin | Purchase | Gst

  /** The value `record[field]` the comparator reads. */
  function ValueOf(r: GstRec, c: Column): Value {
    match c
    case SrNo => if r.srNo.Some? then Number(r.srNo.value as real) else Missing
    case Description => Str(r.description)
    case Colour => Str(r.colour)
    case Size => Str(r.size)
    case Sale => Number(r.saleAmount)
    case Margin => Number(r.margin)
    case Purchase => Number(r.purchase)
    case Gst => Number(r.gst)
  }

  /** The comparator's view of a record; with no sort field every pair compares equal. */
  function KeyOf(field: Option<Column>): GstRec -> Value {
    (r: GstRec) => if field.Some? then ValueOf(r, field.value) else Missing
  }

  datatype SortConfig = SortConfig(field: Option<Column>, direction: string)

  /** `sortedRecords`: a stable sort by the chosen column, ascending when the direction is
      "asc" and descending otherwise; with no field the list keeps its order. */
  function SortedRecords(rs: seq<GstRec>, cfg: SortConfig): (r: seq<GstRec>)
    ensures multiset(r) == multiset(rs)
    ensures Ordered(r, KeyOf(cfg.field), cfg.direction != "asc")
    ensures cfg.field.None? ==> r == rs
  {
    SortPermutes(rs, KeyOf(cfg.field), cfg.direction != "asc");
    SortOrdered(rs, KeyOf(cfg.field), cfg.direction != "asc");
    if cfg.field.None? then
      SortOfEqualValues(rs, KeyOf(cfg.field), cfg.direction != "asc", Missing);
      Sort(rs, KeyOf(cfg.field), cfg.direction != "asc")
    else Sort(rs, KeyOf(cfg.field), cfg.direction != "asc")
  }

  /** Records with equal values in the sort column keep the order they had. */
  lemma {:induction false} SortedRecordsStable(rs: seq<GstRec>, cfg: SortConfig, v: Value)
    ensures Filter(SortedRecords(rs, cfg), WithValue(KeyOf(cfg.field), v)) == Filter(rs, WithValue(KeyOf(cfg.field), v))
  {
    SortStable(rs, KeyOf(cfg.field), cfg.direction != "asc", v);
  }

  /** `handleSort`: choosing the column that is sorted ascending turns it descending; any other
      choice sorts ascending by the chosen column. */
  function HandleSort(prev: SortConfig, field: Column): (r: SortConfig)
    ensures r.field == Some(field)
    ensures r.direction == "desc" <==> prev.field == Some(field) && prev.direction == "asc"
    ensures r.direction == "asc" || r.direction == "desc"
  {
    SortConfig(Some(field), if prev.field == Some(field) && prev.direction == "asc" then "desc" else "asc")
  }

  /** Clicking the same column twice always reverses the direction of the first click. */
  lemma {:induction false} SecondClickFlips(prev: SortConfig, field: Column)
    ensures HandleSort(HandleSort(prev, field), field).direction != HandleSort(prev, field).direction
  {
  }

  // ------------------------------------------------------------ margin correction

  /** A record with a new taxable margin: the purchase amount is re-derived from the sale
      amount and the GST is 18% of the margin; nothing else changes. */
  function Remargin(r: GstRec, margin: real): (u: GstRec)
    ensures u.margin == margin && u.purchase + u.margin == u.saleAmount && u.gst == u.margin * GstRate
    ensures u.(margin := r.margin, purchase := r.purchase, gst := r.gst) == r
  {
    r.(margin := margin, purchase := r.saleAmount - margin, gst := margin * GstRate)
  }

  predicate HasId(rs: seq<GstRec>, id: string) {
    exists i :: 0 <= i < |rs| && rs[i].id == id
  }

  function RemarginRow(id: string, margin: real): GstRec -> GstRec {
    (r: GstRec) => if r.id == id then Remargin(r, margin) else r
  }

  /** `handleMarginUpdate(id, text)`: nothing happens for an unknown id or a margin text that
      does not read as a number; otherwise the record with that id is re-derived. */
  function MarginUpdate(rs: seq<GstRec>, id: string, text: string): (u: seq<GstRec>)
    ensures !HasId(rs, id) || ParseFloat(Text(text)).None? ==> u == rs
    ensures HasId(rs, id) && ParseFloat(Text(text)).Some? ==>
      |u| == |rs| && forall i :: 0 <= i < |rs| ==>
        u[i] == (if rs[i].id == id then Remargin(rs[i], ParseFloat(Text(text)).value) else rs[i])
  {
    if !HasId(rs, id) then rs
    else match ParseFloat(Text(text))
      case None => rs
      case Some(m) => Map(rs, RemarginRow(id, m))
  }

  /** A correction is idempotent: entering the same margin again changes nothing more. */
  lemma {:induction false} MarginUpdateIdempotent(rs: seq<GstRec>, id: string, text: string)
    ensures MarginUpdate(MarginUpdate(rs, id, text), id, text) == MarginUpdate(rs, id, text)
  {
    var u := MarginUpdate(rs, id, text);
    if HasId(rs, id) && ParseFloat(Text(text)).Some? {
      var m := ParseFloat(Text(text)).value;
      var i :| 0 <= i < |rs| && rs[i].id == id;
      assert u[i].id == id;
      var w := MarginUpdate(u, id, text);
      forall k | 0 <= k < |u| ensures w[k] == u[k] {
        if rs[k].id == id {
          RemarginTwice(rs[k], m);
        }
      }
    }
  }

  /** Re-deriving a record with the margin it already has changes nothing. */
  lemma {:induction false} RemarginTwice(r: GstRec, margin: real)
    ensures Remargin(Remargin(r, margin), margin) == Remargin(r, margin)
  {
  }

  // ------------------------------------------------------------ delete

  /** `handleDeleteGST(record)`: the GST record goes, and so does every sale and payment entry
      with its barcode; other GST records with that barcode and the invoices stay. */
  function DeleteGst(s: Store, rec: GstRec): (r: Store)
    ensures forall g :: g in r.gst <==> g in s.gst && g.id != rec.id
    ensures forall x :: x in r.sales <==> x in s.sales && x.barcode != rec.barcode
    ensures forall t :: t in r.trackers <==> t in s.trackers && t.barcode != rec.barcode
    ensures r.invoices == s.invoices && r.items == s.items
    ensures SubsequenceOf(r.gst, s.gst) && SubsequenceOf(r.sales, s.sales) && SubsequenceOf(r.trackers, s.trackers)
  {
    FilterIsSubsequence(s.gst, (g: GstRec) => g.id != rec.id);
    FilterIsSubsequence(s.sales, (x: Sale) => x.barcode != rec.barcode);
    FilterIsSubsequence(s.trackers, (t: Tracker) => t.barcode != rec.barcode);
    s.(gst := Filter(s.gst, (g: GstRec) => g.id != rec.id),
       sales := Filter(s.sales, (x: Sale) => x.barcode != rec.barcode),
       trackers := Filter(s.trackers, (t: Tracker) => t.barcode != rec.barcode))
  }

  /** Deleting the same record twice removes nothing more the second time. */
  lemma {:induction false} DeleteGstIdempotent(s: Store, rec: GstRec)
    ensures DeleteGst(DeleteGst(s, rec), rec) == DeleteGst(s, rec)
  {
    var r := DeleteGst(s, rec);
    FilterKeepsAll(r.gst, (g: GstRec) => g.id != rec.id);
    FilterKeepsAll(r.sales, (x: Sale) => x.barcode != rec.barcode);
    FilterKeepsAll(r.trackers, (t: Tracker) => t.barcode != rec.barcode);
  }
}

=== FILE: historical.dfy ===
/**
 The historical import (`validateData` and `confirmImport`): past invoices
 exported from another system, one spreadsheet row per sold pair, several
 rows sharing an invoice number.

 Each row is checked in order. Most failures end the row's checks, but a
 barcode repeated within the file is only reported: the row goes on to be
 checked and, if complete, still yields a record. If any error was reported
 nothing is written. Otherwise the records are grouped by invoice number
 (date and customer from the group's first row) and each group becomes one
 invoice, with status "sent", and one Sales, InvoiceItem, PaymentTracker and
 GST row per record.
 */
module HistoricalImport {
  import opened Common
  import opened Dates
  import opened Entities
  import opened FiscalYear
  import opened Grouping
  import opened AmountWords

  /** The checks up to the barcode, which either stop the row with a message or give the
      row's invoice number, date, customer and barcode (all trimmed, the date as parsed). */
  datatype Head = HeadError(message: string) | Head(invoiceNumber: string, invoiceDate: string, customerName: string, barcode: string)

  /** The checks after the barcode: either a message or the item's fields and amounts. */
  datatype Tail = TailError(message: string) | Tail(description: string, colour: string, size: string, salesAmount: real, margin: real, purchase: real)

  /** What a row says, read against the stored invoice numbers and barcodes. */
  datatype Reading = Reading(head: Head, tail: Tail)

  /** A record of `validRecords`. */
  datatype Record = Record(
    invoiceNumber: string, invoiceDate: string, customerName: string, barcode: string,
    description: string, colour: string, size: string, salesAmount: real, margin: real, purchase: real)

  function ReadHead(row: Row, storedInvoices: set<string>, storedBarcodes: set<string>): (h: Head)
    ensures h.Head? <==>
      Filled(TrimmedText(Get(row, "Invoice Number"))) && TrimmedText(Get(row, "Invoice Number")).value !in storedInvoices
      && ParseDate(Get(row, "Invoice Date")).Some? && Filled(TrimmedText(Get(row, "Customer Name")))
      && Filled(TrimmedText(Get(row, "Barcode"))) && TrimmedText(Get(row, "Barcode")).value !in storedBarcodes
    ensures h.Head? ==>
      Some(h.invoiceNumber) == TrimmedText(Get(row, "Invoice Number")) && Some(h.invoiceDate) == ParseDate(Get(row, "Invoice Date"))
      && Some(h.customerName) == TrimmedText(Get(row, "Customer Name")) && Some(h.barcode) == TrimmedText(Get(row, "Barcode"))
  {
    var invoiceNumber := TrimmedText(Get(row, "Invoice Number"));
    if !Filled(invoiceNumber) then HeadError("Missing Invoice Number")
    else if invoiceNumber.value in storedInvoices then HeadError("Invoice Number already exists: " + invoiceNumber.value)
    else
      var invoiceDate := ParseDate(Get(row, "Invoice Date"));
      if invoiceDate.None? then HeadError("Invalid or missing Invoice Date")
      else
        var customerName := TrimmedText(Get(row, "Customer Name"));
        if !Filled(customerName) then HeadError("Missing Customer Name")
        else
          var barcode := TrimmedText(Get(row, "Barcode"));
          if !Filled(barcode) then HeadError("Missing Barcode")
          else if barcode.value in storedBarcodes then HeadError("Duplicate Barcode: " + barcode.value + " (already exists)")
          else Head(invoiceNumber.value, invoiceDate.value, customerName.value, barcode.value)
  }

  /** `parseFloat(x) || fallback`: a zero or unreadable number falls back. */
  function FloatOr(c: Cell, fallback: real): real {
    match ParseFloat(c)
    case Some(v) => if v != 0.0 then v else fallback
    case None => fallback
  }

  function ReadTail(row: Row): (t: Tail)
    ensures t.Tail? <==>
      Filled(TrimmedText(Get(row, "Description"))) && Filled(TrimmedText(Get(row, "Colour")))
      && Filled(TrimmedText(Get(row, "Size")))
      && ParseFloat(Get(row, "Sales Amount")).Some? && ParseFloat(Get(row, "Sales Amount")).value > 0.0
      && ParseFloat(Get(row, "GST Margin")).Some?
    ensures t.Tail? ==>
      Some(t.salesAmount) == ParseFloat(Get(row, "Sales Amount")) && t.salesAmount > 0.0
      && Some(t.margin) == ParseFloat(Get(row, "GST Margin"))
  {
    var description := TrimmedText(Get(row, "Description"));
    var colour := TrimmedText(Get(row, "Colour"));
    var size := TrimmedText(Get(row, "Size"));
    var salesAmount := ParseFloat(Get(row, "Sales Amount"));
    var margin := ParseFloat(Get(row, "GST Margin"));
    if !Filled(description) then TailError("Missing Description")
    else if !Filled(colour) then TailError("Missing Colour")
    else if !Filled(size) then TailError("Missing Size")
    // `!salesAmount || salesAmount <= 0`: NaN, zero and negative amounts all fail
    else if salesAmount.None? || salesAmount.value == 0.0 || salesAmount.value <= 0.0 then TailError("Invalid Sales Amount")
    else if margin.None? then TailError("Invalid GST Margin")
    else
      var purchase := FloatOr(Get(row, "GST Purchase Price"), salesAmount.value - margin.value);
      Tail(description.value, colour.value, size.value, salesAmount.value, margin.value, purchase)
  }

  /** Without a usable purchase price the record's purchase is the sale amount less the margin. */
  lemma {:induction false} PurchaseDefault(row: Row)
    ensures ReadTail(row).Tail? && (ParseFloat(Get(row, "GST Purchase Price")).None? || ParseFloat(Get(row, "GST Purchase Price")) == Some(0.0))
      ==> ReadTail(row).purchase + ReadTail(row).margin == ReadTail(row).salesAmount
  {
  }

  function ReadRow(row: Row, storedInvoices: set<string>, storedBarcodes: set<string>): Reading {
    Reading(ReadHead(row, storedInvoices, storedBarcodes), ReadTail(row))
  }

  /** The reading of every row, each taken from its own row alone. */
  function Readings(rows: seq<Row>, storedInvoices: set<string>, storedBarcodes: set<string>): (rs: seq<Reading>)
    ensures |rs| == |rows|
  {
    Map(rows, row => ReadRow(row, storedInvoices, storedBarcodes))
  }

  // ------------------------------------------------------------ the validation pass

  /** A row that passes every check of its own. */
  predicate Complete(r: Reading) {
    r.head.Head? && r.tail.Tail?
  }

  function RecordOf(r: Reading): Record
    requires Complete(r)
  {
    var h, t := r.head, r.tail;
    Record(h.invoiceNumber, h.invoiceDate, h.customerName, h.barcode, t.description, t.colour, t.size, t.salesAmount, t.margin, t.purchase)
  }

  /** The state of the pass: the errors, the valid records and the barcodes of the file so far. */
  datatype Scan = Scan(errors: seq<RowError>, records: seq<Record>, barcodes: set<string>)

  /** One row of `rows.forEach`. */
  function Step(s: Scan, r: Reading, index: nat): Scan {
    var at := RowNumber(index);
    match r.head
    case HeadError(m) => s.(errors := s.errors + [RowError(at, m)])
    case Head(_, _, _, barcode) =>
      var dup := if barcode in s.barcodes then [RowError(at, "Duplicate Barcode in file: " + barcode)] else [];
      var barcodes := s.barcodes + {barcode};
      match r.tail
      case TailError(m) => Scan(s.errors + dup + [RowError(at, m)], s.records, barcodes)
      case Tail(_, _, _, _, _, _) => Scan(s.errors + dup, s.records + [RecordOf(r)], barcodes)
  }

  function ScanAll(rs: seq<Reading>): (s: Scan)
    ensures |s.records| <= |rs|
  {
    if |rs| == 0 then Scan([], [], {}) else Step(ScanAll(rs[..|rs| - 1]), rs[|rs| - 1], |rs| - 1)
  }

  /** Reference for the file's barcodes: those of every row that got past the barcode checks. */
  function FileBarcodes(rs: seq<Reading>): set<string> {
    if |rs| == 0 then {}
    else FileBarcodes(rs[..|rs| - 1]) + (if rs[|rs| - 1].head.Head? then {rs[|rs| - 1].head.barcode} else {})
  }

  /** Reference for the records: those of the complete rows, in file order, whatever the
      rows before them hold. */
  function CompleteRecords(rs: seq<Reading>): seq<Record> {
    if |rs| == 0 then []
    else CompleteRecords(rs[..|rs| - 1]) + (if Complete(rs[|rs| - 1]) then [RecordOf(rs[|rs| - 1])] else [])
  }

  /** A row reports nothing exactly when it is complete and its barcode is new to the file. */
  predicate Fine(rs: seq<Reading>, i: nat)
    requires i < |rs|
  {
    Complete(rs[i]) && rs[i].head.barcode !in FileBarcodes(rs[..i])
  }

  lemma {:induction false} ScanBarcodes(rs: seq<Reading>)
    ensures ScanAll(rs).barcodes == FileBarcodes(rs)
  {
    if |rs| > 0 {
      ScanBarcodes(rs[..|rs| - 1]);
    }
  }

  /** A file duplicate does not cost a row its record: the records are exactly those of the
      complete rows. */
  lemma {:induction false} ScanRecords(rs: seq<Reading>)
    ensures ScanAll(rs).records == CompleteRecords(rs)
  {
    if |rs| > 0 {
      ScanRecords(rs[..|rs| - 1]);
    }
  }

  /** Errors are reported on spreadsheet rows 2 .. |rows| + 1 in row order, at most two per
      row, and every row yields a record or an error. */
  lemma {:induction false} ScanErrorRows(rs: seq<Reading>)
    ensures var s := ScanAll(rs);
      (forall i :: 0 <= i < |s.errors| ==> 2 <= s.errors[i].row < |rs| + 2)
      && (forall i, j :: 0 <= i < j < |s.errors| ==> s.errors[i].row <= s.errors[j].row)
      && (forall i :: 0 <= i < |s.errors| - 2 ==> s.errors[i].row < s.errors[i + 2].row)
      && |s.errors| + |s.records| >= |rs|
  {
    if |rs| > 0 {
      ScanErrorRows(rs[..|rs| - 1]);
    }
  }

  lemma {:induction false} FineOfPrefix(rs: seq<Reading>, n: nat)
    requires n <= |rs|
    ensures forall i :: 0 <= i < n ==> Fine(rs, i) == Fine(rs[..n], i)
  {
    forall i | 0 <= i < n
      ensures Fine(rs, i) == Fine(rs[..n], i)
    {
      assert rs[..i] == rs[..n][..i];
    }
  }

  /** The pass reports no error exactly when every row is fine, and then every row gave its
      record, in order. */
  lemma {:induction false} ScanClean(rs: seq<Reading>)
    ensures |ScanAll(rs).errors| == 0 <==> forall i :: 0 <= i < |rs| ==> Fine(rs, i)
    ensures |ScanAll(rs).errors| == 0 ==>
      |ScanAll(rs).records| == |rs| && forall i :: 0 <= i < |rs| ==> Complete(rs[i]) && ScanAll(rs).records[i] == RecordOf(rs[i])
  {
    if |rs| > 0 {
      var n := |rs| - 1;
      var prev := ScanAll(rs[..n]);
      ScanClean(rs[..n]);
      ScanBarcodes(rs[..n]);
      FineOfPrefix(rs, n);
      assert ScanAll(rs) == Step(prev, rs[n], n);
      if Fine(rs, n) {
        assert ScanAll(rs).errors == prev.errors;
        assert ScanAll(rs).records == prev.records + [RecordOf(rs[n])];
      } else {
        assert |ScanAll(rs).errors| > 0;
      }
    }
  }

  /** A barcode that got past row `i`'s checks is among the file's barcodes for every later row. */
  lemma {:induction false} BarcodeIsEarlier(rs: seq<Reading>, i: nat, j: nat)
    requires i < j <= |rs| && rs[i].head.Head?
    ensures rs[i].head.barcode in FileBarcodes(rs[..j])
  {
    if i < j - 1 {
      BarcodeIsEarlier(rs, i, j - 1);
      assert rs[..j][..j - 1] == rs[..j - 1];
    } else {
      assert rs[..j][..j - 1] == rs[..i];
    }
  }

  /** In a clean file the records carry pairwise distinct barcodes. */
  lemma {:induction false} CleanBarcodesDistinct(rs: seq<Reading>, i: nat, j: nat)
    requires |ScanAll(rs).errors| == 0 && i < j < |rs|
    ensures |ScanAll(rs).records| == |rs| && ScanAll(rs).records[i].barcode != ScanAll(rs).records[j].barcode
  {
    ScanClean(rs);
    assert Fine(rs, i) && Fine(rs, j);
    BarcodeIsEarlier(rs, i, j);
  }

  /** A repeated barcode does not stop its row: a row repeating the first row's barcode and
      missing a later field reports both, on the same spreadsheet row. */
  lemma {:induction false} TwoErrorsOnOneRow(r1: Reading, r2: Reading)
    requires Complete(r1) && r2.head.Head? && r2.tail.TailError? && r2.head.barcode == r1.head.barcode
    ensures ScanAll([r1, r2]).errors
      == [RowError(3, "Duplicate Barcode in file: " + r1.head.barcode), RowError(3, r2.tail.message)]
    ensures ScanAll([r1, r2]).records == [RecordOf(r1)]
  {
    var rs := [r1, r2];
    assert rs[..1] == [r1] && rs[..1][..0] == [];
    assert ScanAll(rs[..1][..0]) == Scan([], [], {});
    var s1 := ScanAll(rs[..1]);
    assert s1 == Step(Scan([], [], {}), r1, 0);
    assert s1 == Scan([], [RecordOf(r1)], {r1.head.barcode});
    assert ScanAll(rs) == Step(s1, r2, 1);
  }

  /** A repeated barcode in a complete row is reported, yet the row still yields its record. */
  lemma {:induction false} DuplicateStillRecorded(r1: Reading, r2: Reading)
    requires Complete(r1) && Complete(r2) && r2.head.barcode == r1.head.barcode
    ensures ScanAll([r1, r2]).errors == [RowError(3, "Duplicate Barcode in file: " + r1.head.barcode)]
    ensures ScanAll([r1, r2]).records == [RecordOf(r1), RecordOf(r2)]
  {
    var rs := [r1, r2];
    assert rs[..1] == [r1] && rs[..1][..0] == [];
    assert ScanAll(rs[..1][..0]) == Scan([], [], {});
    var s1 := ScanAll(rs[..1]);
    assert s1 == Step(Scan([], [], {}), r1, 0);
    assert s1 == Scan([], [RecordOf(r1)], {r1.head.barcode});
    assert ScanAll(rs) == Step(s1, r2, 1);
  }

  // ------------------------------------------------------------ preview

  function InvoiceNumberOf(r: Record): string {
    r.invoiceNumber
  }

  function SalesAmount(r: Record): real {
    r.salesAmount
  }

  function RecordGst(r: Record): real {
    r.margin * GstRate
  }

  /** An entry of `invoiceGroups`: the header fields come from the group's first record. */
  datatype InvoiceGroup = InvoiceGroup(invoiceNumber: string, invoiceDate: string, customerName: string, items: seq<Record>)

  function Headed(gs: seq<Group<string, Record>>): (igs: seq<InvoiceGroup>)
    requires forall i :: 0 <= i < |gs| ==> |gs[i].items| > 0
    ensures |igs| == |gs|
    ensures forall i :: 0 <= i < |gs| ==>
      igs[i].invoiceNumber == gs[i].key && igs[i].items == gs[i].items
      && igs[i].invoiceDate == gs[i].items[0].invoiceDate && igs[i].customerName == gs[i].items[0].customerName
  {
    if |gs| == 0 then []
    else
      var g := gs[0];
      [InvoiceGroup(g.key, g.items[0].invoiceDate, g.items[0].customerName, g.items)] + Headed(gs[1..])
  }

  /** `Object.values(invoiceGroups)`: one group per invoice number in first-appearance order. */
  function InvoiceGroups(records: seq<Record>): seq<InvoiceGroup> {
    GroupByNonEmpty(records, InvoiceNumberOf);
    Headed(GroupBy(records, InvoiceNumberOf))
  }

  datatype Preview = Preview(
    records: seq<Record>, invoices: seq<InvoiceGroup>, totalRows: nat, totalInvoices: nat, totalSales: real, totalGst: real)

  datatype Validation = Invalid(errors: seq<RowError>) | Ready(preview: Preview)

  function StoredInvoiceNumbers(store: Store): set<string> {
    set i | 0 <= i < |store.invoices| :: store.invoices[i].number
  }

  function StoredBarcodes(store: Store): set<string> {
    set i | 0 <= i < |store.sales| :: store.sales[i].barcode
  }

  function ReadAll(store: Store, rows: seq<Row>): seq<Reading> {
    Readings(rows, StoredInvoiceNumbers(store), StoredBarcodes(store))
  }

  /** `validateData` over the extracted rows. */
  function ValidateData(store: Store, rows: seq<Row>): Validation {
    var s := ScanAll(ReadAll(store, rows));
    if |s.errors| > 0 then Invalid(s.errors)
    else
      var igs := InvoiceGroups(s.records);
      Ready(Preview(s.records, igs, |s.records|, |igs|, Sum(s.records, SalesAmount), Sum(s.records, RecordGst)))
  }

  function ItemsOf(g: InvoiceGroup): seq<Record> {
    g.items
  }

  function InvoiceCount(igs: seq<InvoiceGroup>): nat {
    if |igs| == 0 then 0 else |igs[0].items| + InvoiceCount(igs[1..])
  }

  function InvoiceSum(igs: seq<InvoiceGroup>): real {
    if |igs| == 0 then 0.0 else Sum(igs[0].items, SalesAmount) + InvoiceSum(igs[1..])
  }

  lemma {:induction false} HeadedTotals(gs: seq<Group<string, Record>>)
    requires forall i :: 0 <= i < |gs| ==> |gs[i].items| > 0
    ensures InvoiceCount(Headed(gs)) == ItemCount(gs) && InvoiceSum(Headed(gs)) == SumItems(gs, SalesAmount)
  {
    if |gs| > 0 {
      HeadedTotals(gs[1..]);
    }
  }

  /** Validation is all or nothing: it fails, with at least one error, exactly when some row
      is not fine. What a passing validation previews is stated by `PreviewTotals` and
      `PreviewGroups`. */
  lemma {:induction false} ValidateDataAllOrNothing(store: Store, rows: seq<Row>)
    ensures var rs := ReadAll(store, rows);
      ValidateData(store, rows).Invalid? <==> exists i :: 0 <= i < |rows| && !Fine(rs, i)
    ensures ValidateData(store, rows).Invalid? ==> |ValidateData(store, rows).errors| > 0
  {
    var rs := ReadAll(store, rows);
    ScanClean(rs);
    if |ScanAll(rs).errors| > 0 {
      var i :| 0 <= i < |rs| && !Fine(rs, i);
      assert 0 <= i < |rows| && !Fine(rs, i);
    }
  }

  /** A passing validation previews one record per row, and the invoice groups account for
      every record and the whole sales total. */
  lemma {:induction false} PreviewTotals(store: Store, rows: seq<Row>)
    ensures var v := ValidateData(store, rows);
      v.Ready? ==>
        v.preview.totalRows == |rows| && InvoiceCount(v.preview.invoices) == |rows|
        && InvoiceSum(v.preview.invoices) == v.preview.totalSales
        && v.preview.totalInvoices == |FirstKeys(v.preview.records, InvoiceNumberOf)|
  {
    var rs := ReadAll(store, rows);
    var s := ScanAll(rs);
    if |s.errors| == 0 {
      ScanClean(rs);
      GroupByNonEmpty(s.records, InvoiceNumberOf);
      GroupByTotals(s.records, InvoiceNumberOf, SalesAmount);
      GroupByIsPartition(s.records, InvoiceNumberOf);
      HeadedTotals(GroupBy(s.records, InvoiceNumberOf));
    }
  }

  function GroupInvoiceNumber(g: InvoiceGroup): string {
    g.invoiceNumber
  }

  /** The invoice groups carry the distinct invoice numbers in first-appearance order, and
      each holds exactly the records with its number, in file order. */
  lemma {:induction false} InvoiceGroupsPartition(records: seq<Record>)
    ensures var igs := InvoiceGroups(records);
      Map(igs, GroupInvoiceNumber) == FirstKeys(records, InvoiceNumberOf)
      && forall g :: 0 <= g < |igs| ==> igs[g].items == Members(records, InvoiceNumberOf, igs[g].invoiceNumber)
  {
    var gs := GroupBy(records, InvoiceNumberOf);
    GroupByNonEmpty(records, InvoiceNumberOf);
    GroupByIsPartition(records, InvoiceNumberOf);
    var igs := Headed(gs);
    assert Map(igs, GroupInvoiceNumber) == KeysOf(gs);
  }

  /** A passing validation previews the invoices of the distinct invoice numbers, in the
      order they first appear, each holding exactly its records. */
  lemma {:induction false} PreviewGroups(store: Store, rows: seq<Row>)
    ensures var v := ValidateData(store, rows);
      v.Ready? ==>
        Map(v.preview.invoices, GroupInvoiceNumber) == FirstKeys(v.preview.records, InvoiceNumberOf)
        && forall g :: 0 <= g < |v.preview.invoices| ==>
             v.preview.invoices[g].items == Members(v.preview.records, InvoiceNumberOf, v.preview.invoices[g].invoiceNumber)
  {
    var s := ScanAll(ReadAll(store, rows));
    if |s.errors| == 0 {
      InvoiceGroupsPartition(s.records);
    }
  }

  // ------------------------------------------------------------ confirm

  /** The first client whose party name equals `name` ignoring case. */
  function FindClient(clients: seq<string>, name: string): (r: Option<nat>)
    ensures r.Some? ==> r.value < |clients| && ToLower(clients[r.value]) == ToLower(name)
    ensures r.Some? ==> forall j :: 0 <= j < r.value ==> ToLower(clients[j]) != ToLower(name)
    ensures r.None? ==> forall j :: 0 <= j < |clients| ==> ToLower(clients[j]) != ToLower(name)
  {
    if |clients| == 0 then None
    else if ToLower(clients[0]) == ToLower(name) then Some(0)
    else match FindClient(clients[1..], name)
      case Some(i) => Some(i + 1)
      case None => None
  }

  /** Find or create the client: the client list afterwards and the party name the invoice gets. */
  function ClientFor(clients: seq<string>, name: string): (seq<string>, string) {
    match FindClient(clients, name)
    case Some(i) => (clients, clients[i])
    case None => (clients + [name], name)
  }

  /** A customer is created at most once: after the first invoice for a name, any later
      invoice whose customer matches it ignoring case finds that client. */
  lemma {:induction false} ClientCreatedOnce(clients: seq<string>, name: string, later: string)
    requires ToLower(later) == ToLower(name)
    ensures var (after, _) := ClientFor(clients, name);
      ClientFor(after, later).0 == after && |after| <= |clients| + 1
      && ToLower(ClientFor(after, later).1) == ToLower(name)
  {
    var (after, _) := ClientFor(clients, name);
    if FindClient(clients, name).None? {
      assert ToLower(after[|clients|]) == ToLower(name);
    }
  }

  function SaleOf(g: InvoiceGroup, r: Record, batchId: string): Sale {
    Sale("", batchId, r.barcode, r.description, r.colour, r.size, r.salesAmount, g.invoiceDate)
  }

  function ItemOf(invoiceId: string, index: nat, r: Record): Item {
    Item("", invoiceId, index, r.barcode, ItemDescription(r.description, r.colour, r.size), ShoeHsn, 1.0, PairUnit, r.salesAmount, r.salesAmount)
  }

  function TrackerOf(g: InvoiceGroup, r: Record): Tracker {
    Tracker("", r.barcode, r.salesAmount, 0.0, r.salesAmount, "unpaid", g.invoiceDate, "")
  }

  function GstOf(g: InvoiceGroup, r: Record): GstRec {
    GstRec("", None, r.barcode, r.description, r.colour, r.size, r.salesAmount, r.margin, r.purchase,
      r.margin * GstRate, MonthOf(g.invoiceDate), YearOf(g.invoiceDate), "", g.invoiceDate)
  }

  /** The four rows written for the first `n` items of the group. */
  function Rows(g: InvoiceGroup, n: nat, invoiceId: string, batchId: string): (w: (seq<Sale>, seq<Item>, seq<Tracker>, seq<GstRec>))
    requires n <= |g.items|
    ensures |w.0| == |w.1| == |w.2| == |w.3| == n
  {
    if n == 0 then ([], [], [], [])
    else
      var (ss, its, ts, gs) := Rows(g, n - 1, invoiceId, batchId);
      var r := g.items[n - 1];
      (ss + [SaleOf(g, r, batchId)], its + [ItemOf(invoiceId, n - 1, r)], ts + [TrackerOf(g, r)], gs + [GstOf(g, r)])
  }

  /** Every item's rows carry its barcode and amount, its position as the row index, the
      purchase price from the file, and the invoice's date rather than the row's own. */
  lemma {:induction false} RowsPointwise(g: InvoiceGroup, n: nat, invoiceId: string, batchId: string)
    requires n <= |g.items|
    ensures var (ss, its, ts, gs) := Rows(g, n, invoiceId, batchId);
      forall i :: 0 <= i < n ==>
        ss[i].barcode == its[i].barcode == ts[i].barcode == gs[i].barcode == g.items[i].barcode
        && ss[i].price == its[i].amount == ts[i].balance == gs[i].saleAmount == g.items[i].salesAmount
        && ss[i].saleDate == ts[i].saleDate == gs[i].saleDate == g.invoiceDate
        && its[i].rowIndex == i && its[i].invoiceId == invoiceId
        && gs[i].purchase == g.items[i].purchase && gs[i].gst == g.items[i].margin * GstRate
  {
    if n > 0 {
      RowsPointwise(g, n - 1, invoiceId, batchId);
    }
  }

  /** One invoice group: the invoice (status "sent", numbered as in the file) and its rows. */
  function ConfirmGroup(store: Store, clients: seq<string>, g: InvoiceGroup, batchId: string, id: string): (Store, seq<string>) {
    var (clients', partyName) := ClientFor(clients, g.customerName);
    var total := Sum(g.items, SalesAmount);
    var inv := Invoice(id, g.invoiceNumber, g.invoiceDate, FinancialYearOf(g.invoiceDate), partyName,
      |g.items| as real, total, AmountInWords(total), "sent");
    var (ss, its, ts, gs) := Rows(g, |g.items|, id, batchId);
    (Store(store.sales + ss, store.trackers + ts, store.gst + gs, store.invoices + [inv], store.items + its), clients')
  }

  /** `confirmImport`: the groups one after another; `newId(k)` is the id the server gives
      the k-th invoice. */
  function Confirm(store: Store, clients: seq<string>, igs: seq<InvoiceGroup>, batchId: string, newId: nat -> string, k: nat): (Store, seq<string>)
    decreases |igs|
  {
    if |igs| == 0 then (store, clients)
    else
      var (next, clients') := ConfirmGroup(store, clients, igs[0], batchId, newId(k));
      Confirm(next, clients', igs[1..], batchId, newId, k + 1)
  }

  /** A confirmed group's invoice: its quantity is its number of rows, its total their sum. */
  lemma {:induction false} ConfirmGroupInvoice(store: Store, clients: seq<string>, g: InvoiceGroup, batchId: string, id: string)
    ensures var (after, _) := ConfirmGroup(store, clients, g, batchId, id);
      var inv := after.invoices[|after.invoices| - 1];
      |after.invoices| == |store.invoices| + 1 && after.invoices[..|store.invoices|] == store.invoices
      && inv.number == g.invoiceNumber && inv.date == g.invoiceDate && inv.status == "sent"
      && inv.fy == FinancialYearOf(g.invoiceDate)
      && ToLower(inv.clientName) == ToLower(g.customerName)
      && inv.totalQuantity == |g.items| as real && inv.grandTotal == Sum(g.items, SalesAmount)
  {
  }

  function Price(s: Sale): real {
    s.price
  }

  lemma {:induction false} RowsSalesTotal(g: InvoiceGroup, n: nat, invoiceId: string, batchId: string)
    requires n <= |g.items|
    ensures Sum(Rows(g, n, invoiceId, batchId).0, Price) == Sum(g.items[..n], SalesAmount)
  {
    if n > 0 {
      RowsSalesTotal(g, n - 1, invoiceId, batchId);
      assert g.items[..n][..n - 1] == g.items[..n - 1];
    }
  }

  /** Confirming writes one invoice per group and, per record, exactly one row in each of
      the four tables; the new sales add up to the records' total. */
  lemma {:induction false} ConfirmCounts(store: Store, clients: seq<string>, igs: seq<InvoiceGroup>, batchId: string, newId: nat -> string, k: nat)
    ensures var (after, _) := Confirm(store, clients, igs, batchId, newId, k);
      |after.invoices| == |store.invoices| + |igs|
      && |after.sales| == |store.sales| + InvoiceCount(igs) && |after.items| == |store.items| + InvoiceCount(igs)
      && |after.trackers| == |store.trackers| + InvoiceCount(igs) && |after.gst| == |store.gst| + InvoiceCount(igs)
      && Sum(after.sales, Price) == Sum(store.sales, Price) + InvoiceSum(igs)
    decreases |igs|
  {
    if |igs| > 0 {
      var g := igs[0];
      var (next, clients') := ConfirmGroup(store, clients, g, batchId, newId(k));
      var ss := Rows(g, |g.items|, newId(k), batchId).0;
      RowsSalesTotal(g, |g.items|, newId(k), batchId);
      assert g.items[..|g.items|] == g.items;
      SumAppend(store.sales, ss, Price);
      assert next.sales == store.sales + ss;
      ConfirmCounts(next, clients', igs[1..], batchId, newId, k + 1);
    }
  }

  /** The whole import: a passing validation followed by its confirmation writes one row per
      spreadsheet row to each of Sales, InvoiceItem, PaymentTracker and GST, whose sales
      total is the previewed one; a failing validation writes nothing. */
  function Import(store: Store, clients: seq<string>, rows: seq<Row>, batchId: string, newId: nat -> string): (Store, seq<string>) {
    match ValidateData(store, rows)
    case Invalid(_) => (store, clients)
    case Ready(p) => Confirm(store, clients, p.invoices, batchId, newId, 0)
  }

  lemma {:induction false} ImportWritesEveryRow(store: Store, clients: seq<string>, rows: seq<Row>, batchId: string, newId: nat -> string)
    ensures var (after, _) := Import(store, clients, rows, batchId, newId);
      ValidateData(store, rows).Invalid? ==> after == store
    ensures var (after, _) := Import(store, clients, rows, batchId, newId);
      ValidateData(store, rows).Ready? ==>
        |after.sales| == |store.sales| + |rows| && |after.items| == |store.items| + |rows|
        && |after.trackers| == |store.trackers| + |rows| && |after.gst| == |store.gst| + |rows|
        && Sum(after.sales, Price) == Sum(store.sales, Price) + ValidateData(store, rows).preview.totalSales
  {
    var v := ValidateData(store, rows);
    if v.Ready? {
      PreviewTotals(store, rows);
      ConfirmCounts(store, clients, v.preview.invoices, batchId, newId, 0);
    }
  }
}

=== FILE: invoiceform.dfy ===
/**
 The manual invoice form: the editable item lines, their totals, and the
 submission, which refuses without a client or a company code and otherwise
 derives the financial year, the next invoice number of that year and the
 amount in words. Quantity and rate are read with `parseFloat`, so an
 unreadable entry is `NaN`, modelled as `None`.
 */
module InvoiceForm {
  import opened Common
  import opened Entities
  import opened Dates
  import opened FiscalYear
  import opened Numbering
  import opened AmountWords

  /** An item line of the form. */
  datatype Line = Line(description: string, hsn: string, quantity: Option<real>, unit: string, rate: Option<real>, amount: real)

  /** The line `addItem` appends and the form starts with. */
  const BlankLine: Line := Line("", ShoeHsn, Some(1.0), PairUnit, Some(0.0), 0.0)

  /** `(x || 0)`: `NaN` counts as 0. */
  function OrZero(x: Option<real>): real {
    x.GetOr(0.0)
  }

  /** The amount a line's quantity and rate call for. */
  predicate Priced(l: Line) {
    l.amount == OrZero(l.quantity) * OrZero(l.rate)
  }

  /** One edit of one field, with the value the input hands over. */
  datatype Edit =
    | SetDescription(text: string)
    | SetHsn(text: string)
    | SetQuantity(value: Option<real>)
    | SetUnit(text: string)
    | SetRate(value: Option<real>)

  function Apply(l: Line, e: Edit): Line {
    match e
    case SetDescription(t) => l.(description := t)
    case SetHsn(t) => l.(hsn := t)
    case SetQuantity(v) => l.(quantity := v)
    case SetUnit(t) => l.(unit := t)
    case SetRate(v) => l.(rate := v)
  }

  /** `handleItemChange`: the field is set, and a quantity or rate edit recomputes the amount.
      The index always names a rendered line. */
  function ItemChange(lines: seq<Line>, index: nat, e: Edit): (r: seq<Line>)
    requires index < |lines|
    ensures |r| == |lines| && forall i :: 0 <= i < |lines| && i != index ==> r[i] == lines[i]
    ensures r[index].(amount := lines[index].amount) == Apply(lines[index], e)
    ensures (e.SetQuantity? || e.SetRate?) ==> Priced(r[index])
    ensures !(e.SetQuantity? || e.SetRate?) ==> r[index].amount == lines[index].amount
  {
    var l := Apply(lines[index], e);
    var l' := if e.SetQuantity? || e.SetRate? then l.(amount := OrZero(l.quantity) * OrZero(l.rate)) else l;
    lines[index := l']
  }

  /** `addItem`. */
  function AddItem(lines: seq<Line>): (r: seq<Line>)
    ensures |r| == |lines| + 1 && r[..|lines|] == lines && r[|lines|] == BlankLine
  {
    lines + [BlankLine]
  }

  /** `items.filter((_, i) => i !== index)`, walking the lines with their positions from `from`. */
  function RemoveFrom(lines: seq<Line>, index: nat, from: nat): (r: seq<Line>)
    ensures from <= index < from + |lines| ==> r == lines[..index - from] + lines[index - from + 1..]
    ensures !(from <= index < from + |lines|) ==> r == lines
  {
    if |lines| == 0 then []
    else
      var rest := RemoveFrom(lines[1..], index, from + 1);
      if from == index then rest else [lines[0]] + rest
  }

  /** `removeItem`: exactly the line at `index` goes and the rest keep their order; an index
      past the end removes nothing. */
  function RemoveItem(lines: seq<Line>, index: nat): (r: seq<Line>)
    ensures index < |lines| ==> (
      && |r| == |lines| - 1
      && (forall i :: 0 <= i < index ==> r[i] == lines[i])
      && (forall i :: index <= i < |r| ==> r[i] == lines[i + 1]))
    ensures index >= |lines| ==> r == lines
  {
    RemoveFrom(lines, index, 0)
  }

  /** Every line's amount is what its quantity and rate call for. */
  predicate AllPriced(lines: seq<Line>) {
    forall i :: 0 <= i < |lines| ==> Priced(lines[i])
  }

  /** The blank line is priced, and adding, editing and removing lines keeps every line priced. */
  lemma {:induction false} FormKeepsLinesPriced(lines: seq<Line>, index: nat, e: Edit)
    requires AllPriced(lines)
    ensures Priced(BlankLine)
    ensures AllPriced(AddItem(lines)) && AllPriced(RemoveItem(lines, index))
    ensures index < |lines| ==> AllPriced(ItemChange(lines, index, e))
  {
    var r := RemoveItem(lines, index);
    if index < |lines| {
      forall i | 0 <= i < |r| ensures Priced(r[i]) {
        if i >= index {
          assert r[i] == lines[i + 1];
        }
      }
      var c := ItemChange(lines, index, e);
      forall i | 0 <= i < |c| ensures Priced(c[i]) {
        if i == index && !(e.SetQuantity? || e.SetRate?) {
          assert c[i].quantity == lines[i].quantity && c[i].rate == lines[i].rate;
        }
      }
    }
  }

  // ------------------------------------------------------------ totals

  function QuantityOf(l: Line): real {
    OrZero(l.quantity)
  }

  function AmountOf(l: Line): real {
    l.amount
  }

  /** `calculateTotals`: the quantities (an unreadable one as 0) and the amounts, summed. */
  datatype Totals = Totals(totalQuantity: real, grandTotal: real)

  function CalculateTotals(lines: seq<Line>): Totals {
    Totals(Sum(lines, QuantityOf), Sum(lines, AmountOf))
  }

  function LineTotal(l: Line): real {
    OrZero(l.quantity) * OrZero(l.rate)
  }

  /** On priced lines the grand total is the sum of quantity times rate. */
  lemma {:induction false} GrandTotalOfPricedLines(lines: seq<Line>)
    requires AllPriced(lines)
    ensures CalculateTotals(lines).grandTotal == Sum(lines, LineTotal)
  {
    SumPointwise(lines, lines, AmountOf, LineTotal);
  }

  /** Adding a line adds one to the quantity and nothing to the grand total; removing a line
      takes off exactly its own figures. */
  lemma {:induction false} TotalsFollowLines(lines: seq<Line>, index: nat)
    ensures CalculateTotals(AddItem(lines)) == Totals(CalculateTotals(lines).totalQuantity + 1.0, CalculateTotals(lines).grandTotal)
    ensures index < |lines| ==>
      CalculateTotals(RemoveItem(lines, index)).totalQuantity == CalculateTotals(lines).totalQuantity - QuantityOf(lines[index])
      && CalculateTotals(RemoveItem(lines, index)).grandTotal == CalculateTotals(lines).grandTotal - lines[index].amount
  {
    assert AddItem(lines)[..|lines|] == lines;
    if index < |lines| {
      var r := RemoveItem(lines, index);
      assert lines == lines[..index] + [lines[index]] + lines[index + 1..];
      assert r == lines[..index] + lines[index + 1..];
      SumAppend(lines[..index] + [lines[index]], lines[index + 1..], QuantityOf);
      SumAppend(lines[..index], [lines[index]], QuantityOf);
      SumAppend(lines[..index], lines[index + 1..], QuantityOf);
      SumAppend(lines[..index] + [lines[index]], lines[index + 1..], AmountOf);
      SumAppend(lines[..index], [lines[index]], AmountOf);
      SumAppend(lines[..index], lines[index + 1..], AmountOf);
      assert Sum([lines[index]], QuantityOf) == QuantityOf(lines[index]);
      assert Sum([lines[index]], AmountOf) == lines[index].amount;
    }
  }

  // ------------------------------------------------------------ submission

  datatype Client = Client(id: string, partyName: string)

  /** The company settings; a missing company code is the empty text. */
  datatype Company = Company(code: string)

  datatype Submission = Refused(message: string) | Submitted(invoice: Invoice, lines: seq<Line>)

  /** The stored invoice numbers of one financial year (`Invoice.filter({ financial_year })`). */
  function NumbersOfYear(invoices: seq<Invoice>, fy: string): seq<Option<string>> {
    Map(Filter(invoices, (inv: Invoice) => inv.fy == fy), (inv: Invoice) => Some(inv.number))
  }

  /** `handleSubmit`, with the stored invoices and the id the server gives the new invoice as
      parameters. The form sends no status. */
  function Submit(client: Option<Client>, company: Option<Company>, date: string, lines: seq<Line>,
                  invoices: seq<Invoice>, newId: string): (r: Submission)
    ensures client.None? <==> r == Refused("Please select a client")
    ensures client.Some? && (company.None? || company.value.code == "") <==> r == Refused("Please configure company code in settings first")
    ensures r.Submitted? ==> (
      && r.lines == lines && r.invoice.id == newId
      && r.invoice.date == date && r.invoice.fy == FinancialYearOf(date)
      && r.invoice.clientName == client.value.partyName
      && r.invoice.totalQuantity == Sum(lines, QuantityOf) && r.invoice.grandTotal == Sum(lines, AmountOf)
      && r.invoice.words == AmountInWords(r.invoice.grandTotal)
      && r.invoice.number == NextInvoiceNumber(company.value.code, r.invoice.fy, NumbersOfYear(invoices, r.invoice.fy)))
  {
    if client.None? then Refused("Please select a client")
    else if company.None? || company.value.code == "" then Refused("Please configure company code in settings first")
    else
      var totals := CalculateTotals(lines);
      var fy := FinancialYearOf(date);
      var number := NextInvoiceNumber(company.value.code, fy, NumbersOfYear(invoices, fy));
      Submitted(Invoice(newId, number, date, fy, client.value.partyName, totals.totalQuantity, totals.grandTotal,
                        AmountInWords(totals.grandTotal), ""), lines)
  }

  /** A submitted invoice gets a number no stored invoice of its financial year has, one past
      the highest sequence among them, and the year of its date. */
  lemma {:induction false} SubmittedNumberIsFresh(client: Option<Client>, company: Option<Company>, date: string,
                                                  lines: seq<Line>, invoices: seq<Invoice>, newId: string)
    requires client.Some? && company.Some? && company.value.code != ""
    ensures Submit(client, company, date, lines, invoices, newId).Submitted?
    ensures var inv := Submit(client, company, date, lines, invoices, newId).invoice;
      forall k :: 0 <= k < |invoices| && invoices[k].fy == inv.fy ==> invoices[k].number != inv.number
    ensures var inv := Submit(client, company, date, lines, invoices, newId).invoice;
      TrailingNumber(inv.number).Some? && TrailingNumber(inv.number).value == MaxSequence(NumbersOfYear(invoices, inv.fy)) + 1
    ensures var inv := Submit(client, company, date, lines, invoices, newId).invoice;
      ReadIsoDate(date).Some? ==> inv.fy == FinancialYear(ReadIsoDate(date).value)
  {
    FreshInYear(company.value.code, FinancialYearOf(date), invoices);
  }

  /** The next number of a year differs from every stored number of that year and carries the
      sequence one past their highest. */
  lemma {:induction false} FreshInYear(code: string, fy: string, invoices: seq<Invoice>)
    ensures forall k :: 0 <= k < |invoices| && invoices[k].fy == fy ==>
      invoices[k].number != NextInvoiceNumber(code, fy, NumbersOfYear(invoices, fy))
    ensures TrailingNumber(NextInvoiceNumber(code, fy, NumbersOfYear(invoices, fy))).Some?
    ensures TrailingNumber(NextInvoiceNumber(code, fy, NumbersOfYear(invoices, fy))).value
         == MaxSequence(NumbersOfYear(invoices, fy)) + 1
  {
    NextTrailing(code, fy, NumbersOfYear(invoices, fy));
    NotAmongYear(code, fy, invoices);
  }

  lemma {:induction false} NotAmongYear(code: string, fy: string, invoices: seq<Invoice>)
    ensures forall k :: 0 <= k < |invoices| && invoices[k].fy == fy ==>
      invoices[k].number != NextInvoiceNumber(code, fy, NumbersOfYear(invoices, fy))
  {
    var ns := NumbersOfYear(invoices, fy);
    NextIsFresh(code, fy, ns);
    forall k | 0 <= k < |invoices| && invoices[k].fy == fy
      ensures invoices[k].number != NextInvoiceNumber(code, fy, ns)
    {
      NumberOfYearListed(invoices, fy, k);
    }
  }

  /** Every stored invoice of the year has its number among the year's numbers. */
  lemma {:induction false} NumberOfYearListed(invoices: seq<Invoice>, fy: string, k: nat)
    requires k < |invoices| && invoices[k].fy == fy
    ensures Some(invoices[k].number) in NumbersOfYear(invoices, fy)
  {
    var year := Filter(invoices, (x: Invoice) => x.fy == fy);
    assert invoices[k] in year;
    var m :| 0 <= m < |year| && year[m] == invoices[k];
    assert NumbersOfYear(invoices, fy)[m] == Some(invoices[k].number);
  }
}

=== FILE: invoicelist.dfy ===
/**
 The invoice list: the draft-only delete, the status and search filter, and
 the column header that toggles the sort direction. The list's own sort
 comparator is not modelled (see the README); `extractNumber` is
 `Numbering.ExtractNumber`.
 */
module InvoiceList {
  import opened Common
  import opened Entities
  import opened Dates

  // ------------------------------------------------------------ delete

  datatype Deletion = Refused(message: string) | Deleted(invoices: seq<Invoice>)

  /** `handleDeleteClick` then `handleDeleteConfirm`: only a draft may be deleted, by its id. */
  function DeleteInvoice(invoices: seq<Invoice>, inv: Invoice): (r: Deletion)
    ensures r.Refused? <==> inv.status != "draft"
    ensures r.Refused? ==> r.message == "Only draft invoices can be deleted"
    ensures r.Deleted? ==> forall x :: x in r.invoices <==> x in invoices && x.id != inv.id
  {
    if inv.status != "draft" then Refused("Only draft invoices can be deleted")
    else Deleted(Filter(invoices, (x: Invoice) => x.id != inv.id))
  }

  predicate UniqueInvoiceIds(invoices: seq<Invoice>) {
    forall i, j :: 0 <= i < j < |invoices| ==> invoices[i].id != invoices[j].id
  }

  /** With distinct ids a delete only ever removes the one draft asked for: every invoice that
      is not a draft stays. */
  lemma {:induction false} DeleteKeepsIssuedInvoices(invoices: seq<Invoice>, inv: Invoice, x: Invoice)
    requires UniqueInvoiceIds(invoices) && inv in invoices
    requires x in invoices && x.status != "draft"
    ensures DeleteInvoice(invoices, inv).Deleted? ==> x in DeleteInvoice(invoices, inv).invoices
  {
    if DeleteInvoice(invoices, inv).Deleted? {
      var i :| 0 <= i < |invoices| && invoices[i] == inv;
      var j :| 0 <= j < |invoices| && invoices[j] == x;
      assert i != j;
    }
  }

  // ------------------------------------------------------------ filter

  /** `yyyy`: the year padded to four digits. */
  function PadFour(s: string): (r: string)
    ensures |s| >= 4 ==> r == s
    ensures |s| < 4 ==> |r| == 4
    decreases 4 - |s|
  {
    if |s| >= 4 then s else PadFour("0" + s)
  }

  /** `format(date, 'dd/MM/yyyy')`. */
  function DisplayDate(d: Date): string
    requires d.year >= 0 && d.month >= 0 && d.day >= 0
  {
    PadTwo(NatToString(d.day)) + "/" + PadTwo(NatToString(d.month)) + "/" + PadFour(NatToString(d.year))
  }

  /** The date half of the search: a readable date whose `dd/MM/yyyy` form contains the term. */
  predicate DateMatch(date: string, search: string) {
    && date != ""
    && search != ""
    && match ReadIsoDate(date)
       case Some(d) => Contains(DisplayDate(d), search)
       case None => false
  }

  predicate MatchesStatus(inv: Invoice, statusFilter: string) {
    statusFilter == "all" || inv.status == statusFilter
  }

  /** The search: empty; or the term, ignoring case, inside the number or the client name;
      or the term inside the grand total's text (`toString`, a parameter) or the date. */
  predicate MatchesSearch(inv: Invoice, search: string, totalText: real -> string) {
    || search == ""
    || Contains(ToLower(inv.number), ToLower(search))
    || Contains(ToLower(inv.clientName), ToLower(search))
    || Contains(totalText(inv.grandTotal), search)
    || DateMatch(inv.date, search)
  }

  function Shown(statusFilter: string, search: string, totalText: real -> string): Invoice -> bool {
    (inv: Invoice) => MatchesStatus(inv, statusFilter) && MatchesSearch(inv, search, totalText)
  }

  /** `filteredInvoices`: the invoices passing both filters, in list order. */
  function FilteredInvoices(invoices: seq<Invoice>, statusFilter: string, search: string, totalText: real -> string): (r: seq<Invoice>)
    ensures SubsequenceOf(r, invoices)
    ensures forall x :: x in r <==> x in invoices && MatchesStatus(x, statusFilter) && MatchesSearch(x, search, totalText)
  {
    FilterIsSubsequence(invoices, Shown(statusFilter, search, totalText));
    Filter(invoices, Shown(statusFilter, search, totalText))
  }

  /** Status "all" with an empty search lists every invoice as it is. */
  lemma {:induction false} NoFilterListsAll(invoices: seq<Invoice>, totalText: real -> string)
    ensures FilteredInvoices(invoices, "all", "", totalText) == invoices
  {
    FilterKeepsAll(invoices, Shown("all", "", totalText));
  }

  /** An invoice of the chosen status is found by its own number, its own client name, or the
      displayed form of its date, typed in any case for the first two. */
  lemma {:induction false} SearchFindsOwnFields(invoices: seq<Invoice>, statusFilter: string, totalText: real -> string, x: Invoice)
    requires x in invoices && MatchesStatus(x, statusFilter)
    ensures x in FilteredInvoices(invoices, statusFilter, x.number, totalText)
    ensures x in FilteredInvoices(invoices, statusFilter, x.clientName, totalText)
    ensures match ReadIsoDate(x.date)
            case Some(d) => x in FilteredInvoices(invoices, statusFilter, DisplayDate(d), totalText)
            case None => true
  {
    match ReadIsoDate(x.date)
    case Some(d) =>
      assert Contains(DisplayDate(d), DisplayDate(d));
      assert DisplayDate(d) != "";
    case None =>
  }

  // ------------------------------------------------------------ sort header

  datatype ListSort = ListSort(field: string, direction: string)

  /** `handleSort`: the same column flips between ascending and descending; a new column
      starts descending. */
  function HandleSort(s: ListSort, field: string): (r: ListSort)
    ensures r.field == field && (r.direction == "asc" || r.direction == "desc")
    ensures s.field != field ==> r.direction == "desc"
    ensures s.field == field && (s.direction == "asc" || s.direction == "desc") ==> r.direction != s.direction
  {
    if s.field == field then ListSort(field, if s.direction == "asc" then "desc" else "asc")
    else ListSort(field, "desc")
  }

  /** Clicking the same column twice restores the direction; a new column clicked twice ends ascending. */
  lemma {:induction false} ClickTwice(s: ListSort, field: string)
    ensures s.field == field && (s.direction == "asc" || s.direction == "desc") ==> HandleSort(HandleSort(s, field), field) == s
    ensures s.field != field ==> HandleSort(HandleSort(s, field), field) == ListSort(field, "asc")
  {
  }
}

=== FILE: numbering.dfy ===
/**
 Invoice numbers `<company code>/<financial year>/<sequence>`.

 The invoice form takes the highest trailing `/digits` sequence among the
 invoices of the financial year and adds one (`getNextInvoiceNumber`); the
 invoice list sorts by the same trailing number (`extractNumber`). The sales
 import instead numbers by the count of invoices of the year plus one.
 */
module Numbering {
  import opened Common

  /** Length of the longest run of digits at the end of `s`. */
  function DigitRun(s: string): (k: nat)
    ensures k <= |s| && AllDigits(s[|s| - k..])
    ensures k < |s| ==> !IsDigit(s[|s| - k - 1])
  {
    if |s| > 0 && IsDigit(s[|s| - 1]) then
      var t := s[..|s| - 1];
      var k := DigitRun(t);
      assert s[|s| - 1 - k..] == t[|t| - k..] + [s[|s| - 1]];
      DigitsSnoc(t[|t| - k..], s[|s| - 1]);
      assert k < |t| ==> s[|s| - k - 2] == t[|t| - k - 1];
      k + 1
    else 0
  }

  lemma {:induction false} DigitsSnoc(a: string, c: char)
    requires AllDigits(a) && IsDigit(c)
    ensures AllDigits(a + [c])
  {
    forall i | 0 <= i < |a + [c]| ensures IsDigit((a + [c])[i]) {
      if i < |a| {
        assert (a + [c])[i] == a[i];
      }
    }
  }

  /** The capture of `/\/(\d+)$/`: the digits after a final slash, read as a number. */
  function TrailingNumber(s: string): Option<nat> {
    var k := DigitRun(s);
    if k > 0 && k < |s| && s[|s| - k - 1] == '/' then Some(DigitsValue(s[|s| - k..])) else None
  }

  /** The slash at `p` is followed by nothing but digits, at least one. */
  predicate SlashDigitsAt(s: string, p: int) {
    0 <= p < |s| - 1 && s[p] == '/' && AllDigits(s[p + 1..])
  }

  /** Regular-expression reading: the pattern matches exactly when some slash is followed
      by a non-empty all-digit tail, and the capture is that tail. */
  lemma {:induction false} TrailingNumberMatches(s: string)
    ensures TrailingNumber(s).Some? <==> exists p :: SlashDigitsAt(s, p)
    ensures forall p :: SlashDigitsAt(s, p) ==> TrailingNumber(s) == Some(DigitsValue(s[p + 1..]))
  {
    var k := DigitRun(s);
    if TrailingNumber(s).Some? {
      assert SlashDigitsAt(s, |s| - k - 1);
    }
    forall p | SlashDigitsAt(s, p) ensures TrailingNumber(s) == Some(DigitsValue(s[p + 1..])) {
      RunAfterSlash(s, p);
    }
  }

  lemma {:induction false} RunAfterSlash(s: string, p: int)
    requires SlashDigitsAt(s, p)
    ensures DigitRun(s) == |s| - p - 1
  {
  }

  /** Whatever precedes it, a slash and a decimal number at the end read back as that number. */
  lemma {:induction false} TrailingNumberOfSuffix(prefix: string, n: nat)
    ensures TrailingNumber(prefix + "/" + NatToString(n)) == Some(n)
  {
    var s := prefix + "/" + NatToString(n);
    var p := |prefix|;
    assert s[p + 1..] == NatToString(n);
    assert SlashDigitsAt(s, p);
    TrailingNumberMatches(s);
    NatToStringValue(n);
  }

  /** `extractNumber`: 0 for a missing or empty number or one without a trailing `/digits`. */
  function ExtractNumber(number: Option<string>): (r: nat)
    ensures number.Some? && TrailingNumber(number.value).Some? ==> r == TrailingNumber(number.value).value
    ensures number.None? || TrailingNumber(number.value).None? ==> r == 0
  {
    if number.None? || number.value == "" then 0
    else match TrailingNumber(number.value)
      case Some(n) => n
      case None => 0
  }

  /** The highest sequence among `numbers` (0 for none). */
  function MaxSequence(numbers: seq<Option<string>>): (m: nat)
    ensures forall i :: 0 <= i < |numbers| ==> ExtractNumber(numbers[i]) <= m
    ensures |numbers| > 0 ==> exists i :: 0 <= i < |numbers| && ExtractNumber(numbers[i]) == m
    ensures |numbers| == 0 ==> m == 0
  {
    if |numbers| == 0 then 0
    else
      var init := numbers[..|numbers| - 1];
      var m := Max(MaxSequence(init), ExtractNumber(numbers[|numbers| - 1]));
      assert forall i :: 0 <= i < |init| ==> numbers[i] == init[i];
      m
  }

  function Format(code: string, fy: string, n: nat): string {
    code + "/" + fy + "/" + NatToString(n)
  }

  /** `getNextInvoiceNumber` over the invoice numbers already stored for the financial year.
      Its separate branch for a year without invoices yields the same text (`FormatFirst`). */
  function NextInvoiceNumber(code: string, fy: string, numbers: seq<Option<string>>): (r: string)
    ensures |numbers| == 0 ==> r == code + "/" + fy + "/1"
    ensures TrailingNumber(r) == Some(MaxSequence(numbers) + 1)
  {
    TrailingNumberOfSuffix(code + "/" + fy, MaxSequence(numbers) + 1);
    FormatFirst(code, fy);
    Format(code, fy, MaxSequence(numbers) + 1)
  }

  /** The trailing sequence of the next number, as a fact callers can name. */
  lemma {:induction false} NextTrailing(code: string, fy: string, numbers: seq<Option<string>>)
    ensures TrailingNumber(NextInvoiceNumber(code, fy, numbers)) == Some(MaxSequence(numbers) + 1)
  {
  }

  /** The first number of a year is written with the sequence 1. */
  lemma {:induction false} FormatFirst(code: string, fy: string)
    ensures Format(code, fy, 1) == code + "/" + fy + "/1"
  {
    assert NatToString(1) == "1" by {
      assert DigitChar(1) == '1';
    }
  }

  /** The new number's sequence exceeds every existing one, so it is not among the existing numbers. */
  lemma {:induction false} NextIsFresh(code: string, fy: string, numbers: seq<Option<string>>)
    ensures forall i :: 0 <= i < |numbers| ==> ExtractNumber(numbers[i]) < ExtractNumber(Some(NextInvoiceNumber(code, fy, numbers)))
    ensures Some(NextInvoiceNumber(code, fy, numbers)) !in numbers
  {
  }

  /** Issuing `n` numbers one after another, each stored before the next is derived. */
  function Issue(code: string, fy: string, n: nat): seq<Option<string>> {
    if n == 0 then []
    else
      var before := Issue(code, fy, n - 1);
      before + [Some(NextInvoiceNumber(code, fy, before))]
  }

  /** Each issue appends one number, and the highest sequence after `n` issues is `n`. */
  lemma {:induction false} IssueCount(code: string, fy: string, n: nat)
    ensures |Issue(code, fy, n)| == n && MaxSequence(Issue(code, fy, n)) == n
    ensures n > 0 ==> Issue(code, fy, n) == Issue(code, fy, n - 1) + [Some(Format(code, fy, n))]
  {
    if n > 0 {
      var before := Issue(code, fy, n - 1);
      IssueCount(code, fy, n - 1);
      var x := Some(Format(code, fy, n));
      NextAfterDense(code, fy, before, n);
      assert Issue(code, fy, n) == before + [x];
      TrailingNumberOfSuffix(code + "/" + fy, n);
      MaxSequenceSnoc(before, x);
    }
  }

  /** Starting from no invoices, `n` issues give the sequences 1..n with no gap. */
  lemma {:induction false} IssueIsDense(code: string, fy: string, n: nat)
    ensures |Issue(code, fy, n)| == n
    ensures forall i :: 0 <= i < n ==> Issue(code, fy, n)[i] == Some(Format(code, fy, i + 1))
  {
    IssueCount(code, fy, n);
    if n > 0 {
      IssueIsDense(code, fy, n - 1);
      DenseSnoc(code, fy, Issue(code, fy, n - 1), n);
    }
  }

  /** Numbers 1..n-1 followed by number n are the numbers 1..n. */
  lemma {:induction false} DenseSnoc(code: string, fy: string, before: seq<Option<string>>, n: nat)
    requires n > 0 && |before| == n - 1
    requires forall i :: 0 <= i < n - 1 ==> before[i] == Some(Format(code, fy, i + 1))
    ensures forall i :: 0 <= i < n ==> (before + [Some(Format(code, fy, n))])[i] == Some(Format(code, fy, i + 1))
  {
  }

  lemma {:induction false} NextAfterDense(code: string, fy: string, before: seq<Option<string>>, n: nat)
    requires n > 0 && |before| == n - 1 && MaxSequence(before) == n - 1
    ensures NextInvoiceNumber(code, fy, before) == Format(code, fy, n)
  {
  }

  lemma {:induction false} MaxSequenceSnoc(numbers: seq<Option<string>>, x: Option<string>)
    ensures MaxSequence(numbers + [x]) == Max(MaxSequence(numbers), ExtractNumber(x))
  {
    assert (numbers + [x])[..|numbers|] == numbers;
  }

  // ------------------------------------------------------------ sales import

  /** `company?.company_code || 'INV'`. */
  function CompanyCodeOr(code: Option<string>): string {
    if code.Some? && code.value != "" then code.value else "INV"
  }

  /** The sales import's number: the count of the year's invoices plus one. */
  function CountedInvoiceNumber(code: Option<string>, fy: string, existingCount: nat): (r: string)
    ensures ExtractNumber(Some(r)) == existingCount + 1
  {
    TrailingNumberOfSuffix(CompanyCodeOr(code) + "/" + fy, existingCount + 1);
    Format(CompanyCodeOr(code), fy, existingCount + 1)
  }

  /** On a gap-free history the two numbering schemes agree. */
  lemma {:induction false} CountAgreesOnDenseHistory(code: string, fy: string, n: nat)
    requires code != ""
    ensures CountedInvoiceNumber(Some(code), fy, |Issue(code, fy, n)|) == NextInvoiceNumber(code, fy, Issue(code, fy, n))
  {
    IssueCount(code, fy, n);
  }

  /** Once the stored numbers have a gap, counting reissues a number already in use:
      with only `<code>/<fy>/2` stored, the sales import issues `<code>/<fy>/2` again. */
  lemma {:induction false} CountCanCollide(code: string, fy: string)
    requires code != ""
    ensures var stored := [Some(Format(code, fy, 2))];
      Some(CountedInvoiceNumber(Some(code), fy, |stored|)) in stored
      && Some(NextInvoiceNumber(code, fy, stored)) !in stored
  {
    NextIsFresh(code, fy, [Some(Format(code, fy, 2))]);
  }
}

=== FILE: payments.dfy ===
/**
 The payment import (`processPayments`): each row of a payments sheet is
 applied, in order, to the first PaymentTracker entry carrying its trimmed
 barcode. The entry's received amount grows by the row's amount, its balance
 becomes the sale amount less the received amount, and its status is unpaid,
 partial or paid accordingly. Rows without a barcode or whose barcode is not
 tracked are reported and skipped; nothing is rejected as a whole.
 */
module Payments {
  import opened Common
  import opened Entities

  /** The trimmed barcode a row looks up, `None` when the row has none (falsy). */
  function Key(row: Row): Option<string> {
    var b := Get(row, "BARCODE");
    if Truthy(b) then Some(Trim(Show(b))) else None
  }

  /** `row['AMOUNT PAID'] || 0`. */
  function AmountPaid(row: Row): real {
    Numeric(Or(Get(row, "AMOUNT PAID"), Num(0.0, "0")))
  }

  /** The status of an entry that has received `received` of `sale`. */
  function StatusFor(received: real, sale: real): (r: string)
    ensures r == "unpaid" <==> received == 0.0
    ensures r == "partial" <==> received != 0.0 && received < sale
    ensures r == "paid" <==> received != 0.0 && received >= sale
  {
    if received == 0.0 then "unpaid" else if received < sale then "partial" else "paid"
  }

  /** Applying one payment to an entry: only received, balance, status and date change. */
  function Pay(t: Tracker, amount: real, date: string): (r: Tracker)
    ensures r.received == t.received + amount && r.received + r.balance == r.saleAmount
    ensures r.status == StatusFor(r.received, r.saleAmount) && r.paymentDate == date
    ensures r.(received := t.received, balance := t.balance, status := t.status, paymentDate := t.paymentDate) == t
  {
    var received := t.received + amount;
    t.(received := received, balance := t.saleAmount - received, status := StatusFor(received, t.saleAmount), paymentDate := date)
  }

  /** The position of the first entry with barcode `key` (`filter(...)[0]`). */
  function FirstWith(trackers: seq<Tracker>, key: string): (r: Option<nat>)
    ensures r.Some? ==> r.value < |trackers| && trackers[r.value].barcode == key
    ensures r.Some? ==> forall j :: 0 <= j < r.value ==> trackers[j].barcode != key
    ensures r.None? ==> forall j :: 0 <= j < |trackers| ==> trackers[j].barcode != key
  {
    if |trackers| == 0 then None
    else if trackers[0].barcode == key then Some(0)
    else match FirstWith(trackers[1..], key)
      case Some(i) => Some(i + 1)
      case None => None
  }

  /** What the loop reads from a row: the trimmed barcode (`None` when falsy), the barcode
      as printed in a message, the amount, and the payment date. */
  datatype Line = Line(key: Option<string>, shown: string, amount: real, date: string)

  /** `dateOf` is the engine's reading of the row's payment date (today's date when it is
      missing or unreadable). */
  function LineOf(row: Row, dateOf: Cell -> string): Line {
    Line(Key(row), Show(Get(row, "BARCODE")), AmountPaid(row), dateOf(Get(row, "PAYMENT DATE")))
  }

  function Lines(rows: seq<Row>, dateOf: Cell -> string): seq<Line> {
    Map(rows, row => LineOf(row, dateOf))
  }

  /** The state of the loop: the entries, the messages, and the two counters. */
  datatype Tally = Tally(trackers: seq<Tracker>, errors: seq<string>, matched: nat, notFound: nat)

  /** One row of the loop. */
  function ProcessLine(s: Tally, l: Line): Tally {
    match l.key
    case None => s.(errors := s.errors + ["Missing BARCODE in row"])
    case Some(key) =>
      match FirstWith(s.trackers, key)
      case None => s.(notFound := s.notFound + 1, errors := s.errors + ["Barcode " + l.shown + " not found in payment tracker"])
      case Some(i) => s.(trackers := s.trackers[i := Pay(s.trackers[i], l.amount, l.date)], matched := s.matched + 1)
  }

  function ProcessLines(trackers: seq<Tracker>, ls: seq<Line>): Tally {
    if |ls| == 0 then Tally(trackers, [], 0, 0)
    else ProcessLine(ProcessLines(trackers, ls[..|ls| - 1]), ls[|ls| - 1])
  }

  /** `processPayments`. */
  function Process(trackers: seq<Tracker>, rows: seq<Row>, dateOf: Cell -> string): Tally {
    ProcessLines(trackers, Lines(rows, dateOf))
  }

  function HasNoBarcode(l: Line): bool {
    l.key.None?
  }

  /** Every row is counted once: matched, not found, or without a barcode; each of the last
      two reports one message. */
  lemma {:induction false} CountsAddUp(trackers: seq<Tracker>, ls: seq<Line>)
    ensures var s := ProcessLines(trackers, ls);
      s.matched + s.notFound + Count(ls, HasNoBarcode) == |ls|
      && |s.errors| == s.notFound + Count(ls, HasNoBarcode)
  {
    if |ls| > 0 {
      var init, l := ls[..|ls| - 1], ls[|ls| - 1];
      CountsAddUp(trackers, init);
      assert ls == init + [l];
      FilterAppend(init, [l], HasNoBarcode);
    }
  }

  /** Entries keep their barcodes and sale amounts, so every row of a barcode finds the same
      entry however many payments came before. */
  predicate SameEntries(a: seq<Tracker>, b: seq<Tracker>) {
    |a| == |b| && forall i :: 0 <= i < |a| ==> a[i].barcode == b[i].barcode && a[i].saleAmount == b[i].saleAmount
  }

  lemma {:induction false} FirstWithSameEntries(a: seq<Tracker>, b: seq<Tracker>, key: string)
    requires SameEntries(a, b)
    ensures FirstWith(a, key) == FirstWith(b, key)
  {
    if |a| > 0 && a[0].barcode != key {
      assert SameEntries(a[1..], b[1..]);
      FirstWithSameEntries(a[1..], b[1..], key);
    }
  }

  /** The amounts of the rows that land on entry `i`. */
  function PaidTo(trackers: seq<Tracker>, ls: seq<Line>, i: nat): real {
    if |ls| == 0 then 0.0
    else
      var l := ls[|ls| - 1];
      PaidTo(trackers, ls[..|ls| - 1], i) + (if l.key.Some? && FirstWith(trackers, l.key.value) == Some(i) then l.amount else 0.0)
  }

  /** What an entry has received after the import is what it had plus the amounts of all the
      rows that found it, whatever their order; the entries keep their barcodes and sale
      amounts. */
  lemma {:induction false} ProcessReceived(trackers: seq<Tracker>, ls: seq<Line>)
    ensures var after := ProcessLines(trackers, ls).trackers;
      SameEntries(after, trackers)
      && forall i :: 0 <= i < |trackers| ==> after[i].received == trackers[i].received + PaidTo(trackers, ls, i)
  {
    if |ls| > 0 {
      var init, l := ls[..|ls| - 1], ls[|ls| - 1];
      ProcessReceived(trackers, init);
      var before := ProcessLines(trackers, init).trackers;
      if l.key.Some? {
        FirstWithSameEntries(before, trackers, l.key.value);
      }
    }
  }

  /** A touched entry is balanced and its status matches what it has received; untouched
      entries are left as they were. */
  lemma {:induction false} ProcessConsistent(trackers: seq<Tracker>, ls: seq<Line>)
    ensures var after := ProcessLines(trackers, ls).trackers;
      |after| == |trackers|
      && forall i :: 0 <= i < |trackers| ==>
           after[i] == trackers[i]
           || (after[i].received + after[i].balance == after[i].saleAmount
               && after[i].status == StatusFor(after[i].received, after[i].saleAmount))
  {
    if |ls| > 0 {
      ProcessConsistent(trackers, ls[..|ls| - 1]);
    }
  }

  /** An entry no row finds is not changed at all. */
  lemma {:induction false} ProcessUntouched(trackers: seq<Tracker>, ls: seq<Line>, i: nat)
    requires i < |trackers|
    requires forall k :: 0 <= k < |ls| ==> ls[k].key.None? || FirstWith(trackers, ls[k].key.value) != Some(i)
    ensures |ProcessLines(trackers, ls).trackers| == |trackers| && ProcessLines(trackers, ls).trackers[i] == trackers[i]
  {
    if |ls| > 0 {
      var init, l := ls[..|ls| - 1], ls[|ls| - 1];
      assert forall k :: 0 <= k < |init| ==> init[k] == ls[k];
      ProcessUntouched(trackers, init, i);
      ProcessReceived(trackers, init);
      var before := ProcessLines(trackers, init).trackers;
      if l.key.Some? {
        FirstWithSameEntries(before, trackers, l.key.value);
      }
    }
  }

  /** With amounts that are never negative, what an entry has received never goes down. */
  lemma {:induction false} PaidToNonNegative(trackers: seq<Tracker>, ls: seq<Line>, i: nat)
    requires forall k :: 0 <= k < |ls| ==> ls[k].amount >= 0.0
    ensures PaidTo(trackers, ls, i) >= 0.0
  {
    if |ls| > 0 {
      assert forall k :: 0 <= k < |ls| - 1 ==> ls[..|ls| - 1][k] == ls[k];
      PaidToNonNegative(trackers, ls[..|ls| - 1], i);
    }
  }

  lemma {:induction false} ReceivedNeverDecreases(trackers: seq<Tracker>, ls: seq<Line>)
    requires forall k :: 0 <= k < |ls| ==> ls[k].amount >= 0.0
    ensures var after := ProcessLines(trackers, ls).trackers;
      |after| == |trackers| && forall i :: 0 <= i < |trackers| ==> after[i].received >= trackers[i].received
  {
    ProcessReceived(trackers, ls);
    forall i | 0 <= i < |trackers| ensures PaidTo(trackers, ls, i) >= 0.0 {
      PaidToNonNegative(trackers, ls, i);
    }
  }

  /** A negative amount is applied as it stands: an entry can go back below what it had. */
  lemma {:induction false} NegativeAmountReduces(t: Tracker, amount: real, date: string)
    requires amount < 0.0
    ensures Pay(t, amount, date).received < t.received && Pay(t, amount, date).balance > t.saleAmount - t.received
  {
  }

  /** Two payments for the same entry give the same amounts and status in either order;
      only the payment date, the last row's, differs. */
  lemma {:induction false} PaymentsCommute(t: Tracker, a: real, b: real, da: string, db: string)
    ensures Pay(Pay(t, a, da), b, db).(paymentDate := "") == Pay(Pay(t, b, db), a, da).(paymentDate := "")
    ensures Pay(Pay(t, a, da), b, db).paymentDate == db
  {
  }
}

=== FILE: salesimport.dfy ===
/**
 The sales import (`validateAndImport` and `generateInvoices`).

 Every row is checked in order against the barcodes already stored and those
 accepted earlier in the file; if any row fails nothing is written. Otherwise
 each accepted row becomes a Sales row, a PaymentTracker row and a GST row
 (fixed margin 500), the three written lists are reconciled, and invoices can
 then be generated, one per sale date, numbered by counting the invoices of
 the financial year.
 */
module SalesImport {
  import opened Common
  import opened Dates
  import opened Entities
  import opened FiscalYear
  import opened Numbering
  import opened Grouping
  import opened AmountWords

  /** The GST margin the sales import assumes for every sale. */
  const FixedMargin: real := 500.0

  /** `barcode.toString().trim()`. */
  function BarcodeKey(c: Cell): string {
    Trim(Show(c))
  }

  /** `row[col] || ''`, as it is later printed. */
  function TextOr(row: Row, col: string): string {
    Show(Or(Get(row, col), Text("")))
  }

  /** The Sales record an accepted row becomes. */
  function SaleOf(row: Row, batchId: string, today: Date): Sale
    requires ValidDate(today)
  {
    Sale("", batchId, BarcodeKey(Get(row, "BARCODE")), TextOr(row, "Description"), TextOr(row, "Colour"),
      TextOr(row, "Size"), Numeric(Or(Get(row, "Price"), Num(0.0, "0"))), NormalizeSalesDate(Get(row, "Date"), today))
  }

  // ------------------------------------------------------------ validation

  /** What the validation looks at in a row: whether it has a barcode (JavaScript truthiness),
      and if so its trimmed text and its text as printed in a message. */
  datatype Probe = NoBarcode | Barcode(key: string, shown: string)

  function ProbeOf(row: Row): Probe {
    var b := Get(row, "BARCODE");
    if Truthy(b) then Barcode(BarcodeKey(b), Show(b)) else NoBarcode
  }

  function Probes(rows: seq<Row>): (ps: seq<Probe>)
    ensures |ps| == |rows|
  {
    if |rows| == 0 then [] else Probes(rows[..|rows| - 1]) + [ProbeOf(rows[|rows| - 1])]
  }

  /** The probe of each row is taken from that row alone. */
  lemma {:induction false} ProbesPointwise(rows: seq<Row>)
    ensures forall i :: 0 <= i < |rows| ==> Probes(rows)[i] == ProbeOf(rows[i])
  {
    if |rows| > 0 {
      ProbesPointwise(rows[..|rows| - 1]);
    }
  }

  /** The state of the validation pass: the errors, the indices of the accepted rows, and
      the barcodes seen so far. */
  datatype Pass = Pass(errors: seq<RowError>, accepted: seq<nat>, seen: set<string>)

  /** One row of the pass. A row fails once at most: a missing barcode, or one already seen. */
  function CheckRow(p: Pass, probe: Probe, index: nat): Pass {
    match probe
    case NoBarcode => Pass(p.errors + [RowError(RowNumber(index), "Missing BARCODE")], p.accepted, p.seen)
    case Barcode(key, shown) =>
      if key in p.seen then Pass(p.errors + [RowError(RowNumber(index), "Duplicate BARCODE: " + shown)], p.accepted, p.seen)
      else Pass(p.errors, p.accepted + [index], p.seen + {key})
  }

  /** The validation pass over the rows, starting from the stored barcodes. */
  function Validate(ps: seq<Probe>, stored: set<string>): (p: Pass)
    ensures |p.errors| + |p.accepted| == |ps|
    ensures forall k :: 0 <= k < |p.accepted| ==> p.accepted[k] < |ps|
  {
    if |ps| == 0 then Pass([], [], stored)
    else CheckRow(Validate(ps[..|ps| - 1], stored), ps[|ps| - 1], |ps| - 1)
  }

  /** The errors are reported on spreadsheet rows 2 .. |rows| + 1, at most one per row. */
  lemma {:induction false} ValidateOnePerRow(ps: seq<Probe>, stored: set<string>)
    ensures var e := Validate(ps, stored).errors;
      OnePerRow(e) && forall i :: 0 <= i < |e| ==> 2 <= e[i].row < |ps| + 2
  {
    if |ps| > 0 {
      ValidateOnePerRow(ps[..|ps| - 1], stored);
    }
  }

  /** Reference for the set of seen barcodes: those of every row with a barcode, whether or
      not that row was accepted. */
  function FileKeys(ps: seq<Probe>): set<string> {
    if |ps| == 0 then {}
    else FileKeys(ps[..|ps| - 1]) + (if ps[|ps| - 1].Barcode? then {ps[|ps| - 1].key} else {})
  }

  /** A row is accepted exactly when it has a barcode that is neither stored nor carried by an
      earlier row of the file. */
  predicate Accepted(ps: seq<Probe>, i: nat, stored: set<string>)
    requires i < |ps|
  {
    ps[i].Barcode? && ps[i].key !in stored + FileKeys(ps[..i])
  }

  /** The pass's set of seen barcodes is the stored barcodes plus those of the file so far. */
  lemma {:induction false} ValidateSeen(ps: seq<Probe>, stored: set<string>)
    ensures Validate(ps, stored).seen == stored + FileKeys(ps)
  {
    if |ps| > 0 {
      ValidateSeen(ps[..|ps| - 1], stored);
    }
  }

  /** Whether a row is accepted depends only on the rows before it. */
  lemma {:induction false} AcceptedOfPrefix(ps: seq<Probe>, n: nat, stored: set<string>)
    requires n <= |ps|
    ensures forall i :: 0 <= i < n ==> Accepted(ps, i, stored) == Accepted(ps[..n], i, stored)
  {
    forall i | 0 <= i < n
      ensures Accepted(ps, i, stored) == Accepted(ps[..n], i, stored)
    {
      assert ps[..i] == ps[..n][..i];
    }
  }

  /** The pass accepts exactly the rows `Accepted` describes, in file order. */
  lemma {:induction false} ValidateAccepts(ps: seq<Probe>, stored: set<string>)
    ensures var a := Validate(ps, stored).accepted;
      (forall k, l :: 0 <= k < l < |a| ==> a[k] < a[l])
      && forall i :: 0 <= i < |ps| ==> (i in a <==> Accepted(ps, i, stored))
  {
    if |ps| > 0 {
      var n := |ps| - 1;
      ValidateAccepts(ps[..n], stored);
      ValidateSeen(ps[..n], stored);
      AcceptedOfPrefix(ps, n, stored);
    }
  }

  /** The pass reports no error exactly when every row is accepted. */
  lemma {:induction false} ValidateClean(ps: seq<Probe>, stored: set<string>)
    ensures |Validate(ps, stored).errors| == 0 <==> forall i :: 0 <= i < |ps| ==> Accepted(ps, i, stored)
  {
    if |ps| > 0 {
      var n := |ps| - 1;
      var prev := Validate(ps[..n], stored);
      ValidateClean(ps[..n], stored);
      ValidateSeen(ps[..n], stored);
      AcceptedOfPrefix(ps, n, stored);
      assert Validate(ps, stored) == CheckRow(prev, ps[n], n);
      if Accepted(ps, n, stored) {
        assert Validate(ps, stored).errors == prev.errors;
      } else {
        assert |Validate(ps, stored).errors| == |prev.errors| + 1;
      }
    }
  }

  /** A barcode carried by row `i` is among the file's barcodes before any later row. */
  lemma {:induction false} KeyIsEarlier(ps: seq<Probe>, i: nat, j: nat)
    requires i < j <= |ps| && ps[i].Barcode?
    ensures ps[i].key in FileKeys(ps[..j])
  {
    if i < j - 1 {
      KeyIsEarlier(ps, i, j - 1);
      assert ps[..j][..j - 1] == ps[..j - 1];
    } else {
      assert ps[..j][..j - 1] == ps[..i];
    }
  }

  /** Accepted rows carry barcodes that are new to the store and pairwise distinct. */
  lemma {:induction false} AcceptedAreFresh(ps: seq<Probe>, stored: set<string>, i: nat, j: nat)
    requires i < j < |ps| && Accepted(ps, i, stored) && Accepted(ps, j, stored)
    ensures ps[i].key !in stored && ps[i].key != ps[j].key
  {
    KeyIsEarlier(ps, i, j);
  }

  /** Of two rows with the same new barcode, the first is accepted and the second is
      reported as a duplicate on its spreadsheet row. */
  lemma {:induction false} FirstDuplicateWins(key: string, shown1: string, shown2: string, stored: set<string>)
    requires key !in stored
    ensures var p := Validate([Barcode(key, shown1), Barcode(key, shown2)], stored);
      p.accepted == [0] && p.errors == [RowError(3, "Duplicate BARCODE: " + shown2)]
  {
    var ps := [Barcode(key, shown1), Barcode(key, shown2)];
    assert ps[..1] == [Barcode(key, shown1)] && ps[..1][..0] == [];
    assert Validate(ps[..1][..0], stored) == Pass([], [], stored);
    var p1 := Validate(ps[..1], stored);
    assert p1 == CheckRow(Pass([], [], stored), Barcode(key, shown1), 0);
    assert p1 == Pass([], [0], stored + {key});
    assert Validate(ps, stored) == CheckRow(p1, Barcode(key, shown2), 1);
  }

  /** The rows at the given indices, in that order. */
  function Picked(rows: seq<Row>, indices: seq<nat>): (rs: seq<Row>)
    requires forall k :: 0 <= k < |indices| ==> indices[k] < |rows|
    ensures |rs| == |indices| && forall k :: 0 <= k < |indices| ==> rs[k] == rows[indices[k]]
  {
    if |indices| == 0 then [] else Picked(rows, indices[..|indices| - 1]) + [rows[indices[|indices| - 1]]]
  }

  /** The Sales records of the given rows, in order. */
  function Records(rows: seq<Row>, batchId: string, today: Date): (rs: seq<Sale>)
    requires ValidDate(today)
    ensures |rs| == |rows|
  {
    Map(rows, row => SaleOf(row, batchId, today))
  }

  /** Each record carries the batch id, its own row's trimmed barcode, its price (0 when
      the cell is missing) and its normalised date. */
  lemma {:induction false} RecordsPointwise(rows: seq<Row>, batchId: string, today: Date)
    requires ValidDate(today)
    ensures var rs := Records(rows, batchId, today);
      forall k :: 0 <= k < |rows| ==>
        rs[k].batchId == batchId && rs[k].barcode == BarcodeKey(Get(rows[k], "BARCODE"))
        && rs[k].price == Numeric(Or(Get(rows[k], "Price"), Num(0.0, "0")))
        && rs[k].saleDate == NormalizeSalesDate(Get(rows[k], "Date"), today)
        && rs[k].description == TextOr(rows[k], "Description")
  {
  }

  // ------------------------------------------------------------ derived records

  function TrackerOf(s: Sale): Tracker {
    Tracker("", s.barcode, s.price, 0.0, s.price, "unpaid", s.saleDate, "")
  }

  function GstOf(s: Sale, srNo: int): GstRec {
    GstRec("", Some(srNo), s.barcode, s.description, s.colour, s.size, s.price, FixedMargin,
      s.price - FixedMargin, FixedMargin * GstRate, MonthOf(s.saleDate), YearOf(s.saleDate), "draft", s.saleDate)
  }

  /** `validRecords.map(...)` to PaymentTracker entries: each owes its whole price. */
  function Trackers(records: seq<Sale>): (ts: seq<Tracker>)
    ensures |ts| == |records|
    ensures forall i :: 0 <= i < |records| ==>
      ts[i].barcode == records[i].barcode && ts[i].saleAmount == ts[i].balance == records[i].price
      && ts[i].received == 0.0 && ts[i].status == "unpaid" && ts[i].saleDate == records[i].saleDate
  {
    if |records| == 0 then [] else Trackers(records[..|records| - 1]) + [TrackerOf(records[|records| - 1])]
  }

  /** `validRecords.map(...)` to GST entries, numbered on from the stored count. */
  function GstEntries(records: seq<Sale>, existing: nat): (gs: seq<GstRec>)
    ensures |gs| == |records|
    ensures forall i :: 0 <= i < |records| ==>
      gs[i].barcode == records[i].barcode && gs[i].saleAmount == records[i].price
      && gs[i].margin == 500.0 && gs[i].purchase + gs[i].margin == gs[i].saleAmount
      && gs[i].gst == 90.0 && gs[i].srNo == Some(existing + i + 1)
  {
    if |records| == 0 then []
    else GstEntries(records[..|records| - 1], existing) + [GstOf(records[|records| - 1], existing + |records|)]
  }

  // ------------------------------------------------------------ import and reconciliation

  /** The outcome: the row errors when anything failed, otherwise what was written and
      whether the reconciliation check passed. */
  datatype Outcome = Rejected(errors: seq<RowError>) | Written(sales: seq<Sale>, trackers: seq<Tracker>, gst: seq<GstRec>, reconciled: bool)

  function Abs(x: real): real {
    if x < 0.0 then -x else x
  }

  /** The post-write check: the three counts agree and both sibling totals are within 0.01
      of the sales total. The totals are those of the lists sent; the counts those returned. */
  predicate Reconciled(salesCount: nat, paymentsCount: nat, gstCount: nat, salesTotal: real, paymentsTotal: real, gstTotal: real) {
    !(salesCount != paymentsCount || salesCount != gstCount)
    && !(Abs(salesTotal - paymentsTotal) > 0.01 || Abs(salesTotal - gstTotal) > 0.01)
  }

  function Price(s: Sale): real {
    s.price
  }

  function SaleAmount(t: Tracker): real {
    t.saleAmount
  }

  function GstSaleAmount(g: GstRec): real {
    g.saleAmount
  }

  /** `validateAndImport`, with the store's answers as the model's own: every bulk create
      returns the rows it was given. */
  function StoredBarcodes(store: Store): set<string> {
    set i | 0 <= i < |store.sales| :: store.sales[i].barcode
  }

  function ImportSales(store: Store, rows: seq<Row>, batchId: string, today: Date): (result: (Store, Outcome))
    requires ValidDate(today)
  {
    var p := Validate(Probes(rows), StoredBarcodes(store));
    if |p.errors| > 0 then (store, Rejected(p.errors))
    else Write(store, Records(Picked(rows, p.accepted), batchId, today))
  }

  /** The three bulk creates and the reconciliation check that follows them. */
  function Write(store: Store, records: seq<Sale>): (Store, Outcome) {
    var ts := Trackers(records);
    var gs := GstEntries(records, |store.gst|);
    var ok := Reconciled(|records|, |ts|, |gs|, Sum(records, Price), Sum(ts, SaleAmount), Sum(gs, GstSaleAmount));
    (store.(sales := store.sales + records, trackers := store.trackers + ts, gst := store.gst + gs),
     Written(records, ts, gs, ok))
  }

  /** All or nothing: the import is rejected, with the store untouched, exactly when some row
      is not accepted; otherwise every row became one sale with one tracker row and one GST row. */
  lemma {:induction false} ImportAllOrNothing(store: Store, rows: seq<Row>, batchId: string, today: Date)
    requires ValidDate(today)
    ensures var (after, out) := ImportSales(store, rows, batchId, today);
      (out.Rejected? <==> exists i :: 0 <= i < |rows| && !Accepted(Probes(rows), i, StoredBarcodes(store)))
      && (out.Rejected? ==> after == store && |out.errors| > 0)
  {
    var ps, stored := Probes(rows), StoredBarcodes(store);
    ValidateClean(ps, stored);
    if |Validate(ps, stored).errors| > 0 {
      var i :| 0 <= i < |ps| && !Accepted(ps, i, stored);
      assert 0 <= i < |rows| && !Accepted(Probes(rows), i, StoredBarcodes(store));
      assert ImportSales(store, rows, batchId, today) == (store, Rejected(Validate(ps, stored).errors));
      var (after, out) := ImportSales(store, rows, batchId, today);
      assert out.Rejected?;
      assert exists j :: 0 <= j < |rows| && !Accepted(Probes(rows), j, StoredBarcodes(store));
    } else {
      assert ImportSales(store, rows, batchId, today).1.Written?;
    }
  }

  /** A written import holds one sale, one tracker row and one GST row per spreadsheet row,
      appended to the stored tables; the invoice tables are untouched. */
  lemma {:induction false} ImportWritesEveryRow(store: Store, rows: seq<Row>, batchId: string, today: Date)
    requires ValidDate(today)
    ensures var (after, out) := ImportSales(store, rows, batchId, today);
      out.Written? ==>
            |out.sales| == |out.trackers| == |out.gst| == |rows|
            && after.sales == store.sales + out.sales && after.trackers == store.trackers + out.trackers
            && after.gst == store.gst + out.gst && after.invoices == store.invoices && after.items == store.items
  {
    var p := Validate(Probes(rows), StoredBarcodes(store));
    if |p.errors| == 0 {
      var records := Records(Picked(rows, p.accepted), batchId, today);
      assert |records| == |rows|;
    }
  }

  /** The sibling lists are maps over the sales, so their totals equal the sales total. */
  lemma {:induction false} SiblingTotals(records: seq<Sale>, existing: nat)
    ensures Sum(Trackers(records), SaleAmount) == Sum(records, Price)
    ensures Sum(GstEntries(records, existing), GstSaleAmount) == Sum(records, Price)
  {
    SumPointwise(Trackers(records), records, SaleAmount, Price);
    SumPointwise(GstEntries(records, existing), records, GstSaleAmount, Price);
  }

  /** With the totals taken from the lists sent, the check fails exactly when the store
      returns a different number of rows than it was sent. */
  lemma {:induction false} ReconcileFailsIffCountsDiffer(records: seq<Sale>, existing: nat, paymentsCount: nat, gstCount: nat)
    ensures var total := Sum(records, Price);
      !Reconciled(|records|, paymentsCount, gstCount, total, Sum(Trackers(records), SaleAmount), Sum(GstEntries(records, existing), GstSaleAmount))
      <==> paymentsCount != |records| || gstCount != |records|
  {
    SiblingTotals(records, existing);
  }

  /** Writing any list of sales passes the reconciliation check. */
  lemma {:induction false} WriteReconciles(store: Store, records: seq<Sale>)
    ensures Write(store, records).1.reconciled
  {
    SiblingTotals(records, |store.gst|);
  }

  /** Whenever the import writes, the reconciliation passes. */
  lemma {:induction false} ImportReconciles(store: Store, rows: seq<Row>, batchId: string, today: Date)
    requires ValidDate(today)
    ensures ImportSales(store, rows, batchId, today).1.Written? ==> ImportSales(store, rows, batchId, today).1.reconciled
  {
    var p := Validate(Probes(rows), StoredBarcodes(store));
    if |p.errors| == 0 {
      WriteReconciles(store, Records(Picked(rows, p.accepted), batchId, today));
    }
  }

  // ------------------------------------------------------------ invoice generation

  function SaleDate(s: Sale): string {
    s.saleDate
  }

  /** The items of one generated invoice: one pair per sale at its price. */
  function InvoiceItems(invoiceId: string, sales: seq<Sale>): (items: seq<Item>)
    ensures |items| == |sales|
    ensures forall i :: 0 <= i < |sales| ==>
      items[i].invoiceId == invoiceId && items[i].rowIndex == i && items[i].barcode == sales[i].barcode
      && items[i].quantity == 1.0 && items[i].rate == items[i].amount == sales[i].price
      && items[i].description == ItemDescription(sales[i].description, sales[i].colour, sales[i].size)
  {
    if |sales| == 0 then []
    else
      var s := sales[|sales| - 1];
      InvoiceItems(invoiceId, sales[..|sales| - 1])
      + [Item("", invoiceId, |sales| - 1, s.barcode, ItemDescription(s.description, s.colour, s.size), ShoeHsn, 1.0, PairUnit, s.price, s.price)]
  }

  /** The number of stored invoices of financial year `fy`. */
  function FyCount(invoices: seq<Invoice>, fy: string): nat {
    Count(invoices, (inv: Invoice) => inv.fy == fy)
  }

  /** One date group becomes one invoice, numbered by the count of its year's invoices plus one. */
  function AddInvoice(store: Store, g: Group<string, Sale>, client: string, code: Option<string>, id: string): Store {
    var fy := FinancialYearOf(g.key);
    var total := Sum(g.items, Price);
    var number := CountedInvoiceNumber(code, fy, FyCount(store.invoices, fy));
    var inv := Invoice(id, number, g.key, fy, client, |g.items| as real, total, AmountInWords(total), "draft");
    store.(invoices := store.invoices + [inv], items := store.items + InvoiceItems(id, g.items))
  }

  /** The invoice loop, one group at a time; `newId(k)` is the id the server gives the k-th invoice. */
  function AddInvoices(store: Store, groups: seq<Group<string, Sale>>, client: string, code: Option<string>, newId: nat -> string, k: nat): Store
    decreases |groups|
  {
    if |groups| == 0 then store
    else AddInvoices(AddInvoice(store, groups[0], client, code, newId(k)), groups[1..], client, code, newId, k + 1)
  }

  /** `generateInvoices`: nothing without a selected client; otherwise one invoice per sale date. */
  function GenerateInvoices(store: Store, records: seq<Sale>, client: Option<string>, code: Option<string>, newId: nat -> string): Store {
    if client.None? then store
    else AddInvoices(store, GroupBy(records, SaleDate), client.value, code, newId, 0)
  }

  /** The invoice of a date group: the sequence after its number is the year's count plus one,
      its quantity is the number of sales and its total their prices' sum. */
  lemma {:induction false} AddInvoiceFields(store: Store, g: Group<string, Sale>, client: string, code: Option<string>, id: string)
    ensures var after := AddInvoice(store, g, client, code, id);
      var inv := after.invoices[|after.invoices| - 1];
      |after.invoices| == |store.invoices| + 1 && after.invoices[..|store.invoices|] == store.invoices
      && inv.fy == FinancialYearOf(g.key) && inv.date == g.key && inv.status == "draft"
      && ExtractNumber(Some(inv.number)) == FyCount(store.invoices, inv.fy) + 1
      && inv.totalQuantity == |g.items| as real && inv.grandTotal == Sum(g.items, Price)
      && after.items == store.items + InvoiceItems(id, g.items)
  {
  }

  /** Each generated invoice raises the count of its own financial year by one and leaves the
      other years' counts alone. */
  lemma {:induction false} AddInvoiceCounts(store: Store, g: Group<string, Sale>, client: string, code: Option<string>, id: string, fy: string)
    ensures FyCount(AddInvoice(store, g, client, code, id).invoices, fy)
         == FyCount(store.invoices, fy) + (if FinancialYearOf(g.key) == fy then 1 else 0)
  {
    var after := AddInvoice(store, g, client, code, id);
    FilterAppend(store.invoices, [after.invoices[|after.invoices| - 1]], (inv: Invoice) => inv.fy == fy);
  }

  /** Generation adds one invoice per group and one item per sale, and the item amounts add
      up to the sales' prices. */
  lemma {:induction false} AddInvoicesTotals(store: Store, groups: seq<Group<string, Sale>>, client: string, code: Option<string>, newId: nat -> string, k: nat)
    ensures var after := AddInvoices(store, groups, client, code, newId, k);
      |after.invoices| == |store.invoices| + |groups| && |after.items| == |store.items| + ItemCount(groups)
      && Sum(after.items, ItemAmount) == Sum(store.items, ItemAmount) + SumItems(groups, Price)
    decreases |groups|
  {
    if |groups| > 0 {
      var next := AddInvoice(store, groups[0], client, code, newId(k));
      var added := InvoiceItems(newId(k), groups[0].items);
      SumAppend(store.items, added, ItemAmount);
      SumPointwise(added, groups[0].items, ItemAmount, Price);
      AddInvoicesTotals(next, groups[1..], client, code, newId, k + 1);
    }
  }

  function ItemAmount(it: Item): real {
    it.amount
  }

  /** Every imported sale ends up on exactly one generated invoice: one item per sale, and
      the items' amounts add up to the sales total. */
  lemma {:induction false} GenerateCoversSales(store: Store, records: seq<Sale>, client: string, code: Option<string>, newId: nat -> string)
    ensures var after := GenerateInvoices(store, records, Some(client), code, newId);
      |after.items| == |store.items| + |records|
      && Sum(after.items, ItemAmount) == Sum(store.items, ItemAmount) + Sum(records, Price)
      && |after.invoices| == |store.invoices| + |FirstKeys(records, SaleDate)|
  {
    var gs := GroupBy(records, SaleDate);
    GroupByTotals(records, SaleDate, Price);
    GroupByIsPartition(records, SaleDate);
    AddInvoicesTotals(store, gs, client, code, newId, 0);
  }
}

=== FILE: salespage.dfy ===
/**
 The Sales page: the stored sales listed by import batch, and the two deletes
 it offers. Deleting a batch removes the batch's sales together with the
 payment-tracker and GST rows of their barcodes; deleting one sale removes
 the rows of its barcode in the tracker, GST and invoice-item tables, and
 every invoice left without items. The store is passed in and returned.
 */
module SalesPage {
  import opened Common
  import opened Entities
  import opened Grouping

  // ------------------------------------------------------------ batches

  /** The batch a sale is listed under: its import batch id, or "UNKNOWN" when it has none. */
  function BatchKey(x: Sale): string {
    if x.batchId == "" then "UNKNOWN" else x.batchId
  }

  function Price(x: Sale): real {
    x.price
  }

  /** A batch as the page shows it; `importDate` is the sale date of its first sale. */
  datatype Batch = Batch(batchId: string, items: seq<Sale>, count: nat, totalValue: real, importDate: Option<string>)

  function BatchOf(g: Group<string, Sale>): Batch {
    Batch(g.key, g.items, |g.items|, Sum(g.items, Price), if |g.items| == 0 then None else Some(g.items[0].saleDate))
  }

  /** `groupedSales` read back as `batches`. */
  function Batches(sales: seq<Sale>): seq<Batch> {
    Map(GroupBy(sales, BatchKey), BatchOf)
  }

  function BatchIds(bs: seq<Batch>): (ids: seq<string>)
    ensures |ids| == |bs| && forall i :: 0 <= i < |bs| ==> ids[i] == bs[i].batchId
  {
    if |bs| == 0 then [] else [bs[0].batchId] + BatchIds(bs[1..])
  }

  /** The batches are the distinct batch keys in order of first appearance; each holds exactly
      the sales of its key in list order, is never empty, counts and totals its own sales, and
      is dated by the first of them. */
  lemma {:induction false} BatchesPartitionSales(sales: seq<Sale>)
    ensures var bs := Batches(sales);
      BatchIds(bs) == FirstKeys(sales, BatchKey)
      && forall i :: 0 <= i < |bs| ==>
           bs[i].items == Members(sales, BatchKey, bs[i].batchId)
           && 0 < bs[i].count == |bs[i].items|
           && bs[i].totalValue == Sum(bs[i].items, Price)
           && bs[i].importDate == Some(bs[i].items[0].saleDate)
  {
    var gs := GroupBy(sales, BatchKey);
    var bs := Batches(sales);
    GroupByIsPartition(sales, BatchKey);
    GroupByNonEmpty(sales, BatchKey);
    assert BatchIds(bs) == KeysOf(gs);
  }

  /** The batches' ids and members, without the figures. */
  lemma {:induction false} BatchMembers(sales: seq<Sale>)
    ensures var bs := Batches(sales);
      BatchIds(bs) == FirstKeys(sales, BatchKey)
      && forall i :: 0 <= i < |bs| ==> bs[i].items == Members(sales, BatchKey, bs[i].batchId)
  {
    var bs := Batches(sales);
    GroupByIsPartition(sales, BatchKey);
    assert BatchIds(bs) == KeysOf(GroupBy(sales, BatchKey));
  }

  /** No two batches share an id. */
  lemma {:induction false} BatchIdsDistinct(sales: seq<Sale>)
    ensures var bs := Batches(sales);
      forall i, j :: 0 <= i < j < |bs| ==> bs[i].batchId != bs[j].batchId
  {
    var bs := Batches(sales);
    BatchMembers(sales);
    FirstKeysDistinct(sales, BatchKey);
    var ks := FirstKeys(sales, BatchKey);
    forall i, j | 0 <= i < j < |bs| ensures bs[i].batchId != bs[j].batchId {
      assert BatchIds(bs)[i] == ks[i] && BatchIds(bs)[j] == ks[j];
    }
  }

  /** Every sale is listed in the batch of its key... */
  lemma {:induction false} SaleInItsBatch(sales: seq<Sale>, k: nat)
    requires k < |sales|
    ensures var bs := Batches(sales);
      exists j :: 0 <= j < |bs| && bs[j].batchId == BatchKey(sales[k]) && sales[k] in bs[j].items
  {
    var bs := Batches(sales);
    var x := sales[k];
    BatchMembers(sales);
    FirstKeysDistinct(sales, BatchKey);
    var ks := FirstKeys(sales, BatchKey);
    assert BatchKey(x) in ks;
    var j :| 0 <= j < |ks| && ks[j] == BatchKey(x);
    assert BatchIds(bs)[j] == ks[j];
    assert bs[j].items == Members(sales, BatchKey, BatchKey(x));
    InMembers(sales, BatchKey(x), k);
    assert 0 <= j < |bs| && bs[j].batchId == BatchKey(x) && x in bs[j].items;
  }

  /** ...and in no other. */
  lemma {:induction false} SaleOnlyInItsBatch(sales: seq<Sale>, x: Sale, j: nat)
    requires j < |Batches(sales)| && x in Batches(sales)[j].items
    ensures Batches(sales)[j].batchId == BatchKey(x)
  {
    var bs := Batches(sales);
    BatchMembers(sales);
    var ms := Members(sales, BatchKey, bs[j].batchId);
    assert bs[j].items == ms;
    var m :| 0 <= m < |ms| && ms[m] == x;
  }

  lemma {:induction false} InMembers(sales: seq<Sale>, key: string, k: nat)
    requires k < |sales| && BatchKey(sales[k]) == key
    ensures sales[k] in Members(sales, BatchKey, key)
  {
  }

  /** The batch counts and batch totals over all batches. */
  function CountOfBatches(bs: seq<Batch>): nat {
    if |bs| == 0 then 0 else bs[0].count + CountOfBatches(bs[1..])
  }

  function ValueOfBatches(bs: seq<Batch>): real {
    if |bs| == 0 then 0.0 else bs[0].totalValue + ValueOfBatches(bs[1..])
  }

  lemma {:induction false} BatchesOfGroups(gs: seq<Group<string, Sale>>)
    ensures CountOfBatches(Map(gs, BatchOf)) == ItemCount(gs)
    ensures ValueOfBatches(Map(gs, BatchOf)) == SumItems(gs, Price)
  {
    if |gs| > 0 {
      assert Map(gs, BatchOf)[1..] == Map(gs[1..], BatchOf);
      BatchesOfGroups(gs[1..]);
    }
  }

  /** The batch counts add up to the number of sales and the batch totals to the sum of all prices. */
  lemma {:induction false} BatchTotals(sales: seq<Sale>)
    ensures CountOfBatches(Batches(sales)) == |sales|
    ensures ValueOfBatches(Batches(sales)) == Sum(sales, Price)
  {
    GroupByTotals(sales, BatchKey, Price);
    BatchesOfGroups(GroupBy(sales, BatchKey));
  }

  // ------------------------------------------------------------ deleting a batch

  /** The ids of the stored sales whose batch id is exactly `batchId` (`Sales.filter`). */
  function BatchSaleIds(sales: seq<Sale>, batchId: string): set<string> {
    set x | x in sales && x.batchId == batchId :: x.id
  }

  /** The non-empty barcodes of those sales (`uniqueBarcodes`). */
  function BatchBarcodes(sales: seq<Sale>, batchId: string): set<string> {
    set x | x in sales && x.batchId == batchId && x.barcode != "" :: x.barcode
  }

  /** `handleDeleteBatch`: nothing happens for a batch without an id; otherwise the tracker and
      GST rows of the batch's barcodes go, and then the batch's sales, each by its id. */
  function DeleteBatch(s: Store, batchId: string): (r: Store)
    ensures batchId == "" ==> r == s
    ensures batchId != "" ==>
      (forall x :: x in r.sales <==> x in s.sales && x.id !in BatchSaleIds(s.sales, batchId))
      && (forall t :: t in r.trackers <==> t in s.trackers && t.barcode !in BatchBarcodes(s.sales, batchId))
      && (forall g :: g in r.gst <==> g in s.gst && g.barcode !in BatchBarcodes(s.sales, batchId))
      && r.invoices == s.invoices && r.items == s.items
  {
    if batchId == "" then s
    else
      var ids := BatchSaleIds(s.sales, batchId);
      var codes := BatchBarcodes(s.sales, batchId);
      s.(sales := Filter(s.sales, (x: Sale) => x.id !in ids),
         trackers := Filter(s.trackers, (t: Tracker) => t.barcode !in codes),
         gst := Filter(s.gst, (g: GstRec) => g.barcode !in codes))
  }

  /** Afterwards no sale carries the batch id, and no tracker or GST row carries the barcode
      of any sale the batch had. */
  lemma {:induction false} DeleteBatchClears(s: Store, batchId: string)
    requires batchId != ""
    ensures var r := DeleteBatch(s, batchId);
      (forall x :: x in r.sales ==> x.batchId != batchId)
      && (forall x, t :: x in s.sales && x.batchId == batchId && x.barcode != "" && t in r.trackers ==> t.barcode != x.barcode)
      && (forall x, g :: x in s.sales && x.batchId == batchId && x.barcode != "" && g in r.gst ==> g.barcode != x.barcode)
  {
    var r := DeleteBatch(s, batchId);
    forall x | x in r.sales ensures x.batchId != batchId {
      assert x.id !in BatchSaleIds(s.sales, batchId);
    }
    forall x, t | x in s.sales && x.batchId == batchId && x.barcode != "" && t in r.trackers
      ensures t.barcode != x.barcode
    {
      assert x.barcode in BatchBarcodes(s.sales, batchId);
    }
    forall x, g | x in s.sales && x.batchId == batchId && x.barcode != "" && g in r.gst
      ensures g.barcode != x.barcode
    {
      assert x.barcode in BatchBarcodes(s.sales, batchId);
    }
  }

  /** No two stored sales share an id. */
  predicate UniqueSaleIds(sales: seq<Sale>) {
    forall i, j :: 0 <= i < j < |sales| ==> sales[i].id != sales[j].id
  }

  /** With distinct ids the delete reaches no sale of another batch. Sales listed under
      "UNKNOWN" because they have no batch id are among those: deleting the "UNKNOWN" batch
      looks up the literal id "UNKNOWN" and leaves them in place. */
  lemma {:induction false} DeleteBatchKeepsOtherSales(s: Store, batchId: string, x: Sale)
    requires UniqueSaleIds(s.sales)
    requires x in s.sales && x.batchId != batchId
    ensures x in DeleteBatch(s, batchId).sales
  {
  }

  lemma {:induction false} UnknownBatchKeepsUnbatchedSales(s: Store, x: Sale)
    requires UniqueSaleIds(s.sales)
    requires x in s.sales && x.batchId == ""
    ensures BatchKey(x) == "UNKNOWN" && x in DeleteBatch(s, "UNKNOWN").sales
  {
    DeleteBatchKeepsOtherSales(s, "UNKNOWN", x);
  }

  /** Deleting the same batch twice changes nothing more. */
  lemma {:induction false} DeleteBatchIdempotent(s: Store, batchId: string)
    ensures DeleteBatch(DeleteBatch(s, batchId), batchId) == DeleteBatch(s, batchId)
  {
    if batchId != "" {
      var r := DeleteBatch(s, batchId);
      DeleteBatchClears(s, batchId);
      assert BatchSaleIds(r.sales, batchId) == {};
      assert BatchBarcodes(r.sales, batchId) == {};
      FilterKeepsAll(r.sales, (x: Sale) => x.id !in BatchSaleIds(r.sales, batchId));
      FilterKeepsAll(r.trackers, (t: Tracker) => t.barcode !in BatchBarcodes(r.sales, batchId));
      FilterKeepsAll(r.gst, (g: GstRec) => g.barcode !in BatchBarcodes(r.sales, batchId));
    }
  }

  // ------------------------------------------------------------ deleting one sale

  /** The invoices holding an item with the barcode (`affectedInvoiceIds`). */
  function AffectedInvoices(items: seq<Item>, barcode: string): set<string> {
    set it | it in items && it.barcode == barcode :: it.invoiceId
  }

  predicate HasItems(items: seq<Item>, invoiceId: string) {
    exists it :: it in items && it.invoiceId == invoiceId
  }

  /** `handleDeleteRecord`: nothing happens for a sale without a barcode; otherwise the tracker,
      GST and invoice-item rows of its barcode go, then every affected invoice left without
      items, then the sale itself by its id. */
  function DeleteRecord(s: Store, sale: Sale): (r: Store)
    ensures sale.barcode == "" ==> r == s
    ensures sale.barcode != "" ==>
      (forall x :: x in r.sales <==> x in s.sales && x.id != sale.id)
      && (forall t :: t in r.trackers <==> t in s.trackers && t.barcode != sale.barcode)
      && (forall g :: g in r.gst <==> g in s.gst && g.barcode != sale.barcode)
      && (forall it :: it in r.items <==> it in s.items && it.barcode != sale.barcode)
      && forall inv :: inv in r.invoices <==>
           inv in s.invoices && (inv.id in AffectedInvoices(s.items, sale.barcode) ==> HasItems(r.items, inv.id))
  {
    if sale.barcode == "" then s
    else
      var b := sale.barcode;
      var affected := AffectedInvoices(s.items, b);
      var items := Filter(s.items, (it: Item) => it.barcode != b);
      s.(sales := Filter(s.sales, (x: Sale) => x.id != sale.id),
         trackers := Filter(s.trackers, (t: Tracker) => t.barcode != b),
         gst := Filter(s.gst, (g: GstRec) => g.barcode != b),
         items := items,
         invoices := Filter(s.invoices, (inv: Invoice) => inv.id !in affected || HasItems(items, inv.id)))
  }

  /** An invoice without an item of the barcode is kept; one with such an item is kept exactly
      when it also has an item of another barcode. */
  lemma {:induction false} DeleteRecordInvoices(s: Store, sale: Sale, inv: Invoice)
    requires sale.barcode != "" && inv in s.invoices
    ensures !(exists it :: it in s.items && it.invoiceId == inv.id && it.barcode == sale.barcode)
            ==> inv in DeleteRecord(s, sale).invoices
    ensures (exists it :: it in s.items && it.invoiceId == inv.id && it.barcode == sale.barcode)
            ==> (inv in DeleteRecord(s, sale).invoices
                 <==> exists it :: it in s.items && it.invoiceId == inv.id && it.barcode != sale.barcode)
  {
    var r := DeleteRecord(s, sale);
    if exists it :: it in s.items && it.invoiceId == inv.id && it.barcode == sale.barcode {
      var it :| it in s.items && it.invoiceId == inv.id && it.barcode == sale.barcode;
      assert inv.id in AffectedInvoices(s.items, sale.barcode);
      if inv in r.invoices {
        var other :| other in r.items && other.invoiceId == inv.id;
      }
      if exists other :: other in s.items && other.invoiceId == inv.id && other.barcode != sale.barcode {
        var other :| other in s.items && other.invoiceId == inv.id && other.barcode != sale.barcode;
        assert other in r.items;
      }
    }
  }

  /** Every item belongs to a stored invoice. */
  predicate ItemsBelong(s: Store) {
    forall it :: it in s.items ==> exists inv :: inv in s.invoices && inv.id == it.invoiceId
  }

  /** The delete never leaves an item without its invoice: an invoice goes only once it has no
      items left. */
  lemma {:induction false} DeleteRecordKeepsItemsBelonging(s: Store, sale: Sale)
    requires ItemsBelong(s)
    ensures ItemsBelong(DeleteRecord(s, sale))
  {
    var r := DeleteRecord(s, sale);
    if sale.barcode != "" {
      forall it | it in r.items ensures exists inv :: inv in r.invoices && inv.id == it.invoiceId {
        var inv :| inv in s.invoices && inv.id == it.invoiceId;
        assert HasItems(r.items, inv.id);
        assert inv in r.invoices;
      }
    }
  }

  /** Deleting the same sale twice changes nothing more. */
  lemma {:induction false} DeleteRecordIdempotent(s: Store, sale: Sale)
    ensures DeleteRecord(DeleteRecord(s, sale), sale) == DeleteRecord(s, sale)
  {
    if sale.barcode != "" {
      var b := sale.barcode;
      var r := DeleteRecord(s, sale);
      assert AffectedInvoices(r.items, b) == {};
      FilterKeepsAll(r.sales, (x: Sale) => x.id != sale.id);
      FilterKeepsAll(r.trackers, (t: Tracker) => t.barcode != b);
      FilterKeepsAll(r.gst, (g: GstRec) => g.barcode != b);
      FilterKeepsAll(r.items, (it: Item) => it.barcode != b);
      FilterKeepsAll(r.invoices, (inv: Invoice) => inv.id !in AffectedInvoices(r.items, b) || HasItems(r.items, inv.id));
    }
  }
}

=== FILE: sorting.dfy ===
/**
 The column sort of the GST register: `[...records].sort(cmp)` where `cmp`
 compares one column with JavaScript's `<` and `>` and returns -1, 1 or 0,
 flipped for a descending sort. ECMAScript requires `Array.prototype.sort`
 to be stable, so the result is the stable sort by that comparator. `Sort`
 is an insertion sort; the lemmas show it is a permutation, that it is
 ordered, and that records with equal column values keep their relative
 order.
 */
module Sorting {
  import opened Common

  /** A column value as the comparator sees it. */
  datatype Value = Missing | Number(x: real) | Str(s: string)

  /** JavaScript's `<` on two texts: lexicographic on character codes, a proper prefix first. */
  predicate TextLess(a: string, b: string) {
    if |a| == 0 then |b| > 0
    else if |b| == 0 then false
    else a[0] < b[0] || (a[0] == b[0] && TextLess(a[1..], b[1..]))
  }

  function Rank(v: Value): nat {
    match v
    case Missing => 0
    case Number(_) => 1
    case Str(_) => 2
  }

  /** `a < b` on column values: numbers by value, texts lexicographically. A column holds
      one kind of value, so values of different kinds only meet when one is missing; they
      are ranked missing, number, text. */
  predicate Less(a: Value, b: Value) {
    match (a, b)
    case (Number(x), Number(y)) => x < y
    case (Str(s), Str(t)) => TextLess(s, t)
    case _ => Rank(a) < Rank(b)
  }

  lemma {:induction false} TextLessIrreflexive(a: string)
    ensures !TextLess(a, a)
  {
    if |a| > 0 {
      TextLessIrreflexive(a[1..]);
    }
  }

  lemma {:induction false} TextLessTransitive(a: string, b: string, c: string)
    requires TextLess(a, b) && TextLess(b, c)
    ensures TextLess(a, c)
  {
    if |a| > 0 && |b| > 0 && |c| > 0 && a[0] == b[0] == c[0] {
      TextLessTransitive(a[1..], b[1..], c[1..]);
    }
  }

  lemma {:induction false} TextLessTotal(a: string, b: string)
    requires a != b
    ensures TextLess(a, b) || TextLess(b, a)
  {
    if |a| > 0 && |b| > 0 && a[0] == b[0] {
      assert a == [a[0]] + a[1..] && b == [b[0]] + b[1..];
      TextLessTotal(a[1..], b[1..]);
    }
  }

  /** `Less` is a strict total order on values. */
  lemma {:induction false} LessIsOrder(a: Value, b: Value, c: Value)
    ensures !Less(a, a)
    ensures Less(a, b) && Less(b, c) ==> Less(a, c)
    ensures a != b ==> Less(a, b) || Less(b, a)
  {
    if a.Str? {
      TextLessIrreflexive(a.s);
    }
    if a.Str? && b.Str? && c.Str? && TextLess(a.s, b.s) && TextLess(b.s, c.s) {
      TextLessTransitive(a.s, b.s, c.s);
    }
    if a.Str? && b.Str? && a != b {
      TextLessTotal(a.s, b.s);
    }
  }

  /** `cmp(a, b) < 0`: a record with value `a` goes before one with value `b`. */
  predicate Ahead(a: Value, b: Value, descending: bool) {
    if descending then Less(b, a) else Less(a, b)
  }

  /** `Ahead` is a strict weak order: never both ways, and if `a` is ahead of `c` then every
      `b` is behind `a` or ahead of `c`. */
  lemma {:induction false} AheadIsWeakOrder(a: Value, b: Value, c: Value, descending: bool)
    ensures !(Ahead(a, b, descending) && Ahead(b, a, descending))
    ensures Ahead(a, c, descending) ==> Ahead(a, b, descending) || Ahead(b, c, descending)
  {
    LessIsOrder(a, b, a);
    LessIsOrder(a, b, c);
    LessIsOrder(c, b, a);
    LessIsOrder(b, a, c);
    LessIsOrder(b, c, a);
    LessIsOrder(a, c, b);
    LessIsOrder(c, a, b);
  }

  /** Insert `x`, which came after everything in `s`, behind every element it is not ahead of. */
  function Insert<T>(s: seq<T>, x: T, key: T -> Value, descending: bool): (r: seq<T>)
    ensures |r| == |s| + 1
  {
    if |s| == 0 then [x]
    else if Ahead(key(x), key(s[|s| - 1]), descending) then Insert(s[..|s| - 1], x, key, descending) + [s[|s| - 1]]
    else s + [x]
  }

  function Sort<T>(xs: seq<T>, key: T -> Value, descending: bool): (r: seq<T>)
    ensures |r| == |xs|
  {
    if |xs| == 0 then [] else Insert(Sort(xs[..|xs| - 1], key, descending), xs[|xs| - 1], key, descending)
  }

  /** No record is ahead of one placed before it. */
  predicate Ordered<T>(s: seq<T>, key: T -> Value, descending: bool) {
    forall i, j :: 0 <= i < j < |s| ==> !Ahead(key(s[j]), key(s[i]), descending)
  }

  /** The records whose column value is `v`. */
  function WithValue<T>(key: T -> Value, v: Value): T -> bool {
    y => key(y) == v
  }

  lemma {:induction false} InsertPermutes<T>(s: seq<T>, x: T, key: T -> Value, descending: bool)
    ensures multiset(Insert(s, x, key, descending)) == multiset(s) + multiset{x}
  {
    if |s| > 0 {
      var init, last := s[..|s| - 1], s[|s| - 1];
      assert s == init + [last];
      InsertPermutes(init, x, key, descending);
    }
  }

  /** Appending a record that is not ahead of any record keeps a list ordered. */
  lemma OrderedSnoc<T>(t: seq<T>, y: T, key: T -> Value, descending: bool)
    requires Ordered(t, key, descending)
    requires forall i :: 0 <= i < |t| ==> !Ahead(key(y), key(t[i]), descending)
    ensures Ordered(t + [y], key, descending)
  {
    var u := t + [y];
    forall i, j | 0 <= i < j < |u| ensures !Ahead(key(u[j]), key(u[i]), descending) {
      if j < |t| {
        assert u[i] == t[i] && u[j] == t[j];
      } else {
        assert u[i] == t[i] && u[j] == y;
      }
    }
  }

  lemma {:induction false} InsertOrdered<T>(s: seq<T>, x: T, key: T -> Value, descending: bool)
    requires Ordered(s, key, descending)
    ensures Ordered(Insert(s, x, key, descending), key, descending)
  {
    if |s| > 0 {
      var init, last := s[..|s| - 1], s[|s| - 1];
      assert Ordered(init, key, descending);
      if Ahead(key(x), key(last), descending) {
        InsertOrdered(init, x, key, descending);
        InsertPermutes(init, x, key, descending);
        var t := Insert(init, x, key, descending);
        forall i | 0 <= i < |t| ensures !Ahead(key(last), key(t[i]), descending) {
          assert t[i] in multiset(t);
          if t[i] != x {
            var k :| 0 <= k < |init| && init[k] == t[i];
            assert s[k] == t[i];
          } else {
            AheadIsWeakOrder(key(x), key(last), key(x), descending);
          }
        }
        OrderedSnoc(t, last, key, descending);
      } else {
        forall i | 0 <= i < |s| ensures !Ahead(key(x), key(s[i]), descending) {
          AheadIsWeakOrder(key(x), key(last), key(s[i]), descending);
        }
        OrderedSnoc(s, x, key, descending);
      }
    }
  }

  /** Inserting keeps the order among equal values: `x` lands behind every record with its value. */
  lemma {:induction false} InsertStable<T>(s: seq<T>, x: T, key: T -> Value, descending: bool, v: Value)
    ensures Filter(Insert(s, x, key, descending), WithValue(key, v))
         == Filter(s, WithValue(key, v)) + Filter([x], WithValue(key, v))
  {
    var p := WithValue(key, v);
    if |s| == 0 {
      assert Filter([x][1..], p) == [];
    } else {
      var init, last := s[..|s| - 1], s[|s| - 1];
      assert s == init + [last];
      FilterAppend(init, [last], p);
      if Ahead(key(x), key(last), descending) {
        InsertStable(init, x, key, descending, v);
        var t := Insert(init, x, key, descending);
        assert Insert(s, x, key, descending) == t + [last];
        AheadDiffers(x, last, key, descending, v);
        StableAhead(init, t, last, x, p);
      } else {
        assert Insert(s, x, key, descending) == s + [x];
        FilterAppend(s, [x], p);
      }
    }
  }

  /** Passing an element that does not share the inserted element's value keeps the two in
      their filtered order. */
  lemma {:induction false} StableAhead<T>(init: seq<T>, t: seq<T>, last: T, x: T, p: T -> bool)
    requires Filter(t, p) == Filter(init, p) + Filter([x], p)
    requires !(p(x) && p(last))
    ensures Filter(t + [last], p) == Filter(init + [last], p) + Filter([x], p)
  {
    FilterAppend(t, [last], p);
    FilterAppend(init, [last], p);
    assert Filter([last][1..], p) == [] && Filter([x][1..], p) == [];
    assert Filter([x], p) + Filter([last], p) == Filter([last], p) + Filter([x], p);
  }

  /** An element that strictly goes ahead of another does not share its value. */
  lemma {:induction false} AheadDiffers<T>(x: T, y: T, key: T -> Value, descending: bool, v: Value)
    requires Ahead(key(x), key(y), descending)
    ensures !(WithValue(key, v)(x) && WithValue(key, v)(y))
  {
    AheadIsWeakOrder(key(x), key(y), key(x), descending);
    LessIsOrder(key(x), key(x), key(x));
  }

  /** The sort is a permutation of its input. */
  lemma {:induction false} SortPermutes<T>(xs: seq<T>, key: T -> Value, descending: bool)
    ensures multiset(Sort(xs, key, descending)) == multiset(xs)
  {
    if |xs| > 0 {
      var init, x := xs[..|xs| - 1], xs[|xs| - 1];
      assert xs == init + [x];
      SortPermutes(init, key, descending);
      InsertPermutes(Sort(init, key, descending), x, key, descending);
    }
  }

  /** The sort is ordered by the comparator. */
  lemma {:induction false} SortOrdered<T>(xs: seq<T>, key: T -> Value, descending: bool)
    ensures Ordered(Sort(xs, key, descending), key, descending)
  {
    if |xs| > 0 {
      SortOrdered(xs[..|xs| - 1], key, descending);
      InsertOrdered(Sort(xs[..|xs| - 1], key, descending), xs[|xs| - 1], key, descending);
    }
  }

  /** The sort is stable: the records with any one value appear in the order of the input. */
  lemma {:induction false} SortStable<T>(xs: seq<T>, key: T -> Value, descending: bool, v: Value)
    ensures Filter(Sort(xs, key, descending), WithValue(key, v)) == Filter(xs, WithValue(key, v))
  {
    if |xs| > 0 {
      var init, x := xs[..|xs| - 1], xs[|xs| - 1];
      assert xs == init + [x];
      SortStable(init, key, descending, v);
      InsertStable(Sort(init, key, descending), x, key, descending, v);
      FilterAppend(init, [x], WithValue(key, v));
    }
  }

  /** When every record has the same value the comparator always answers 0 and the sort
      keeps the input as it is. */
  lemma {:induction false} SortOfEqualValues<T>(xs: seq<T>, key: T -> Value, descending: bool, v: Value)
    requires forall i :: 0 <= i < |xs| ==> key(xs[i]) == v
    ensures Sort(xs, key, descending) == xs
  {
    if |xs| > 0 {
      var init := xs[..|xs| - 1];
      SortOfEqualValues(init, key, descending, v);
      LessIsOrder(v, v, v);
      if |init| > 0 {
        assert key(init[|init| - 1]) == v;
      }
    }
  }
}

=== FILE: tracker.dfy ===
/**
 The payment dashboard: the tracker entries grouped by sale date, the
 status and search filters, the totals and the overdue count, the order of
 the date cards, and the set of expanded cards. "Today" is a parameter; a
 stored date is a calendar day when it is a padded `YYYY-MM-DD` text.
 */
module TrackerPage {
  import opened Common
  import opened Entities
  import opened Dates
  import opened Grouping
  import opened Sorting

  // ------------------------------------------------------------ barcode to invoice number

  /** `xs.forEach(x => { if (keep(x)) m[key(x)] = value(x) })`: a later entry overwrites an earlier one. */
  function Index<T, V>(xs: seq<T>, keep: T -> bool, key: T -> string, value: T -> V): map<string, V> {
    if |xs| == 0 then map[]
    else
      var m := Index(xs[..|xs| - 1], keep, key, value);
      var x := xs[|xs| - 1];
      if keep(x) then m[key(x) := value(x)] else m
  }

  /** A key is present exactly when some kept entry has it, and it holds the value of the last such entry. */
  lemma {:induction false} IndexLastWins<T, V>(xs: seq<T>, keep: T -> bool, key: T -> string, value: T -> V, k: string, i: nat)
    ensures k in Index(xs, keep, key, value) <==> exists j :: 0 <= j < |xs| && keep(xs[j]) && key(xs[j]) == k
    ensures i < |xs| && keep(xs[i]) && key(xs[i]) == k
            && (forall j :: i < j < |xs| && keep(xs[j]) ==> key(xs[j]) != k)
            ==> Index(xs, keep, key, value)[k] == value(xs[i])
  {
    if |xs| > 0 {
      var init, x := xs[..|xs| - 1], xs[|xs| - 1];
      assert xs == init + [x];
      IndexLastWins(init, keep, key, value, k, i);
      if exists j :: 0 <= j < |xs| && keep(xs[j]) && key(xs[j]) == k {
        var j :| 0 <= j < |xs| && keep(xs[j]) && key(xs[j]) == k;
        if j < |init| {
          assert init[j] == xs[j];
        }
      }
      if exists j :: 0 <= j < |init| && keep(init[j]) && key(init[j]) == k {
        var j :| 0 <= j < |init| && keep(init[j]) && key(init[j]) == k;
        assert xs[j] == init[j];
      }
      if i < |init| && keep(xs[i]) && key(xs[i]) == k && (forall j :: i < j < |xs| && keep(xs[j]) ==> key(xs[j]) != k) {
        assert xs[i] == init[i];
        assert forall j :: i < j < |init| && keep(init[j]) ==> key(init[j]) != k by {
          forall j | i < j < |init| && keep(init[j]) ensures key(init[j]) != k {
            assert xs[j] == init[j];
          }
        }
      }
    }
  }

  /** `invoiceIdMap`: invoice id to invoice number. */
  function InvoiceNumbers(invoices: seq<Invoice>): map<string, string> {
    Index(invoices, (inv: Invoice) => true, (inv: Invoice) => inv.id, (inv: Invoice) => inv.number)
  }

  /** Only items with both a barcode and an invoice id enter the map. */
  predicate Linked(it: Item) {
    it.barcode != "" && it.invoiceId != ""
  }

  /** The invoice number an item leads to; `None` (`undefined`) when its invoice is not stored. */
  function NumberOf(numbers: map<string, string>, it: Item): Option<string> {
    if it.invoiceId in numbers then Some(numbers[it.invoiceId]) else None
  }

  /** `barcodeToInvoiceNumber`. */
  function InvoiceMap(invoices: seq<Invoice>, items: seq<Item>): map<string, Option<string>> {
    var numbers := InvoiceNumbers(invoices);
    Index(items, Linked, (it: Item) => it.barcode, (it: Item) => NumberOf(numbers, it))
  }

  /** An id is in `invoiceIdMap` exactly when an invoice has it, and maps to the number of the last such invoice. */
  lemma {:induction false} InvoiceNumbersLastWins(invoices: seq<Invoice>, id: string, n: nat)
    ensures id in InvoiceNumbers(invoices) <==> exists j :: 0 <= j < |invoices| && invoices[j].id == id
    ensures n < |invoices| && invoices[n].id == id && (forall j :: n < j < |invoices| ==> invoices[j].id != id)
            ==> InvoiceNumbers(invoices)[id] == invoices[n].number
  {
    IndexLastWins(invoices, (inv: Invoice) => true, (inv: Invoice) => inv.id, (inv: Invoice) => inv.number, id, n);
  }

  /** A barcode is in the map exactly when a linked item carries it, and its entry is the
      invoice number of the last such item (`None` when that item's invoice is not stored). */
  lemma {:induction false} InvoiceMapLastWins(invoices: seq<Invoice>, items: seq<Item>, b: string, i: nat)
    ensures b in InvoiceMap(invoices, items) <==> exists j :: 0 <= j < |items| && Linked(items[j]) && items[j].barcode == b
    ensures i < |items| && Linked(items[i]) && items[i].barcode == b
            && (forall j :: i < j < |items| && Linked(items[j]) ==> items[j].barcode != b)
            ==> InvoiceMap(invoices, items)[b] == NumberOf(InvoiceNumbers(invoices), items[i])
  {
    var numbers := InvoiceNumbers(invoices);
    IndexLastWins(items, Linked, (it: Item) => it.barcode, (it: Item) => NumberOf(numbers, it), b, i);
  }

  // ------------------------------------------------------------ groups and filters

  const NoDate: string := "No Date"

  /** `payment.sale_date || 'No Date'`. */
  function DateKey(p: Tracker): string {
    if p.saleDate == "" then NoDate else p.saleDate
  }

  /** `groupedByDate`. */
  function DateGroups(payments: seq<Tracker>): seq<Group<string, Tracker>> {
    GroupBy(payments, DateKey)
  }

  function SaleOf(p: Tracker): real {
    p.saleAmount
  }

  function ReceivedOf(p: Tracker): real {
    p.received
  }

  function BalanceOf(p: Tracker): real {
    p.balance
  }

  /** Every entry is in exactly one date group, the one of its key, in list order; the groups
      count every entry once and their sale amounts add up to the total. */
  lemma {:induction false} DateGroupsPartition(payments: seq<Tracker>)
    ensures IsGrouping(DateGroups(payments), payments, DateKey)
    ensures ItemCount(DateGroups(payments)) == |payments|
    ensures SumItems(DateGroups(payments), SaleOf) == Sum(payments, SaleOf)
  {
    GroupByIsPartition(payments, DateKey);
    GroupByTotals(payments, DateKey, SaleOf);
  }

  predicate MatchesStatus(p: Tracker, statusFilter: string) {
    statusFilter == "all" || p.status == statusFilter
  }

  /** The search: empty, or a case-insensitive part of the barcode or of its invoice number. */
  predicate MatchesSearch(p: Tracker, search: string, invoiceMap: map<string, Option<string>>) {
    || search == ""
    || Contains(ToLower(p.barcode), ToLower(search))
    || (p.barcode in invoiceMap && invoiceMap[p.barcode].Some?
        && Contains(ToLower(invoiceMap[p.barcode].value), ToLower(search)))
  }

  function Visible(statusFilter: string, search: string, invoiceMap: map<string, Option<string>>): Tracker -> bool {
    (p: Tracker) => MatchesStatus(p, statusFilter) && MatchesSearch(p, search, invoiceMap)
  }

  /** Each group cut down to its shown entries; groups left empty are dropped. */
  function FilterGroups(gs: seq<Group<string, Tracker>>, show: Tracker -> bool): seq<Group<string, Tracker>> {
    if |gs| == 0 then []
    else
      var items := Filter(gs[0].items, show);
      (if |items| > 0 then [Group(gs[0].key, items)] else []) + FilterGroups(gs[1..], show)
  }

  /** `filteredGroups`. */
  function FilteredGroups(payments: seq<Tracker>, statusFilter: string, search: string,
                          invoiceMap: map<string, Option<string>>): seq<Group<string, Tracker>> {
    FilterGroups(DateGroups(payments), Visible(statusFilter, search, invoiceMap))
  }

  /** Every kept group is some group cut down, and is not empty. */
  lemma {:induction false} FilterGroupsSound(gs: seq<Group<string, Tracker>>, show: Tracker -> bool, i: nat)
    requires i < |FilterGroups(gs, show)|
    ensures var f := FilterGroups(gs, show)[i];
      |f.items| > 0 && exists j :: 0 <= j < |gs| && f == Group(gs[j].key, Filter(gs[j].items, show))
  {
    var items := Filter(gs[0].items, show);
    var head := if |items| > 0 then [Group(gs[0].key, items)] else [];
    var rest := FilterGroups(gs[1..], show);
    assert FilterGroups(gs, show) == head + rest;
    if i >= |head| {
      FilterGroupsSound(gs[1..], show, i - |head|);
      var j :| 0 <= j < |gs[1..]| && rest[i - |head|] == Group(gs[1..][j].key, Filter(gs[1..][j].items, show));
      assert gs[1..][j] == gs[j + 1];
    }
  }

  /** Every group with a shown entry is kept, cut down. */
  lemma {:induction false} FilterGroupsComplete(gs: seq<Group<string, Tracker>>, show: Tracker -> bool, j: nat)
    requires j < |gs| && |Filter(gs[j].items, show)| > 0
    ensures Group(gs[j].key, Filter(gs[j].items, show)) in FilterGroups(gs, show)
  {
    if j > 0 {
      FilterGroupsComplete(gs[1..], show, j - 1);
      assert gs[1..][j - 1] == gs[j];
    }
  }

  /** Every card holds, in list order, the entries of its date that pass the filters, and there is one. */
  lemma {:induction false} CardsHoldVisibleEntries(payments: seq<Tracker>, show: Tracker -> bool, i: nat)
    requires i < |FilterGroups(DateGroups(payments), show)|
    ensures var f := FilterGroups(DateGroups(payments), show)[i];
      |f.items| > 0 && f.items == Filter(Members(payments, DateKey, f.key), show)
  {
    var gs := DateGroups(payments);
    GroupByIsPartition(payments, DateKey);
    FilterGroupsSound(gs, show, i);
  }

  /** An entry on a card is a stored entry of that card's date that passes the filters... */
  lemma {:induction false} ShownEntryIsVisible(payments: seq<Tracker>, show: Tracker -> bool, i: nat, p: Tracker)
    requires i < |FilterGroups(DateGroups(payments), show)|
    requires p in FilterGroups(DateGroups(payments), show)[i].items
    ensures p in payments && show(p) && FilterGroups(DateGroups(payments), show)[i].key == DateKey(p)
  {
    var f := FilterGroups(DateGroups(payments), show)[i];
    CardsHoldVisibleEntries(payments, show, i);
    var ms := Members(payments, DateKey, f.key);
    var k :| 0 <= k < |f.items| && f.items[k] == p;
    var m :| 0 <= m < |ms| && ms[m] == p;
  }

  /** The date group an entry lands in. */
  lemma {:induction false} DateGroupOf(payments: seq<Tracker>, k: nat) returns (j: nat)
    requires k < |payments|
    ensures j < |DateGroups(payments)| && DateGroups(payments)[j].key == DateKey(payments[k])
    ensures payments[k] in DateGroups(payments)[j].items
  {
    var gs := DateGroups(payments);
    GroupByIsPartition(payments, DateKey);
    FirstKeysDistinct(payments, DateKey);
    var ks := FirstKeys(payments, DateKey);
    j :| 0 <= j < |ks| && ks[j] == DateKey(payments[k]);
    assert KeysOf(gs)[j] == ks[j];
    assert gs[j].items == Members(payments, DateKey, DateKey(payments[k]));
  }

  /** ...and every stored entry that passes the filters is on a card. */
  lemma {:induction false} VisibleEntryIsShown(payments: seq<Tracker>, show: Tracker -> bool, p: Tracker)
    requires p in payments && show(p)
    ensures var fs := FilterGroups(DateGroups(payments), show);
      exists i :: 0 <= i < |fs| && p in fs[i].items
  {
    var gs := DateGroups(payments);
    var fs := FilterGroups(gs, show);
    var k :| 0 <= k < |payments| && payments[k] == p;
    var j := DateGroupOf(payments, k);
    var m :| 0 <= m < |gs[j].items| && gs[j].items[m] == p;
    assert p in Filter(gs[j].items, show);
    FilterGroupsComplete(gs, show, j);
    var i :| 0 <= i < |fs| && fs[i] == Group(gs[j].key, Filter(gs[j].items, show));
    assert p in fs[i].items;
  }

  /** With status "all" and no search term every date group is shown whole. */
  lemma {:induction false} NoFilterShowsAll(payments: seq<Tracker>, invoiceMap: map<string, Option<string>>)
    ensures FilteredGroups(payments, "all", "", invoiceMap) == DateGroups(payments)
  {
    GroupByNonEmpty(payments, DateKey);
    KeepWholeGroups(DateGroups(payments), Visible("all", "", invoiceMap));
  }

  lemma {:induction false} KeepWholeGroups(gs: seq<Group<string, Tracker>>, show: Tracker -> bool)
    requires forall i :: 0 <= i < |gs| ==> |gs[i].items| > 0 && forall k :: 0 <= k < |gs[i].items| ==> show(gs[i].items[k])
    ensures FilterGroups(gs, show) == gs
  {
    if |gs| > 0 {
      FilterKeepsAll(gs[0].items, show);
      KeepWholeGroups(gs[1..], show);
      assert gs == [gs[0]] + gs[1..];
    }
  }

  // ------------------------------------------------------------ expanded cards

  /** `toggleDate`. */
  function Toggle(expanded: set<string>, key: string): (r: set<string>)
    ensures key in r <==> key !in expanded
    ensures forall k :: k != key ==> (k in r <==> k in expanded)
  {
    if key in expanded then expanded - {key} else expanded + {key}
  }

  /** Toggling a card twice restores the set. */
  lemma {:induction false} ToggleTwice(expanded: set<string>, key: string)
    ensures Toggle(Toggle(expanded, key), key) == expanded
  {
  }

  /** `expandAll`: the keys of the shown cards. */
  function ExpandAll(fs: seq<Group<string, Tracker>>): (r: set<string>)
    ensures forall k :: k in r <==> exists i :: 0 <= i < |fs| && fs[i].key == k
  {
    set i | 0 <= i < |fs| :: fs[i].key
  }

  /** `collapseAll`. */
  function CollapseAll(): set<string> {
    {}
  }

  /** After expanding all, a date is expanded exactly when some stored entry of that date
      passes the filters; after collapsing all, none is. */
  lemma {:induction false} ExpandAllIsShownDates(payments: seq<Tracker>, show: Tracker -> bool, key: string)
    ensures key in ExpandAll(FilterGroups(DateGroups(payments), show))
            <==> exists k :: 0 <= k < |payments| && DateKey(payments[k]) == key && show(payments[k])
    ensures key !in CollapseAll()
  {
    var fs := FilterGroups(DateGroups(payments), show);
    if key in ExpandAll(fs) {
      var i :| 0 <= i < |fs| && fs[i].key == key;
      CardsHoldVisibleEntries(payments, show, i);
      var p := fs[i].items[0];
      ShownEntryIsVisible(payments, show, i, p);
      var k :| 0 <= k < |payments| && payments[k] == p;
    }
    if exists k :: 0 <= k < |payments| && DateKey(payments[k]) == key && show(payments[k]) {
      var k :| 0 <= k < |payments| && DateKey(payments[k]) == key && show(payments[k]);
      VisibleEntryIsShown(payments, show, payments[k]);
      var i :| 0 <= i < |fs| && payments[k] in fs[i].items;
      ShownEntryIsVisible(payments, show, i, payments[k]);
    }
  }

  // ------------------------------------------------------------ totals

  function TotalSale(payments: seq<Tracker>): real {
    Sum(payments, SaleOf)
  }

  function TotalReceived(payments: seq<Tracker>): real {
    Sum(payments, ReceivedOf)
  }

  function TotalBalance(payments: seq<Tracker>): real {
    Sum(payments, BalanceOf)
  }

  /** When every entry is balanced, the received and pending totals add up to the sale total. */
  lemma {:induction false} TotalsBalance(payments: seq<Tracker>)
    requires forall i :: 0 <= i < |payments| ==> payments[i].received + payments[i].balance == payments[i].saleAmount
    ensures TotalReceived(payments) + TotalBalance(payments) == TotalSale(payments)
  {
    if |payments| > 0 {
      var init := payments[..|payments| - 1];
      assert forall i :: 0 <= i < |init| ==> init[i] == payments[i];
      TotalsBalance(init);
    }
  }

  /** `collectionPercentage`. */
  function CollectionPercentage(received: real, sale: real): (r: real)
    ensures sale <= 0.0 ==> r == 0.0
    ensures sale > 0.0 ==> r * sale == received * 100.0
    ensures sale > 0.0 && 0.0 <= received <= sale ==> 0.0 <= r <= 100.0
  {
    if sale > 0.0 then received / sale * 100.0 else 0.0
  }

  // ------------------------------------------------------------ overdue

  /** A sale date before today on an entry that is not paid; an unreadable date is never before. */
  predicate Overdue(p: Tracker, today: Date) {
    && p.saleDate != ""
    && p.status != "paid"
    && match ReadIsoDate(p.saleDate)
       case Some(d) => Before(d, today)
       case None => false
  }

  /** `overdueCount`. */
  function OverdueCount(payments: seq<Tracker>, today: Date): nat {
    Count(payments, (p: Tracker) => Overdue(p, today))
  }

  /** A filter that keeps at least what another keeps is at least as long. */
  lemma {:induction false} CountMonotone<T>(xs: seq<T>, p: T -> bool, q: T -> bool)
    requires forall i :: 0 <= i < |xs| ==> p(xs[i]) ==> q(xs[i])
    ensures Count(xs, p) <= Count(xs, q)
  {
    if |xs| > 0 {
      CountMonotone(xs[1..], p, q);
    }
  }

  lemma {:induction false} BeforeTransitive(a: Date, b: Date, c: Date)
    requires Before(a, b) && Before(b, c)
    ensures Before(a, c)
  {
  }

  /** The overdue count never goes down as the days pass, and never exceeds the number of entries not paid. */
  lemma {:induction false} OverdueCountGrows(payments: seq<Tracker>, today: Date, later: Date)
    requires today == later || Before(today, later)
    ensures OverdueCount(payments, today) <= OverdueCount(payments, later)
    ensures OverdueCount(payments, later) <= Count(payments, (p: Tracker) => p.status != "paid")
  {
    forall i | 0 <= i < |payments| && Overdue(payments[i], today) ensures Overdue(payments[i], later) {
      if today != later {
        BeforeTransitive(ReadIsoDate(payments[i].saleDate).value, today, later);
      }
    }
    CountMonotone(payments, (p: Tracker) => Overdue(p, today), (p: Tracker) => Overdue(p, later));
    CountMonotone(payments, (p: Tracker) => Overdue(p, later), (p: Tracker) => p.status != "paid");
  }

  // ------------------------------------------------------------ date cards

  /** What a card shows about its entries. */
  datatype Card = Card(key: string, sale: real, received: real, balance: real, percentage: real,
                       overdue: bool, unpaid: nat, partial: nat, paid: nat)

  function HasStatus(status: string): Tracker -> bool {
    (p: Tracker) => p.status == status
  }

  function CardOf(g: Group<string, Tracker>, today: Date): Card {
    var sale, received, balance := Sum(g.items, SaleOf), Sum(g.items, ReceivedOf), Sum(g.items, BalanceOf);
    var overdue := g.key != NoDate && (match ReadIsoDate(g.key) case Some(d) => Before(d, today) case None => false) && balance > 0.0;
    Card(g.key, sale, received, balance, CollectionPercentage(received, sale), overdue,
         Count(g.items, HasStatus("unpaid")), Count(g.items, HasStatus("partial")), Count(g.items, HasStatus("paid")))
  }

  predicate KnownStatus(p: Tracker) {
    p.status == "unpaid" || p.status == "partial" || p.status == "paid"
  }

  /** With every status one of the three, the three counts of a card add up to its entries. */
  lemma {:induction false} StatusCountsAddUp(items: seq<Tracker>)
    requires forall i :: 0 <= i < |items| ==> KnownStatus(items[i])
    ensures Count(items, HasStatus("unpaid")) + Count(items, HasStatus("partial")) + Count(items, HasStatus("paid")) == |items|
  {
    if |items| > 0 {
      StatusCountsAddUp(items[1..]);
    }
  }

  /** A card of balanced entries with a positive sale total and nothing overpaid shows a
      percentage between 0 and 100. */
  lemma {:induction false} CardPercentageInRange(g: Group<string, Tracker>, today: Date)
    requires forall i :: 0 <= i < |g.items| ==> g.items[i].received + g.items[i].balance == g.items[i].saleAmount
    requires forall i :: 0 <= i < |g.items| ==> g.items[i].received >= 0.0 && g.items[i].balance >= 0.0
    ensures var c := CardOf(g, today);
      c.received + c.balance == c.sale && (c.sale > 0.0 ==> 0.0 <= c.percentage <= 100.0)
  {
    TotalsBalance(g.items);
    SumNonNegative(g.items, ReceivedOf);
    SumNonNegative(g.items, BalanceOf);
  }

  lemma {:induction false} SumNonNegative(xs: seq<Tracker>, f: Tracker -> real)
    requires forall i :: 0 <= i < |xs| ==> f(xs[i]) >= 0.0
    ensures Sum(xs, f) >= 0.0
  {
    if |xs| > 0 {
      var init := xs[..|xs| - 1];
      assert forall i :: 0 <= i < |init| ==> init[i] == xs[i];
      SumNonNegative(init, f);
    }
  }

  // ------------------------------------------------------------ card order

  /** A day as one number that grows with the calendar. */
  function DayNumber(d: Date): int {
    d.year * 400 + d.month * 32 + d.day
  }

  lemma {:induction false} DayNumberOrder(a: Date, b: Date)
    requires ValidDate(a) && ValidDate(b)
    ensures Before(a, b) <==> DayNumber(a) < DayNumber(b)
  {
  }

  /** A card key as the order sees it: "No Date" (and a text that is no date) below every day. */
  function KeyValue(key: string): Value {
    if key == NoDate then Missing
    else match ReadIsoDate(key)
      case Some(d) => Number(DayNumber(d) as real)
      case None => Missing
  }

  /** The cards in display order: newest date first, "No Date" last. */
  function CardOrder(keys: seq<string>): seq<string> {
    Sort(keys, KeyValue, true)
  }

  /** The display order holds the same keys; no dated card comes after "No Date", and a card
      never comes after one of a later day. */
  lemma {:induction false} CardOrderNewestFirst(keys: seq<string>)
    ensures var r := CardOrder(keys);
      multiset(r) == multiset(keys)
      && (forall i, j :: 0 <= i < j < |r| && r[i] == NoDate ==> ReadIsoDate(r[j]).None?)
      && forall i, j :: 0 <= i < j < |r| && ReadIsoDate(r[i]).Some? && ReadIsoDate(r[j]).Some?
           ==> !Before(ReadIsoDate(r[i]).value, ReadIsoDate(r[j]).value)
  {
    var r := CardOrder(keys);
    SortPermutes(keys, KeyValue, true);
    SortOrdered(keys, KeyValue, true);
    forall i, j | 0 <= i < j < |r| && r[i] == NoDate ensures ReadIsoDate(r[j]).None? {
      assert !Ahead(KeyValue(r[j]), KeyValue(r[i]), true);
    }
    forall i, j | 0 <= i < j < |r| && ReadIsoDate(r[i]).Some? && ReadIsoDate(r[j]).Some?
      ensures !Before(ReadIsoDate(r[i]).value, ReadIsoDate(r[j]).value)
    {
      assert !Ahead(KeyValue(r[j]), KeyValue(r[i]), true);
      DayNumberOrder(ReadIsoDate(r[i]).value, ReadIsoDate(r[j]).value);
    }
  }
}

=== FILE: words.dfy ===
/**
 Amount in words in the Indian numbering system (ones, teens, tens, Hundred,
 Thousand, Lakh, Crore), as every invoice-creating flow writes it into
 `amount_in_words`. `NumberToWords` is the recursive definition the flows
 share; `Tokens` is the same text as a list of words, and `Decode` reads a
 word list back into a number, which shows that the text determines the
 amount.
 */
module AmountWords {
  import opened Common

  const OnesWords: seq<string> := ["", "One", "Two", "Three", "Four", "Five", "Six", "Seven", "Eight", "Nine"]
  const TensWords: seq<string> := ["", "", "Twenty", "Thirty", "Forty", "Fifty", "Sixty", "Seventy", "Eighty", "Ninety"]
  const TeenWords: seq<string> := ["Ten", "Eleven", "Twelve", "Thirteen", "Fourteen", "Fifteen", "Sixteen", "Seventeen", "Eighteen", "Nineteen"]

  const Lakh: nat := 100000
  const Crore: nat := 10000000

  /** The three scale words above a hundred. */
  datatype Scale = Thousands | Lakhs | Crores {
    function Name(): string {
      match this
      case Thousands => "Thousand"
      case Lakhs => "Lakh"
      case Crores => "Crore"
    }

    /** `hi` thousands, lakhs or crores, as a number. */
    function Times(hi: nat): nat {
      match this
      case Thousands => hi * 1000
      case Lakhs => hi * Lakh
      case Crores => hi * Crore
    }
  }

  /** A word of the three tables: non-empty, a single word, and none of the unit words. */
  predicate TableWord(w: string) {
    && |w| > 0 && ' ' !in w && 'Z' !in w
    && w != "Hundred" && w != "Thousand" && w != "Lakh" && w != "Crore" && w != "and"
  }

  lemma {:induction false} TableWords()
    ensures forall d :: 1 <= d < 10 ==> TableWord(OnesWords[d])
    ensures forall d :: 0 <= d < 10 ==> TableWord(TeenWords[d])
    ensures forall d :: 2 <= d < 10 ==> TableWord(TensWords[d])
  {
    OnesTable();
    TeenTable();
    TensTable();
  }

  lemma {:induction false} OnesTable()
    ensures forall d :: 1 <= d < 10 ==> TableWord(OnesWords[d])
  {
  }

  lemma {:induction false} TeenTable()
    ensures forall d :: 0 <= d < 10 ==> TableWord(TeenWords[d])
  {
  }

  lemma {:induction false} TensTable()
    ensures forall d :: 2 <= d < 10 ==> TableWord(TensWords[d])
  {
  }

  /** Two pieces of text joined by a single space. */
  function Spaced(a: string, b: string): (r: string)
    ensures |r| == |a| + 1 + |b| && r[|a|] == ' '
    ensures forall c :: c in r && c != ' ' ==> c in a || c in b
  {
    a + " " + b
  }

  /** The words of a whole number from 1 to 99. */
  function TensAndOnes(n: nat): (r: string)
    requires 1 <= n < 100
    ensures |r| > 0 && 'Z' !in r
  {
    TableWords();
    if n < 10 then OnesWords[n]
    else if n < 20 then TeenWords[n - 10]
    else if n % 10 != 0 then Spaced(TensWords[n / 10], OnesWords[n % 10])
    else TensWords[n / 10]
  }

  /** The words of a non-negative whole number. */
  function NumberToWords(n: nat): (r: string)
    ensures n == 0 <==> r == "Zero"
    ensures n > 0 ==> |r| > 0 && 'Z' !in r
    decreases n, 1
  {
    if n == 0 then "Zero"
    else if n < 100 then TensAndOnes(n)
    else if n < 1000 then Hundreds(n)
    else if n < Lakh then Scaled(n / 1000, Thousands, n % 1000)
    else if n < Crore then Scaled(n / Lakh, Lakhs, n % Lakh)
    else Scaled(n / Crore, Crores, n % Crore)
  }

  /** `ones[⌊n/100⌋] + ' Hundred'`, then ` and ` and the rest when it is not zero. */
  function Hundreds(n: nat): (r: string)
    requires 100 <= n < 1000
    ensures |r| > 0 && 'Z' !in r
    decreases n, 0
  {
    TableWords();
    var head := Spaced(OnesWords[n / 100], "Hundred");
    if n % 100 != 0 then Spaced(head, Spaced("and", NumberToWords(n % 100))) else head
  }

  /** The words of the count of a unit (`hi`), the unit's name, then the words of the rest (`lo`) when it is not zero. */
  function Scaled(hi: nat, s: Scale, lo: nat): (r: string)
    requires hi > 0
    ensures |r| > 0 && 'Z' !in r
    decreases hi + lo + 1, 0
  {
    var head := Spaced(NumberToWords(hi), s.Name());
    if lo != 0 then Spaced(head, NumberToWords(lo)) else head
  }

  /** `numberToWords(Math.floor(total)) + ' Rupees Only'`. A negative total indexes
      the ones table out of range, which JavaScript renders as "undefined". */
  function AmountInWords(total: real): (r: string)
    ensures |r| >= 12 && r[|r| - 12..] == " Rupees Only"
    ensures total < 0.0 ==> r == "undefined Rupees Only"
    ensures 0.0 <= total < 1.0 ==> r == "Zero Rupees Only"
    ensures total >= 1.0 ==> r[..|r| - 12] == NumberToWords(total.Floor) && 'Z' !in r[..|r| - 12]
  {
    var f := total.Floor;
    var w := if f < 0 then "undefined" else NumberToWords(f);
    SuffixSplit(w, " Rupees Only");
    w + " Rupees Only"
  }

  /** Cutting `w + t` at `|w|` gives back both pieces. */
  lemma SuffixSplit(w: string, t: string)
    ensures |w + t| == |w| + |t| && (w + t)[..|w|] == w && (w + t)[|w|..] == t
  {
  }

  /** For a positive amount the words never say "Zero": recursion happens only on non-zero remainders. */
  lemma {:induction false} NoZeroWord(n: nat)
    requires n > 0
    ensures !Contains(NumberToWords(n), "Zero")
  {
    NoCharNoContains(NumberToWords(n), "Zero", 'Z');
  }

  lemma {:induction false} ExampleHundreds()
    ensures NumberToWords(100) == "One Hundred"
    ensures NumberToWords(101) == "One Hundred and One"
  {
  }

  lemma {:induction false} ExampleOne()
    ensures NumberToWords(1) == "One"
  {
    assert OnesWords[1] == "One";
  }

  /** 1500 is "One Thousand Five Hundred". */
  lemma {:induction false} ExampleThousand()
    ensures NumberToWords(1500) == "One Thousand Five Hundred"
  {
    ExampleOne();
    ExampleFiveHundred();
    assert NumberToWords(1500) == NumberToWords(1) + " " + "Thousand" + " " + NumberToWords(500);
    JoinThousand();
  }

  lemma {:induction false} JoinThousand()
    ensures "One" + " " + "Thousand" + " " + "Five Hundred" == "One Thousand Five Hundred"
  {
  }

  lemma {:induction false} ExampleFiveHundred()
    ensures NumberToWords(500) == "Five Hundred"
  {
    assert OnesWords[5] == "Five";
    assert NumberToWords(500) == Hundreds(500);
  }

  /** 100000 is "One Lakh". */
  lemma {:induction false} ExampleLakh()
    ensures NumberToWords(100000) == "One Lakh"
  {
    ExampleOne();
    assert NumberToWords(100000) == Scaled(1, Lakhs, 0);
  }

  /** 10000000 is "One Crore". */
  lemma {:induction false} ExampleCrore()
    ensures NumberToWords(10000000) == "One Crore"
  {
    ExampleOne();
    assert NumberToWords(10000000) == Scaled(1, Crores, 0);
  }

  // ------------------------------------------------------------ words as a list

  /** One word of an amount in words. */
  datatype Word = Unit(d: nat) | Teen(d: nat) | Tens(d: nat) | Hundred | And | ScaleWord(s: Scale) | Zero

  predicate ValidWord(w: Word) {
    match w
    case Unit(d) => 1 <= d < 10
    case Teen(d) => d < 10
    case Tens(d) => 2 <= d < 10
    case _ => true
  }

  predicate AllValid(ws: seq<Word>) {
    forall i :: 0 <= i < |ws| ==> ValidWord(ws[i])
  }

  function Spell(w: Word): (r: string)
    requires ValidWord(w)
    ensures |r| > 0 && ' ' !in r
  {
    TableWords();
    match w
    case Unit(d) => OnesWords[d]
    case Teen(d) => TeenWords[d]
    case Tens(d) => TensWords[d]
    case Hundred => "Hundred"
    case And => "and"
    case ScaleWord(s) => s.Name()
    case Zero => "Zero"
  }

  function Spelled(ws: seq<Word>): (r: seq<string>)
    requires AllValid(ws)
    ensures |r| == |ws|
  {
    if |ws| == 0 then [] else [Spell(ws[0])] + Spelled(ws[1..])
  }

  lemma {:induction false} SpelledAppend(a: seq<Word>, b: seq<Word>)
    requires AllValid(a) && AllValid(b)
    ensures AllValid(a + b) && Spelled(a + b) == Spelled(a) + Spelled(b)
  {
    if |a| > 0 {
      assert (a + b)[1..] == a[1..] + b;
      SpelledAppend(a[1..], b);
    } else {
      assert a + b == b;
    }
  }

  /** The words of a number as a list, following the same recursion as `NumberToWords`. */
  function Tokens(n: nat): (ts: seq<Word>)
    ensures AllValid(ts) && |ts| > 0
    ensures n < Crore ==> ScaleWord(Crores) !in ts
    ensures n < Lakh ==> ScaleWord(Lakhs) !in ts
    ensures n < 1000 ==> ScaleWord(Thousands) !in ts
    ensures Zero in ts ==> n == 0
    decreases n, 1
  {
    if n == 0 then [Zero]
    else if n < 10 then [Unit(n)]
    else if n < 20 then [Teen(n - 10)]
    else if n < 100 then [Tens(n / 10)] + (if n % 10 != 0 then [Unit(n % 10)] else [])
    else if n < 1000 then [Unit(n / 100), Hundred] + (if n % 100 != 0 then [And] + Tokens(n % 100) else [])
    else if n < Lakh then ScaledTokens(n / 1000, Thousands, n % 1000)
    else if n < Crore then ScaledTokens(n / Lakh, Lakhs, n % Lakh)
    else ScaledTokens(n / Crore, Crores, n % Crore)
  }

  function ScaledTokens(hi: nat, s: Scale, lo: nat): (ts: seq<Word>)
    requires hi > 0
    ensures AllValid(ts) && |ts| > 0 && Zero !in ts
    ensures hi < Crore && lo < Crore && s != Crores ==> ScaleWord(Crores) !in ts
    ensures hi < Lakh && lo < Lakh && s == Thousands ==> ScaleWord(Lakhs) !in ts
    decreases hi + lo + 1, 0
  {
    Tokens(hi) + [ScaleWord(s)] + (if lo != 0 then Tokens(lo) else [])
  }

  lemma {:induction false} ExampleTokens()
    ensures Tokens(1500) == [Unit(1), ScaleWord(Thousands), Unit(5), Hundred]
  {
    assert Tokens(500) == [Unit(5), Hundred];
  }

  // ------------------------------------------------------------ splitting the text

  /** `s.split(' ')`. */
  function Split(s: string): (ts: seq<string>)
    ensures |ts| > 0
  {
    if |s| == 0 then [""]
    else if s[0] == ' ' then [""] + Split(s[1..])
    else
      var rest := Split(s[1..]);
      [[s[0]] + rest[0]] + rest[1..]
  }

  lemma {:induction false} SplitWord(w: string)
    requires ' ' !in w
    ensures Split(w) == [w]
  {
    if |w| > 0 {
      SplitWord(w[1..]);
      assert [w[0]] + w[1..] == w;
    }
  }

  lemma {:induction false} SplitConcat(a: string, b: string)
    ensures Split(Spaced(a, b)) == Split(a) + Split(b)
  {
    var ab := Spaced(a, b);
    if |a| == 0 {
      assert ab[0] == ' ' && ab[1..] == b;
    } else {
      assert ab[0] == a[0] && ab[1..] == Spaced(a[1..], b);
      SplitConcat(a[1..], b);
      var rest := Split(a[1..]);
      if a[0] != ' ' {
        assert Split(ab) == [[a[0]] + (rest + Split(b))[0]] + (rest + Split(b))[1..];
        assert (rest + Split(b))[0] == rest[0];
        assert (rest + Split(b))[1..] == rest[1..] + Split(b);
      }
    }
  }

  /** Splitting two spelled word lists joined by a space gives both lists. */
  lemma {:induction false} SplitSpaced(a: string, b: string, wa: seq<Word>, wb: seq<Word>)
    requires AllValid(wa) && AllValid(wb)
    requires Split(a) == Spelled(wa) && Split(b) == Spelled(wb)
    ensures AllValid(wa + wb) && Split(Spaced(a, b)) == Spelled(wa + wb)
  {
    SplitConcat(a, b);
    SpelledAppend(wa, wb);
  }

  lemma {:induction false} SplitSpell(w: Word)
    requires ValidWord(w)
    ensures Split(Spell(w)) == Spelled([w])
  {
    SplitWord(Spell(w));
  }

  /** Splitting the words on spaces gives exactly the spelled word list. */
  lemma {:induction false} SplitWords(n: nat)
    ensures Split(NumberToWords(n)) == Spelled(Tokens(n))
    decreases n, 1
  {
    if n == 0 {
      SplitSpell(Zero);
    } else if n < 100 {
      SplitTensAndOnes(n);
    } else if n < 1000 {
      SplitHundreds(n);
    } else if n < Lakh {
      SplitScaled(n / 1000, Thousands, n % 1000);
    } else if n < Crore {
      SplitScaled(n / Lakh, Lakhs, n % Lakh);
    } else {
      SplitScaled(n / Crore, Crores, n % Crore);
    }
  }

  lemma {:induction false} SplitTensAndOnes(n: nat)
    requires 1 <= n < 100
    ensures Split(NumberToWords(n)) == Spelled(Tokens(n))
  {
    if n < 10 {
      SplitSpell(Unit(n));
      assert NumberToWords(n) == Spell(Unit(n)) && Tokens(n) == [Unit(n)];
    } else if n < 20 {
      SplitSpell(Teen(n - 10));
      assert NumberToWords(n) == Spell(Teen(n - 10)) && Tokens(n) == [Teen(n - 10)];
    } else if n % 10 == 0 {
      SplitSpell(Tens(n / 10));
      assert NumberToWords(n) == Spell(Tens(n / 10)) && Tokens(n) == [Tens(n / 10)];
    } else {
      SplitTwoWords(Tens(n / 10), Unit(n % 10));
      assert NumberToWords(n) == Spaced(Spell(Tens(n / 10)), Spell(Unit(n % 10)));
      assert Tokens(n) == [Tens(n / 10), Unit(n % 10)];
    }
  }

  lemma {:induction false} SplitTwoWords(a: Word, b: Word)
    requires ValidWord(a) && ValidWord(b)
    ensures Split(Spaced(Spell(a), Spell(b))) == Spelled([a, b])
  {
    SplitSpell(a);
    SplitSpell(b);
    SplitSpaced(Spell(a), Spell(b), [a], [b]);
  }

  lemma {:induction false} SplitHundreds(n: nat)
    requires 100 <= n < 1000
    ensures Split(NumberToWords(n)) == Spelled(Tokens(n))
    decreases n, 0
  {
    var o := Unit(n / 100);
    var head := Spaced(Spell(o), "Hundred");
    SplitHundredHead(o);
    if n % 100 != 0 {
      var rest := Tokens(n % 100);
      SplitWords(n % 100);
      SplitAndRest(NumberToWords(n % 100), rest);
      SplitSpaced(head, Spaced("and", NumberToWords(n % 100)), [o, Hundred], [And] + rest);
      assert NumberToWords(n) == Spaced(head, Spaced("and", NumberToWords(n % 100)));
      assert Tokens(n) == [o, Hundred] + ([And] + rest);
    } else {
      assert NumberToWords(n) == head;
      assert Tokens(n) == [o, Hundred];
    }
  }

  lemma {:induction false} SplitHundredHead(o: Word)
    requires o.Unit? && ValidWord(o)
    ensures Split(Spaced(Spell(o), "Hundred")) == Spelled([o, Hundred])
  {
    SplitSpell(o);
    SplitSpell(Hundred);
    SplitSpaced(Spell(o), "Hundred", [o], [Hundred]);
  }

  lemma {:induction false} SplitAndRest(w: string, rest: seq<Word>)
    requires AllValid(rest) && Split(w) == Spelled(rest)
    ensures AllValid([And] + rest) && Split(Spaced("and", w)) == Spelled([And] + rest)
  {
    SplitSpell(And);
    SplitSpaced("and", w, [And], rest);
  }

  lemma {:induction false} SplitScaled(hi: nat, s: Scale, lo: nat)
    requires hi > 0
    ensures Split(Scaled(hi, s, lo)) == Spelled(ScaledTokens(hi, s, lo))
    decreases hi + lo + 1, 0
  {
    SplitWords(hi);
    SplitSpell(ScaleWord(s));
    SplitSpaced(NumberToWords(hi), s.Name(), Tokens(hi), [ScaleWord(s)]);
    if lo != 0 {
      SplitWords(lo);
      SplitSpaced(Spaced(NumberToWords(hi), s.Name()), NumberToWords(lo), Tokens(hi) + [ScaleWord(s)], Tokens(lo));
    } else {
      assert ScaledTokens(hi, s, lo) == Tokens(hi) + [ScaleWord(s)];
    }
  }

  // ------------------------------------------------------------ reading words back

  /** Position of `w` in `ws` at or after `from`. */
  function Find(ws: seq<string>, w: string, from: nat): Option<nat>
    decreases |ws| - from
  {
    if from >= |ws| then None else if ws[from] == w then Some(from) else Find(ws, w, from + 1)
  }

  /** Recognises one spelled word. */
  function ParseWord(s: string): Option<Word> {
    match Find(OnesWords, s, 1)
    case Some(d) => Some(Unit(d))
    case None =>
      match Find(TeenWords, s, 0)
      case Some(d) => Some(Teen(d))
      case None =>
        match Find(TensWords, s, 2)
        case Some(d) => Some(Tens(d))
        case None =>
          if s == "Hundred" then Some(Hundred)
          else if s == "and" then Some(And)
          else if s == "Thousand" then Some(ScaleWord(Thousands))
          else if s == "Lakh" then Some(ScaleWord(Lakhs))
          else if s == "Crore" then Some(ScaleWord(Crores))
          else if s == "Zero" then Some(Zero)
          else None
  }

  lemma {:induction false} ParseSpell(w: Word)
    requires ValidWord(w)
    ensures ParseWord(Spell(w)) == Some(w)
  {
    match w
    case Unit(d) => ParseUnit(d);
    case Teen(d) => ParseTeen(d);
    case Tens(d) => ParseTens(d);
    case Hundred =>
    case And =>
    case ScaleWord(s) => ParseScale(s);
    case Zero =>
  }

  lemma {:induction false} ParseUnit(d: nat)
    requires 1 <= d < 10
    ensures ParseWord(OnesWords[d]) == Some(Unit(d))
  {
  }

  lemma {:induction false} ParseTeen(d: nat)
    requires d < 10
    ensures ParseWord(TeenWords[d]) == Some(Teen(d))
  {
  }

  lemma {:induction false} ParseTens(d: nat)
    requires 2 <= d < 10
    ensures ParseWord(TensWords[d]) == Some(Tens(d))
  {
  }

  lemma {:induction false} ParseScale(s: Scale)
    ensures ParseWord(s.Name()) == Some(ScaleWord(s))
  {
  }

  /** Spelled word lists that read alike are the same word list. */
  lemma {:induction false} SpelledInjective(xs: seq<Word>, ys: seq<Word>)
    requires AllValid(xs) && AllValid(ys) && Spelled(xs) == Spelled(ys)
    ensures xs == ys
  {
    if |xs| > 0 {
      ParseSpell(xs[0]);
      ParseSpell(ys[0]);
      assert Spelled(xs)[0] == Spelled(ys)[0];
      assert Spelled(xs)[1..] == Spelled(xs[1..]);
      assert Spelled(ys)[1..] == Spelled(ys[1..]);
      SpelledInjective(xs[1..], ys[1..]);
      assert xs == [xs[0]] + xs[1..];
      assert ys == [ys[0]] + ys[1..];
    }
  }

  /** Index of the last `w` in `ts`, or -1. */
  function LastIndex(ts: seq<Word>, w: Word): (i: int)
    ensures -1 <= i < |ts|
    ensures i >= 0 ==> ts[i] == w && w !in ts[i + 1..]
    ensures i == -1 ==> w !in ts
  {
    if |ts| == 0 then -1
    else if ts[|ts| - 1] == w then |ts| - 1
    else LastIndex(ts[..|ts| - 1], w)
  }

  /** Reads a word list back into a number: split at the last Crore, Lakh or
      Thousand, otherwise read the hundreds clause, or the tens and ones. */
  function Decode(ts: seq<Word>): Option<nat>
    decreases |ts|, 1
  {
    if ts == [Zero] then Some(0)
    else if LastIndex(ts, ScaleWord(Crores)) >= 0 then DecodeScale(ts, LastIndex(ts, ScaleWord(Crores)), Crores)
    else if LastIndex(ts, ScaleWord(Lakhs)) >= 0 then DecodeScale(ts, LastIndex(ts, ScaleWord(Lakhs)), Lakhs)
    else if LastIndex(ts, ScaleWord(Thousands)) >= 0 then DecodeScale(ts, LastIndex(ts, ScaleWord(Thousands)), Thousands)
    else if |ts| >= 2 && ts[0].Unit? && ts[1] == Hundred then
      if |ts| == 2 then Some(100 * ts[0].d)
      else if ts[2] == And then
        match Decode(ts[3..])
        case Some(lo) => Some(100 * ts[0].d + lo)
        case None => None
      else None
    else if |ts| == 1 then
      match ts[0]
      case Unit(d) => Some(d)
      case Teen(d) => Some(10 + d)
      case Tens(d) => Some(10 * d)
      case _ => None
    else if |ts| == 2 && ts[0].Tens? && ts[1].Unit? then Some(10 * ts[0].d + ts[1].d)
    else None
  }

  function DecodeScale(ts: seq<Word>, i: nat, s: Scale): Option<nat>
    requires i < |ts|
    decreases |ts|, 0
  {
    match Decode(ts[..i])
    case Some(hi) =>
      if i + 1 == |ts| then Some(s.Times(hi))
      else (match Decode(ts[i + 1..])
            case Some(lo) => Some(s.Times(hi) + lo)
            case None => None)
    case None => None
  }

  lemma {:induction false} LastIndexAfter(ts: seq<Word>, w: Word, i: nat)
    requires i < |ts| && ts[i] == w && w !in ts[i + 1..]
    ensures LastIndex(ts, w) == i
  {
  }

  /** Reading the word list back gives the number. */
  lemma {:induction false} DecodeTokens(n: nat)
    ensures Decode(Tokens(n)) == Some(n)
    decreases n, 1
  {
    if n == 0 {
    } else if n < 100 {
      DecodeTensAndOnes(n);
    } else if n < 1000 {
      DecodeHundreds(n);
    } else if n < Lakh {
      DecodeScaledTokens(n, n / 1000, Thousands, n % 1000);
    } else if n < Crore {
      DecodeScaledTokens(n, n / Lakh, Lakhs, n % Lakh);
    } else {
      DecodeScaledTokens(n, n / Crore, Crores, n % Crore);
    }
  }

  lemma {:induction false} DecodeTensAndOnes(n: nat)
    requires 1 <= n < 100
    ensures Decode(Tokens(n)) == Some(n)
  {
    var ts := Tokens(n);
    assert |ts| <= 2 && Zero !in ts && ScaleWord(Crores) !in ts && ScaleWord(Lakhs) !in ts && ScaleWord(Thousands) !in ts;
    assert LastIndex(ts, ScaleWord(Crores)) == -1;
    assert LastIndex(ts, ScaleWord(Lakhs)) == -1;
    assert LastIndex(ts, ScaleWord(Thousands)) == -1;
  }

  lemma {:induction false} DecodeHundreds(n: nat)
    requires 100 <= n < 1000
    ensures Decode(Tokens(n)) == Some(n)
    decreases n, 0
  {
    var ts := Tokens(n);
    assert ts[0] == Unit(n / 100) && ts[1] == Hundred;
    assert LastIndex(ts, ScaleWord(Crores)) == -1;
    assert LastIndex(ts, ScaleWord(Lakhs)) == -1;
    assert LastIndex(ts, ScaleWord(Thousands)) == -1;
    if n % 100 != 0 {
      DecodeTokens(n % 100);
      assert ts[2] == And && ts[3..] == Tokens(n % 100);
    }
  }

  lemma {:induction false} DecodeScaledTokens(n: nat, hi: nat, s: Scale, lo: nat)
    requires 0 < hi < n && lo < n && n == s.Times(hi) + lo
    requires s == Thousands ==> hi < 100 && lo < 1000
    requires s == Lakhs ==> hi < 100 && lo < Lakh
    requires s == Crores ==> lo < Crore
    ensures Decode(ScaledTokens(hi, s, lo)) == Some(n)
    decreases n, 0
  {
    var los := if lo != 0 then Tokens(lo) else [];
    DecodeTokens(hi);
    if lo != 0 {
      DecodeTokens(lo);
    }
    DecodeJoined(Tokens(hi), s, los, hi, lo);
    var ts := Tokens(hi) + [ScaleWord(s)] + los;
    assert ScaledTokens(hi, s, lo) == ts;
    assert Decode(ts) == Some(s.Times(hi) + lo);
  }

  /** A word list with a scale word that has no larger scale word anywhere and
      no equal one after it reads as `hi` of that scale plus `lo`. */
  lemma {:induction false} DecodeJoined(his: seq<Word>, s: Scale, los: seq<Word>, hi: nat, lo: nat)
    requires s != Crores ==> ScaleWord(Crores) !in his && ScaleWord(Crores) !in los
    requires s == Thousands ==> ScaleWord(Lakhs) !in his && ScaleWord(Lakhs) !in los
    requires ScaleWord(s) !in los
    requires Decode(his) == Some(hi)
    requires if los == [] then lo == 0 else Decode(los) == Some(lo)
    ensures Decode(his + [ScaleWord(s)] + los) == Some(s.Times(hi) + lo)
  {
    var ts := his + [ScaleWord(s)] + los;
    var i := |his|;
    assert ts[..i] == his && ts[i] == ScaleWord(s) && ts[i + 1..] == los;
    LastIndexAfter(ts, ScaleWord(s), i);
    assert s != Crores ==> ScaleWord(Crores) !in ts;
    assert s == Thousands ==> ScaleWord(Lakhs) !in ts;
    DecodeAtScale(ts, i, s);
    DecodeScaleParts(ts, i, s, hi, lo);
  }

  lemma {:induction false} DecodeScaleParts(ts: seq<Word>, i: nat, s: Scale, hi: nat, lo: nat)
    requires i < |ts| && Decode(ts[..i]) == Some(hi)
    requires if i + 1 == |ts| then lo == 0 else Decode(ts[i + 1..]) == Some(lo)
    ensures DecodeScale(ts, i, s) == Some(s.Times(hi) + lo)
  {
  }

  /** Decoding splits at the largest scale word present. */
  lemma {:induction false} DecodeAtScale(ts: seq<Word>, i: nat, s: Scale)
    requires i < |ts| && LastIndex(ts, ScaleWord(s)) == i
    requires s != Crores ==> ScaleWord(Crores) !in ts
    requires s == Thousands ==> ScaleWord(Lakhs) !in ts
    ensures Decode(ts) == DecodeScale(ts, i, s)
  {
    assert ts != [Zero];
    if s != Crores {
      assert LastIndex(ts, ScaleWord(Crores)) == -1;
    }
    if s == Thousands {
      assert LastIndex(ts, ScaleWord(Lakhs)) == -1;
    }
  }

  /** Distinct amounts are written with distinct words. */
  lemma {:induction false} WordsInjective(a: nat, b: nat)
    requires NumberToWords(a) == NumberToWords(b)
    ensures a == b
  {
    SplitWords(a);
    SplitWords(b);
    SpelledInjective(Tokens(a), Tokens(b));
    DecodeTokens(a);
    DecodeTokens(b);
  }
}
